=== FILE: README.md ===
# ThinkR retrieval core in Dafny

ThinkR is a chatbot that tutors students in R. It answers with the help of course material that has been retrieved for the question. This project models the retrieval pipeline and the chat bookkeeping around it, and proves properties of that model:

- **Sentence splitting** (`Sentences`): the code-fence scan with its regular expression ```` ```r\s*\n(.*?)\n``` ````, the split after `.`, `!` or `?` plus whitespace, putting the fenced bodies back, and the final strip.
- **Chunking** (`Chunker`): `chunk_text` packs a page's sentences greedily into chunks of up to `chunk_size` characters. Only a chunk that is nothing but its restart text can be longer. Each new chunk restarts with up to `chunk_overlap // 50` sentences of overlap; near the start of a page there are fewer.
- **Timestamps** (`Timestamps`): the three `\b\d{1,2}:\d{2}…\b` patterns of `extract_timestamps`, with `\b` and the greedy `\d{1,2}` spelled out.
- **Vector store** (`VectorStore`):
  - adding, clearing, updating and describing the store;
  - filtering FAISS hits through the `idx < len(metadata)` guard and the threshold;
  - the stable descending sort;
  - the context text with its references;
  - batch search.
- **Prompt manager** (`Prompts`): the two messages sent to the language model, the history window, and the list of references appended to an answer.
- **Chatbot** (`Chatbot`): `index_pdfs`, `chat`, `get_recommendations`, `clear_conversation_history` and `get_system_info`.

Supporting modules:

- `Text` covers Python's whitespace set, `strip`, `join`, `split`, `replace` and `str(int)`.
- `Metadata` covers metadata dictionaries: string or integer values, truthiness, `str()` and `dict.get`.
- `Seqs` covers list comprehensions with a condition, negative indexing and `xs[a:]`.
- `Wrappers` holds `Option` and `Result`. A Python exception becomes a `Failure`.

The sentence encoder, FAISS, the language model, `'{:.3f}'` formatting and the clock are function parameters. Their results are taken as given.

## Model

| member | source | states |
|---|---|---|
| Sentences.MatchFence | thinkr_chatbot/core/pdf_processor.py:186 | A fence ```` ```r ```` followed by a newline, a one-line body and a closing newline-fence matches the code pattern and captures exactly that body. |
| Sentences.ScanBodiesFromText | thinkr_chatbot/core/pdf_processor.py:186-189 | Every body `findall` captures stood in the text between a newline and the closing fence. |
| Sentences.ScanNoMatch | thinkr_chatbot/core/pdf_processor.py:189-192 | When the pattern captures nothing, the substitution leaves the text unchanged. |
| Sentences.SplitFirst | thinkr_chatbot/core/pdf_processor.py:195 | The first sentence end followed by whitespace ends the first piece; the next piece starts after the whole whitespace run. |
| Sentences.SplitLast | thinkr_chatbot/core/pdf_processor.py:195 | With no sentence end followed by whitespace, the rest of the text is a single piece. |
| Sentences.RestoredBodyWhole | thinkr_chatbot/core/pdf_processor.py:197-203 | The piece holding a placeholder gets back whole the code body counted to it: the n-th marked piece gets the n-th body. |
| Sentences.StripNonBlankKeeps | thinkr_chatbot/core/pdf_processor.py:205 | Pieces that are already non-empty and trimmed come back unchanged from the final strip-and-filter. |
| Sentences.SplitIntoSentences | thinkr_chatbot/core/pdf_processor.py:183-205 | Every sentence returned is non-empty and has no leading or trailing whitespace. That each body survives whole is `Sentences.BodiesStayWhole`. |
| Sentences.BodiesStayWhole | thinkr_chatbot/core/pdf_processor.py:186-205 | For every text: when a piece after the split carries the placeholder and the body counted to it exists and is not blank, some returned sentence contains that body, stripped. A captured body is never split across sentences. |
| Sentences.SplitAroundFence | tests/test_chatbot.py:63-69 | For a sentence, a blank, a fenced block and a continuation, the result is two sentences: the first sentence, then the code body joined to the continuation without its fences. This is the shape of the test's sample text. |
| Chunker.ChunkSentencesSpec | thinkr_chatbot/core/pdf_processor.py:144-179 | The chunks of a page satisfy the declarative description: each chunk closes when the next sentence would push it past `chunk_size`, and restarts with the overlap window. |
| Chunker.ChunkBounds | thinkr_chatbot/core/pdf_processor.py:144-174 | The first chunk starts at sentence 0 and the last ends at the page's last sentence. End sentences strictly increase. With a non-negative `chunk_overlap`, each chunk's start is at most its end; a negative overlap makes `max(0, i - chunk_overlap // 50)` pass `i`, so the source's start can then exceed its end. |
| Chunker.OverlapRule | thinkr_chatbot/core/pdf_processor.py:161-164 | A chunk after the first starts `chunk_overlap // 50` sentences before the previous chunk's end + 1, clamped at 0. |
| Chunker.SmallOverlapNoSharing | thinkr_chatbot/core/pdf_processor.py:162-164 | With `chunk_overlap < 50`, consecutive chunks share no sentence. |
| Chunker.SentencesCovered | thinkr_chatbot/core/pdf_processor.py:146-179 | Every sentence of the page lies in some chunk's range. |
| Chunker.ChunkTextShape | thinkr_chatbot/core/pdf_processor.py:148-171 | Every chunk's text is non-empty and trimmed. |
| Chunker.ChunkSize | thinkr_chatbot/core/pdf_processor.py:148 | A chunk built from more than its restart sentence is at most `chunk_size` long. A one-sentence chunk is that sentence, whatever its length. |
| Chunker.SmallOverlapSize | thinkr_chatbot/core/pdf_processor.py:148-166 | With overlap below 50, every chunk is within `chunk_size` or is a single oversized sentence. |
| Chunker.ChunkPageSpec | thinkr_chatbot/core/pdf_processor.py:137-179 | A page's chunks carry its page number and `{'source': filename or '', 'page'}` metadata, and non-empty trimmed text. |
| Chunker.ChunkTextAppend | thinkr_chatbot/core/pdf_processor.py:136 | Chunking pages one after another is the concatenation of chunking each page. |
| Chunker.ChunkTextTags | thinkr_chatbot/core/pdf_processor.py:136-181 | Every chunk carries the page number and file name of one of the input pages. |
| Timestamps.MatchAtIff | thinkr_chatbot/core/pdf_processor.py:247-249 | The matcher accepts `[p, e)` exactly when there is a word boundary at both ends and the slice has the pattern's shape: 1–2 digits, then `:dd` groups, then optionally `.ddd`. |
| Timestamps.Occurrences | thinkr_chatbot/core/pdf_processor.py:254 | `findall`'s matches lie in the text, each is accepted by the matcher, and they do not overlap. |
| Timestamps.OccurrencesComplete | thinkr_chatbot/core/pdf_processor.py:254 | Every stand-alone timestamp, delimited by separators, is among `findall`'s matches. |
| Timestamps.FindAllSound | thinkr_chatbot/core/pdf_processor.py:254 | Each string found occurs in the text and has the pattern's shape. |
| Timestamps.FindAllFinds | thinkr_chatbot/core/pdf_processor.py:254 | A timestamp shape delimited by separators is found. |
| Timestamps.ExtractSound | thinkr_chatbot/core/pdf_processor.py:244-257 | Every extracted string occurs in the text and has one of the three shapes. |
| Timestamps.ExtractFinds | thinkr_chatbot/core/pdf_processor.py:244-257 | Every delimited timestamp of any of the three shapes is extracted. |
| Timestamps.ExtractExample | tests/test_chatbot.py:71-78 | In the test's sentence, "12:34" and "1:23:45" are both extracted. |
| VectorStore.Fresh | thinkr_chatbot/core/vector_store.py:39-43 | A new store is empty, keeps the lock-step invariant, and has the given dimension and model. |
| VectorStore.AddDocuments | thinkr_chatbot/core/vector_store.py:88-116 | Adding keeps metadata and vectors in lock-step. It only appends and keeps dimension and model. With no document whose text is non-blank, the store is unchanged. |
| VectorStore.AddDocumentsAppends | thinkr_chatbot/core/vector_store.py:98-116 | Exactly the documents with non-blank text are appended, in order, each with its metadata (or `{}`) and its encoded text. |
| VectorStore.ClearIndex | thinkr_chatbot/core/vector_store.py:190-194 | Clearing empties both metadata and vectors and keeps dimension and model. |
| VectorStore.UpdateDocuments | thinkr_chatbot/core/vector_store.py:206-210 | The store after an update holds only the new documents' entries. |
| VectorStore.UpdateForgets | thinkr_chatbot/core/vector_store.py:206-210 | Updating depends only on the store's dimension and model, not on what it held; the result holds the non-blank documents' metadata in order. |
| VectorStore.GetIndexStats | thinkr_chatbot/core/vector_store.py:197-204 | `total_documents` equals `index_size` exactly when the store is in lock-step. |
| VectorStore.AddTwoDocuments | tests/test_chatbot.py:96-111 | The test's two documents, added to an empty store, give two metadata entries. |
| VectorStore.SortByScore | thinkr_chatbot/core/vector_store.py:145 | The sort is a permutation and its output is in non-increasing score order. |
| VectorStore.SortStable | thinkr_chatbot/core/vector_store.py:145 | The sort is stable: results of equal score keep their relative order. |
| VectorStore.Collect | thinkr_chatbot/core/vector_store.py:134-142 | The guard-and-lookup succeeds exactly when no admitted hit's index is below `-len(metadata)`. The results are the admitted hits, each with `metadata[idx]` under Python indexing. |
| VectorStore.CollectInOrder | thinkr_chatbot/core/vector_store.py:135-142 | The results follow FAISS's order, and every admitted hit is among them. |
| VectorStore.SimilaritySearch | thinkr_chatbot/core/vector_store.py:123-147 | A blank query gives no results. Results are sorted by score, each at least the threshold, each a FAISS hit with an index below `len(metadata)` and that index's metadata. There are never more results than hits. |
| VectorStore.SimilaritySearchStable | thinkr_chatbot/core/vector_store.py:135-145 | Among equal scores, the search keeps FAISS's order. |
| VectorStore.SimilaritySearchAtMostK | thinkr_chatbot/core/vector_store.py:125-142 | When FAISS returns at most `k` hits, the search returns at most `k` results, and none for a `k` below one. |
| VectorStore.PaddingHitReadsLastEntry | thinkr_chatbot/core/vector_store.py:136-139 | FAISS's padding index `-1` passes the guard and, when its score clears the threshold, yields the last metadata entry. |
| VectorStore.PaddingHitOnEmptyStore | thinkr_chatbot/core/vector_store.py:136-139 | On an empty store the same hit raises `IndexError`. |
| VectorStore.SearchWithContext | thinkr_chatbot/core/vector_store.py:149-182 | One reference per result, in order. The context is empty exactly when there are no results. The module is the title or else the source (default 'Unknown Source'). The page is `str(page)` or ''. |
| VectorStore.ContextOneLinePerResult | thinkr_chatbot/core/vector_store.py:179-181 | When no title, page or formatted score holds a line break, splitting the context at line breaks gives back one `[Reference i]` line per result. |
| VectorStore.ContextLinesSplit | thinkr_chatbot/core/vector_store.py:164-181 | The numbered context lines joined with line breaks split back into exactly those lines, one per result, when no title, page or formatted score holds a line break. |
| VectorStore.BatchRow | thinkr_chatbot/core/vector_store.py:224-237 | A batch row succeeds exactly when every admitted hit's lookup succeeds. It is then a permutation of the collected results, that is, of the hits passing the index guard, whatever their score, in FAISS's order, each with its metadata. It is sorted by non-increasing score, and results of equal score keep FAISS's order. |
| VectorStore.RowDetermined | thinkr_chatbot/core/vector_store.py:224-237 | The description of a row leaves no choice: any row meeting it is the row the batch search computes. |
| VectorStore.SortedUnique | thinkr_chatbot/core/vector_store.py:145 | Two score-sorted lists that hold the same results at every score, in the same order, are equal. A stable sort therefore has one possible output. |
| VectorStore.BatchSimilaritySearch | thinkr_chatbot/core/vector_store.py:212-239 | There is one row per query, in order. Each row is that query's admitted hits, reordered by non-increasing score with ties in FAISS's order, as above. The batch fails exactly when some row's lookup raises. |
| VectorStore.BatchPaddingHit | thinkr_chatbot/core/vector_store.py:226-231 | With no threshold, a padding hit yields the last metadata entry, or `IndexError` on an empty store. |
| Seqs.FilterPositions | thinkr_chatbot/core/vector_store.py:98-102 | A conditional comprehension keeps exactly the elements satisfying the condition, in their original order. |
| Seqs.PyIndex | thinkr_chatbot/core/vector_store.py:139 | Python indexing succeeds exactly for `-len <= i < len`; negative indices count from the end. |
| Prompts.NewPromptManager | thinkr_chatbot/core/prompt_manager.py:21-23 | A new manager has an empty history. |
| Prompts.GetMessagesWithContext | thinkr_chatbot/core/prompt_manager.py:51-62 | Two messages, system then user. Without context, the user content is the question. With context, it is the fixed lead, the context, the question label and the question, each recoverable by position. |
| Prompts.MessagesMention | tests/test_chatbot.py:24-33 | The user message contains both the question and the context. |
| Prompts.AddToHistory | thinkr_chatbot/core/prompt_manager.py:64-67 | Appends one entry and leaves the earlier history untouched. |
| Prompts.GetRecentHistory | thinkr_chatbot/core/prompt_manager.py:69-72 | The result is the last `n` entries, role and content only. `0` gives the whole history. A negative `n` drops the `-n` oldest. |
| Prompts.RecentAfterAdd | thinkr_chatbot/core/prompt_manager.py:64-72 | After one more message, a window of `n >= 2` is the previous window of `n - 1` plus that message. |
| Prompts.ClearHistory | thinkr_chatbot/core/prompt_manager.py:74-76 | After clearing, every history window is empty. |
| Prompts.ReferenceLine | thinkr_chatbot/core/prompt_manager.py:85-93 | A line reads, part by part: `- **`, the module (default 'Unknown Module'), `**`. Then ` (Timestamp: t)` follows unless the timestamp is 'N/A' (its default), and then ` (Page: p)` when the page is truthy. The line is the bold module alone exactly when both are absent. |
| Prompts.FormatResponseWithReferences | thinkr_chatbot/core/prompt_manager.py:78-97 | Without references the answer is unchanged. Otherwise it is kept as a prefix, followed by the header. |
| Prompts.FormatOneLinePerReference | thinkr_chatbot/core/prompt_manager.py:84-95 | After the header come exactly one line per reference, in order, each ended by a line break. |
| Chatbot.NewChatbot | thinkr_chatbot/core/chatbot.py:25-44 | Construction succeeds exactly when the given key or the environment's key is non-empty. Otherwise it fails with the key-required error. The history starts empty. The model name, temperature, max tokens, store and system prompt given are kept. |
| Chatbot.NewChatbotReports | thinkr_chatbot/core/chatbot.py:148-158 | A new chatbot's system information reports the model name, temperature and max tokens it was built with, the given store's document count, and a history length of 0. |
| Chatbot.IndexPdfs | thinkr_chatbot/core/chatbot.py:48-68 | No chunks gives a warning and changes nothing. Otherwise the store becomes exactly what `add_documents` makes of the chunks. The k-th new entry is the k-th non-blank chunk's metadata and encoding, in order, and the reported total is the store's size. Nothing but the store changes. |
| Chatbot.IndexMessageReadsBack | thinkr_chatbot/core/chatbot.py:64-67 | The success message's digits read back as the reported document count. |
| Chatbot.Chat | thinkr_chatbot/core/chatbot.py:70-122 | An error in the search or the model call gives the apology and leaves the bot unchanged. An answer records the question and the raw answer in the history and changes nothing else in the bot (model, temperature, max tokens and store are kept). The formatted response starts with the raw answer. The answer's references are exactly those the context search returned (none with context off). `context_used` holds exactly when the retrieved context text is non-empty, which is exactly when there are references. |
| Chatbot.ChatUsesRetrieved | thinkr_chatbot/core/chatbot.py:77-108 | With context on, an answer carries one reference per search result, with that result's score. Context is used exactly when the search found something. |
| Chatbot.AnswerOutcome | thinkr_chatbot/core/chatbot.py:94-111 | Once the model has answered, the question and the raw answer are appended to the history, in that order, and nothing else in the bot changes. The response starts with the raw answer, `context_used` holds exactly when there are references, and without references the response is the raw answer. |
| Chatbot.ChatWithoutContext | tests/test_chatbot.py:136-154 | With context off, the model sees only the question. The reply reports the bot's model, no context used and the raw answer. |
| Chatbot.ChatListsReferences | thinkr_chatbot/core/chatbot.py:77-97 | The answer's references are the ones `search_with_context` returned. Each of them gets its own line after the answer, headed by its module. |
| Chatbot.ClearConversationHistory | thinkr_chatbot/core/chatbot.py:143-146 | The history becomes empty; everything else in the bot (model settings, store, system prompt) is kept. |
| Chatbot.GetRecommendations | thinkr_chatbot/core/chatbot.py:124-141 | There is one recommendation per search result (threshold 0.5), in order, so in non-increasing relevance, each scoring at least 0.5. Each entry carries the topic and the score. Its module is the title, and 'Unknown Module' only when the key is missing. Page and source default to ''. Its suggestion reads "Review ", the title or 'this module', " on page ", and the page or 'N/A'. |
| Chatbot.Recommend | thinkr_chatbot/core/chatbot.py:130-138 | One result's entry: the topic and the score, the title as module ('Unknown Module' only when the key is missing), page and source ('' when missing), and the suggestion "Review <title or 'this module'> on page <page or 'N/A'>", stated part by part. |
| Chatbot.UntitledRecommendation | thinkr_chatbot/core/chatbot.py:133-137 | An untitled result is listed as 'Unknown Module', but its suggestion says "this module". |
| Chatbot.SuggestionNamesModule | thinkr_chatbot/core/chatbot.py:133-137 | The suggestion names the entry's module exactly when the result has a title. |
| Chatbot.GetSystemInfo | thinkr_chatbot/core/chatbot.py:148-158 | The report gives the model settings, the store's document count and the history length. |
| Chatbot.HistoryLengthAccounting | thinkr_chatbot/core/chatbot.py:99-101 | An answered chat adds 2 to the reported history length and a failed one adds 0. Clearing resets it to 0. |
| Text.NatToStringRoundTrip | thinkr_chatbot/core/chatbot.py:66 | Printing a count and parsing the digits back gives the count. |
| Text.SplitJoin | thinkr_chatbot/core/vector_store.py:181 | Splitting at a separator undoes joining with it, when no piece holds the separator. |
| Text.StripSpec | thinkr_chatbot/core/vector_store.py:100 | The result of `strip()` has no whitespace at either end and is no longer than its input. It is empty exactly when the input is all whitespace. |
| Text.StripIsInfix | thinkr_chatbot/core/vector_store.py:100 | `strip()` removes whitespace from the two ends only: the result is a contiguous piece of the input with nothing but whitespace before and after it. |
| Text.StripKeepsInfix | thinkr_chatbot/core/pdf_processor.py:205 | Stripping a string keeps the stripped form of anything it contains. |

## Left out

- PDF text extraction (`extract_text_from_pdf` and its three back-ends) and `process_pdf_directory`: file and library I/O. `index_pdfs` takes the chunks as a parameter.
- Index persistence (`_load_index`, `_save_index`, the pickle and FAISS files): disk I/O. The store is a value.
- The sentence encoder, the FAISS search, the OpenAI call and the clock: oracles passed as parameters. That FAISS returns at most `k` hits is a hypothesis (`VectorStore.SearchBounded`), and the hits being the nearest ones is not modelled.
- `get_document_text`: it always returns `None`.
- The system prompt's wording: the prompt manager carries it as a string.
- Logging, `load_dotenv`, and the `openai.api_key` assignment.
- Float32 conversion of scores and embeddings: scores are reals, and `'{:.3f}'` formatting is a parameter.
- Timestamps.MatchAtIff: `\d` and `\w` are taken as ASCII, although Python's `str` patterns also accept other Unicode digits and letters.
- Metadata values other than strings and integers (floats, lists, `None`) are not modelled. The references' `score` is not carried into the dictionaries the formatter reads, because the formatter does not read it.
- `get_messages_with_context(message, None)` is modelled as the empty context, which Python treats the same way.
- Sentences.SplitAroundFence: the concrete test string is covered as an instance of this general lemma rather than by evaluating the literal.
- Chatbot.Chat: the reply's `timestamp` is a parameter. An exception raised by something other than the search or the model call is not modelled.

## Notes

- The sentence splitter does not keep a fenced block in the sentence before it. The closing fence is followed by a space, not a sentence end, so the split falls before the fence. The code body then replaces the placeholder in the following piece. For the sample text of `tests/test_chatbot.py:65`, the result is `["This is a sentence.", "x <- 1 This is another sentence."]`. The fence is gone and the body sits in the second sentence. This contradicts the assertion at line 69. The model follows the code (`Sentences.SplitAroundFence`).
- With `chunk_overlap < 50` the overlap window is `chunk_overlap // 50 == 0` sentences, so consecutive chunks share nothing (`Chunker.SmallOverlapNoSharing`). For example, a chunk size of 50 with an overlap of 10 gives chunks that do not overlap.
- The overlap sentences are joined with `" "`, and the next sentence is appended directly after them without a space.
- Ties in similarity search keep FAISS's order, not the order of insertion into the store (`VectorStore.SimilaritySearchStable`).
- The guard `idx < len(metadata)` lets FAISS's padding index `-1` through. With a threshold the padding score normally fails, but `batch_similarity_search` has no threshold. A row can therefore carry the last metadata entry, or raise `IndexError` on an empty store (`VectorStore.BatchPaddingHit`).
- The context line prints the title even when it is empty, whereas the reference's module falls back to the source.
- The chatbot tests construct `ThinkRChatbot` with `vector_db_path` and `pdf_dir`, which the constructor in `chatbot.py` does not accept.

=== FILE: chatbot.dfy ===
/** The chatbot: indexing course chunks, answering a question with
    retrieved context, recommendations, and system information. The
    language model, the encoder, FAISS and the clock are parameters. */
module Chatbot {
  import opened Wrappers
  import opened Text
  import opened Metadata
  import opened Seqs
  import opened VectorStore
  import opened Prompts

  /** The chatbot's state: its model settings, the vector store and the
      prompt manager. */
  datatype Bot = Bot(modelName: string, temperature: real, maxTokens: int, store: Store, prompts: PromptManager)

  const KeyMissing := "OpenAI API key is required. Set OPENAI_API_KEY environment variable."

  /** `ThinkRChatbot(openai_api_key, model_name, temperature, max_tokens)`:
      the key given, or else the one in the environment, must be non-empty.
      The store is whatever `VectorStore()` loaded. */
  function NewChatbot(apiKey: Option<string>, envKey: Option<string>, modelName: string, temperature: real,
                      maxTokens: int, store: Store, systemPrompt: string): (r: Result<Bot, string>)
    ensures r.Success? <==> (apiKey.Some? && apiKey.value != []) || (envKey.Some? && envKey.value != [])
    ensures r.Failure? ==> r.error == KeyMissing
    ensures r.Success? ==> r.value.prompts.history == [] && r.value.store == store && r.value.modelName == modelName
    ensures r.Success? ==>
      r.value.temperature == temperature && r.value.maxTokens == maxTokens
      && r.value.prompts.systemPrompt == systemPrompt
  {
    var key := if apiKey.Some? && apiKey.value != [] then apiKey else envKey;
    if key.None? || key.value == [] then Failure(KeyMissing)
    else Success(Bot(modelName, temperature, maxTokens, store, NewPromptManager(systemPrompt)))
  }

  // ---------------------------------------------------------------------
  // Indexing

  const NothingToIndex := "No PDF chunks found to index"
  const IndexedLead := "Successfully indexed "
  const IndexedTail := " documents"

  datatype IndexReport = Warning(message: string) | Indexed(message: string, stats: IndexStats)

  datatype IndexOutcome = IndexOutcome(bot: Bot, report: IndexReport)

  /** `index_pdfs(pdf_dir)`, given the chunks `process_pdf_directory`
      produced: no chunks is a warning and changes nothing; otherwise the
      chunks are added and the store's statistics reported. */
  function IndexPdfs(bot: Bot, chunks: seq<Document>, encode: Encoder): (r: IndexOutcome)
    ensures chunks == [] <==> r.report.Warning?
    ensures chunks == [] ==> r.bot == bot && r.report.message == NothingToIndex
    ensures r.bot.prompts == bot.prompts && r.bot.modelName == bot.modelName
    ensures chunks != [] ==>
      |r.bot.store.metadata| == |bot.store.metadata| + |Positions(chunks, Indexable, 0)|
      && r.bot.store.metadata[..|bot.store.metadata|] == bot.store.metadata
      && r.report.stats.totalDocuments == |r.bot.store.metadata|
      && (Valid(bot.store) ==> Valid(r.bot.store) && r.report.stats.indexSize == r.report.stats.totalDocuments)
    ensures chunks != [] ==> r.bot.store == AddDocuments(bot.store, chunks, encode)
    ensures forall k :: 0 <= k < |Positions(chunks, Indexable, 0)| ==>
      var j := Positions(chunks, Indexable, 0)[k];
      j < |chunks| && Indexable(chunks[j])
      && r.bot.store.metadata[|bot.store.metadata| + k] == DocMetadata(chunks[j])
      && r.bot.store.vectors[|bot.store.vectors| + k] == encode(DocText(chunks[j]))
    ensures r.bot == bot.(store := r.bot.store)
  {
    if chunks == [] then IndexOutcome(bot, Warning(NothingToIndex))
    else
      var store := AddDocuments(bot.store, chunks, encode);
      AddDocumentsAppends(bot.store, chunks, encode);
      var stats := GetIndexStats(store);
      IndexOutcome(bot.(store := store), Indexed(IndexedLead + NatToString(stats.totalDocuments) + IndexedTail, stats))
  }

  /** The success message names the number of documents in the store: the
      digits between its fixed lead and tail read back as that number. */
  lemma IndexMessageReadsBack(bot: Bot, chunks: seq<Document>, encode: Encoder)
    requires chunks != []
    ensures var rep := IndexPdfs(bot, chunks, encode).report;
      var m := rep.message;
      |IndexedLead| + |IndexedTail| < |m|
      && m[..|IndexedLead|] == IndexedLead && m[|m| - |IndexedTail|..] == IndexedTail
      && (forall k :: |IndexedLead| <= k < |m| - |IndexedTail| ==> IsDigit(m[k]))
      && ParseDigits(m[|IndexedLead|..|m| - |IndexedTail|]) == rep.stats.totalDocuments
  {
    var rep := IndexPdfs(bot, chunks, encode).report;
    var n := rep.stats.totalDocuments;
    assert rep.message == IndexedLead + NatToString(n) + IndexedTail;
    Parts3(IndexedLead, NatToString(n), IndexedTail);
    NatToStringRoundTrip(n);
  }

  // ---------------------------------------------------------------------
  // Chatting

  /** The chat completion call: the messages in, the answer text or the
      exception's message out. */
  type Llm = seq<Message> -> Result<string, string>

  const ContextK := 5
  const ApologyText := "I apologize, but I encountered an error while processing your request. Please try again."

  /** What `chat` returns: the answer, or the apology when anything raised. */
  datatype Reply =
    | Answer(response: string, rawResponse: string, references: seq<Reference>, contextUsed: bool,
             model: string, timestamp: string)
    | Apology(response: string, error: string, timestamp: string)

  datatype ChatOutcome = ChatOutcome(bot: Bot, reply: Reply)

  /** A reference as the response formatter reads it: a dictionary with
      `module`, `page` and `source` (the score is not read). */
  function ReferenceDict(ref: Reference): Dict {
    map["module" := ref.moduleName, "page" := VStr(ref.page), "source" := ref.source]
  }

  function ReferenceDicts(refs: seq<Reference>): (r: seq<Dict>)
    ensures |r| == |refs|
  {
    seq(|refs|, k requires 0 <= k < |refs| => ReferenceDict(refs[k]))
  }

  /** The context `chat` retrieves: five results scoring at least 0.5, or
      nothing when context is switched off. */
  function ChatContext(bot: Bot, message: string, useContext: bool, encode: Encoder, search: Searcher, fmt3: Fmt3)
    : (r: Result<Context, string>)
    ensures r.Success? ==> (r.value.text != [] <==> r.value.references != [])
  {
    if useContext then SearchWithContext(bot.store, message, ContextK, DefaultThreshold, encode, search, fmt3)
    else Success(Context([], []))
  }

  /** The messages `chat` sends to the language model. */
  function ChatMessages(bot: Bot, message: string, useContext: bool, encode: Encoder, search: Searcher, fmt3: Fmt3)
    : seq<Message>
    requires ChatContext(bot, message, useContext, encode, search, fmt3).Success?
  {
    GetMessagesWithContext(bot.prompts, message, ChatContext(bot, message, useContext, encode, search, fmt3).value.text)
  }

  /** `chat(message, use_context)`. An exception anywhere (in the search or
      the model call) gives the apology and leaves the history alone; an
      answer records the question and the raw answer. `now` is the clock. */
  function Chat(bot: Bot, message: string, useContext: bool, encode: Encoder, search: Searcher, fmt3: Fmt3,
                llm: Llm, now: string): (r: ChatOutcome)
    ensures r.bot.store == bot.store && r.bot.modelName == bot.modelName
    ensures r.bot.prompts.systemPrompt == bot.prompts.systemPrompt
    ensures r.reply.timestamp == now
    ensures r.reply.Answer? <==>
      ChatContext(bot, message, useContext, encode, search, fmt3).Success?
      && llm(ChatMessages(bot, message, useContext, encode, search, fmt3)).Success?
    ensures r.reply.Apology? ==> r.bot == bot && r.reply.response == ApologyText
    ensures r.bot == bot.(prompts := r.bot.prompts)
    ensures r.reply.Answer? ==>
      var raw := llm(ChatMessages(bot, message, useContext, encode, search, fmt3)).value;
      r.reply.rawResponse == raw && r.reply.model == bot.modelName
      && r.bot.prompts.history == bot.prompts.history + [ChatMessage("user", message, None), ChatMessage("assistant", raw, None)]
      && |raw| <= |r.reply.response| && r.reply.response[..|raw|] == raw
      && (r.reply.contextUsed <==> r.reply.references != [])
      && (r.reply.references == [] ==> r.reply.response == raw)
      && r.reply.references == ChatContext(bot, message, useContext, encode, search, fmt3).value.references
      && (r.reply.contextUsed <==> ChatContext(bot, message, useContext, encode, search, fmt3).value.text != [])
  {
    var found := ChatContext(bot, message, useContext, encode, search, fmt3);
    if found.Failure? then ChatOutcome(bot, Apology(ApologyText, found.error, now))
    else
      var messages := GetMessagesWithContext(bot.prompts, message, found.value.text);
      var answer := llm(messages);
      if answer.Failure? then ChatOutcome(bot, Apology(ApologyText, answer.error, now))
      else
        AnswerOutcome(bot, message, found.value, answer.value, now)
  }

  /** The bot and the reply once the model has answered `raw` with the
      retrieved context `ctx`. */
  function AnswerOutcome(bot: Bot, message: string, ctx: Context, raw: string, now: string): (r: ChatOutcome)
    requires ctx.text != [] <==> ctx.references != []
    ensures r.bot.store == bot.store && r.bot.modelName == bot.modelName
    ensures r.bot.prompts.systemPrompt == bot.prompts.systemPrompt
    ensures r.reply.Answer? && r.reply.timestamp == now
    ensures r.reply.rawResponse == raw && r.reply.model == bot.modelName
    ensures r.bot.prompts.history == bot.prompts.history + [ChatMessage("user", message, None), ChatMessage("assistant", raw, None)]
    ensures |raw| <= |r.reply.response| && r.reply.response[..|raw|] == raw
    ensures r.reply.contextUsed <==> r.reply.references != []
    ensures r.reply.references == [] ==> r.reply.response == raw
    ensures r.reply.references == ctx.references
    ensures r.bot == bot.(prompts := r.bot.prompts)
    ensures r.reply.response == FormatResponseWithReferences(raw, ReferenceDicts(ctx.references))
  {
    var formatted := FormatResponseWithReferences(raw, ReferenceDicts(ctx.references));
    var prompts := AddToHistory(AddToHistory(bot.prompts, "user", message, None), "assistant", raw, None);
    ChatOutcome(bot.(prompts := prompts), Answer(formatted, raw, ctx.references, ctx.text != [], bot.modelName, now))
  }

  /** Without context the model sees only the question, and an answer
      reports the bot's model and no context used. */
  lemma ChatWithoutContext(bot: Bot, message: string, encode: Encoder, search: Searcher, fmt3: Fmt3,
                           llm: Llm, now: string, raw: string)
    requires llm([Message("system", bot.prompts.systemPrompt), Message("user", message)]) == Success(raw)
    ensures var r := Chat(bot, message, false, encode, search, fmt3, llm, now).reply;
      r.Answer? && r.model == bot.modelName && !r.contextUsed && r.response == raw && r.references == []
  {
    assert ChatMessages(bot, message, false, encode, search, fmt3)
        == [Message("system", bot.prompts.systemPrompt), Message("user", message)];
  }

  /** The formatted answer has one line per reference, headed by its module. */
  predicate ListsReferences(raw: string, refs: seq<Reference>, response: string) {
    refs != [] ==>
      |raw| + |ReferencesHeader| <= |response|
      && var lines := Split('\n', response[|raw| + |ReferencesHeader|..]);
      |lines| == |refs| + 1
      && forall k :: 0 <= k < |refs| ==>
           var head := "- **" + Render(refs[k].moduleName) + "**";
           |head| <= |lines[k]| && lines[k][..|head|] == head
  }

  lemma ReferenceDictLine(ref: Reference)
    requires NoChar('\n', Render(ref.moduleName)) && NoChar('\n', ref.page)
    ensures SingleLine(ReferenceDict(ref)) && ModuleOf(ReferenceDict(ref)) == ref.moduleName
  {
    var d := ReferenceDict(ref);
    assert TimestampOf(d) == VStr("N/A");
    assert NoChar('\n', "N/A");
    assert PageOf(d) == VStr(ref.page);
  }

  lemma FormattedReferences(raw: string, refs: seq<Reference>)
    requires forall k :: 0 <= k < |refs| ==> NoChar('\n', Render(refs[k].moduleName)) && NoChar('\n', refs[k].page)
    ensures ListsReferences(raw, refs, FormatResponseWithReferences(raw, ReferenceDicts(refs)))
  {
    if refs != [] {
      var dicts := ReferenceDicts(refs);
      forall k | 0 <= k < |dicts| ensures SingleLine(dicts[k]) && ModuleOf(dicts[k]) == refs[k].moduleName {
        ReferenceDictLine(refs[k]);
      }
      FormatOneLinePerReference(raw, dicts);
    }
  }

  /** With context, each retrieved reference gets a line after the answer
      whose head names its module. */
  lemma ChatListsReferences(bot: Bot, message: string, encode: Encoder, search: Searcher, fmt3: Fmt3,
                            llm: Llm, now: string)
    requires Chat(bot, message, true, encode, search, fmt3, llm, now).reply.Answer?
    requires var refs := Chat(bot, message, true, encode, search, fmt3, llm, now).reply.references;
      forall k :: 0 <= k < |refs| ==> NoChar('\n', Render(refs[k].moduleName)) && NoChar('\n', refs[k].page)
    ensures var r := Chat(bot, message, true, encode, search, fmt3, llm, now).reply;
      ListsReferences(r.rawResponse, r.references, r.response)
    ensures Chat(bot, message, true, encode, search, fmt3, llm, now).reply.references
         == SearchWithContext(bot.store, message, ContextK, DefaultThreshold, encode, search, fmt3).value.references
  {
    var r := Chat(bot, message, true, encode, search, fmt3, llm, now).reply;
    assert r.response == FormatResponseWithReferences(r.rawResponse, ReferenceDicts(r.references));
    FormattedReferences(r.rawResponse, r.references);
  }

  /** `clear_conversation_history()`. */
  function ClearConversationHistory(bot: Bot): (r: Bot)
    ensures r.prompts.history == [] && r.prompts.systemPrompt == bot.prompts.systemPrompt
    ensures r.store == bot.store && r.modelName == bot.modelName
    ensures r == bot.(prompts := r.prompts)
  {
    bot.(prompts := ClearHistory(bot.prompts))
  }

  // ---------------------------------------------------------------------
  // Recommendations and system information

  /** One entry of `get_recommendations`. */
  datatype Recommendation = Recommendation(topic: string, moduleName: Value, page: Value, source: Value,
                                           relevanceScore: real, suggestion: string)

  const SuggestionLead := "Review "

  /** What becomes of one search result: the topic and the score; the title
      as module, `'Unknown Module'` only when there is no title key; the page
      and the source, `''` when missing; and the suggestion "Review <title>
      on page <page>", with `'this module'` and `'N/A'` filling in for a
      missing title or page. */
  predicate RecommendsResult(rec: Recommendation, topic: string, x: Retrieved) {
    var md := x.metadata;
    rec.topic == topic && rec.relevanceScore == x.score
    && rec.moduleName == (if "title" in md then md["title"] else VStr("Unknown Module"))
    && rec.page == (if "page" in md then md["page"] else VStr([]))
    && rec.source == (if "source" in md then md["source"] else VStr([]))
    && Reads(rec.suggestion, [SuggestionLead, if "title" in md then Render(md["title"]) else "this module",
                              " on page ", if "page" in md then Render(md["page"]) else "N/A"])
  }

  function Recommend(topic: string, x: Retrieved): (r: Recommendation)
    ensures r.topic == topic && r.relevanceScore == x.score
    ensures StartsWith(r.suggestion, SuggestionLead)
    ensures RecommendsResult(r, topic, x)
  {
    var md := x.metadata;
    var title := Render(Get(md, "title", VStr("this module")));
    var page := Render(Get(md, "page", VStr("N/A")));
    var suggestion := SuggestionLead + title + " on page " + page;
    SuggestionParts(title, page, suggestion);
    Recommendation(topic, Get(md, "title", VStr("Unknown Module")), Get(md, "page", VStr([])),
                   Get(md, "source", VStr([])), x.score, suggestion)
  }

  lemma SuggestionParts(title: string, page: string, s: string)
    requires s == SuggestionLead + title + " on page " + page
    ensures Reads(s, [SuggestionLead, title, " on page ", page])
    ensures StartsWith(s, SuggestionLead)
  {
    ReadsSnoc3([], [], SuggestionLead, title, " on page ");
    assert [] + SuggestionLead + title + " on page " == SuggestionLead + title + " on page ";
    ReadsSnoc(SuggestionLead + title + " on page ", [] + [SuggestionLead, title, " on page "], page);
    assert [] + [SuggestionLead, title, " on page "] + [page] == [SuggestionLead, title, " on page ", page];
    StartsWithAppend(SuggestionLead, title + " on page " + page);
    assert SuggestionLead + (title + " on page " + page) == s;
  }

  /** The suggestion names the recommended module exactly when the result
      has a title; without one it says "this module" where the module field
      says 'Unknown Module'. */
  lemma SuggestionNamesModule(topic: string, x: Retrieved)
    ensures var r := Recommend(topic, x);
      StartsWith(r.suggestion, SuggestionLead + Render(r.moduleName)) <==> "title" in x.metadata
  {
    var r := Recommend(topic, x);
    var md := x.metadata;
    var page := Render(Get(md, "page", VStr("N/A")));
    if "title" in md {
      var lead := SuggestionLead + Render(md["title"]);
      assert r.suggestion == lead + (" on page " + page);
      StartsWithAppend(lead, " on page " + page);
    } else {
      var lead := SuggestionLead + "Unknown Module";
      assert r.suggestion[7] == 't' && lead[7] == 'U';
      assert |lead| <= |r.suggestion| ==> r.suggestion[..|lead|][7] == 't';
    }
  }

  /** `get_recommendations(topic, num_recommendations)`: one entry per
      search result (default threshold 0.5), best first. */
  function GetRecommendations(bot: Bot, topic: string, count: int, encode: Encoder, search: Searcher)
    : (r: Result<seq<Recommendation>, string>)
    ensures r.Success? <==> SimilaritySearch(bot.store, topic, count, DefaultThreshold, encode, search).Success?
    ensures r.Success? ==>
      var results := SimilaritySearch(bot.store, topic, count, DefaultThreshold, encode, search).value;
      |r.value| == |results|
      && (forall i :: 0 <= i < |r.value| ==>
            r.value[i].topic == topic && r.value[i].relevanceScore == results[i].score
            && r.value[i].relevanceScore >= DefaultThreshold
            && StartsWith(r.value[i].suggestion, SuggestionLead)
            && RecommendsResult(r.value[i], topic, results[i]))
      && (forall i, j :: 0 <= i < j < |r.value| ==> r.value[i].relevanceScore >= r.value[j].relevanceScore)
  {
    var results :- SimilaritySearch(bot.store, topic, count, DefaultThreshold, encode, search);
    Success(seq(|results|, i requires 0 <= i < |results| => Recommend(topic, results[i])))
  }

  /** A result without a title is recommended as "Unknown Module", while
      its suggestion says "this module". */
  lemma UntitledRecommendation(topic: string, x: Retrieved)
    requires "title" !in x.metadata
    ensures Recommend(topic, x).moduleName == VStr("Unknown Module")
    ensures StartsWith(Recommend(topic, x).suggestion, SuggestionLead + "this module" + " on page ")
  {
    var s := Recommend(topic, x).suggestion;
    var rest := Render(Get(x.metadata, "page", VStr("N/A")));
    var lead := SuggestionLead + "this module" + " on page ";
    assert s == lead + rest;
    StartsWithAppend(lead, rest);
  }

  /** What `get_system_info()` reports. */
  datatype SystemInfo = SystemInfo(modelName: string, temperature: real, maxTokens: int,
                                   vectorStoreStats: IndexStats, historyLength: nat)

  function GetSystemInfo(bot: Bot): (r: SystemInfo)
    ensures r.historyLength == |bot.prompts.history|
    ensures r.vectorStoreStats.totalDocuments == |bot.store.metadata|
    ensures r.modelName == bot.modelName && r.temperature == bot.temperature && r.maxTokens == bot.maxTokens
  {
    SystemInfo(bot.modelName, bot.temperature, bot.maxTokens, GetIndexStats(bot.store), |bot.prompts.history|)
  }

  /** A new chatbot reports the settings it was built with, the store it
      was given and an empty history. */
  lemma NewChatbotReports(apiKey: Option<string>, envKey: Option<string>, modelName: string, temperature: real,
                          maxTokens: int, store: Store, systemPrompt: string)
    requires NewChatbot(apiKey, envKey, modelName, temperature, maxTokens, store, systemPrompt).Success?
    ensures var info := GetSystemInfo(NewChatbot(apiKey, envKey, modelName, temperature, maxTokens, store, systemPrompt).value);
      info.modelName == modelName && info.temperature == temperature && info.maxTokens == maxTokens
      && info.vectorStoreStats.totalDocuments == |store.metadata| && info.historyLength == 0
  {
  }

  /** With context on, an answer's references are those the search
      retrieved, one per result, and context is used exactly when the
      search found something. */
  lemma ChatUsesRetrieved(bot: Bot, message: string, encode: Encoder, search: Searcher, fmt3: Fmt3,
                          llm: Llm, now: string)
    requires Chat(bot, message, true, encode, search, fmt3, llm, now).reply.Answer?
    ensures var r := Chat(bot, message, true, encode, search, fmt3, llm, now).reply;
      var results := SimilaritySearch(bot.store, message, ContextK, DefaultThreshold, encode, search).value;
      |r.references| == |results|
      && (r.contextUsed <==> results != [])
      && forall i :: 0 <= i < |results| ==> r.references[i].score == results[i].score
  {
  }

  /** Each answered chat adds two entries to the reported history length,
      each failed one none, and clearing resets it. */
  lemma HistoryLengthAccounting(bot: Bot, message: string, useContext: bool, encode: Encoder, search: Searcher,
                                fmt3: Fmt3, llm: Llm, now: string)
    ensures var r := Chat(bot, message, useContext, encode, search, fmt3, llm, now);
      GetSystemInfo(r.bot).historyLength
        == GetSystemInfo(bot).historyLength + (if r.reply.Answer? then 2 else 0)
    ensures GetSystemInfo(ClearConversationHistory(bot)).historyLength == 0
  {
  }
}

=== FILE: chunker.dfy ===
/** `PDFProcessor.chunk_text`: each page's sentences are packed greedily
    into chunks of up to `chunk_size` characters; when a chunk is closed the
    next one starts with up to `chunk_overlap // 50` sentences of the page
    before the current one (fewer near the start of the page). A chunk can
    exceed `chunk_size` only when it holds nothing but its restart text: a
    single long sentence, or an overlap window plus the sentence that did not
    fit. */
module Chunker {
  import opened Wrappers
  import opened Text
  import Sentences

  /** One entry of the extractor's `text_content` list. `filename` is read
      with `.get('filename', '')`. */
  datatype PageText = PageText(page: int, text: string, filename: Option<string>)

  datatype ChunkMeta = ChunkMeta(source: string, page: int)

  datatype Chunk = Chunk(text: string, page: int, startSentence: int, endSentence: int, metadata: ChunkMeta)

  /** The loop state of one page: `current_chunk`, `chunk_start_sentence`
      and the chunks emitted so far. */
  datatype Acc = Acc(current: string, start: int, chunks: seq<Chunk>)

  function Max(a: int, b: int): int {
    if a < b then b else a
  }

  /** The overlap, in sentences: Python's `chunk_overlap // 50`. Dafny's `/`
      rounds towards minus infinity for a positive divisor, as `//` does. */
  function OverlapSentences(chunkOverlap: int): int {
    chunkOverlap / 50
  }

  /** Python's `sentences[lo:i]` for `lo >= 0`: empty when `lo >= i`. */
  function Window(s: seq<string>, lo: int, i: nat): seq<string>
    requires 0 <= lo && i <= |s|
  {
    if lo < i then s[lo..i] else []
  }

  /** Handling of sentence `i`: close the current chunk if the sentence does
      not fit and the chunk is non-empty, restarting from the overlap window;
      then append the sentence and a space. */
  function Step(s: seq<string>, i: nat, acc: Acc, size: int, ov: int, page: int, source: string): Acc
    requires i < |s| && acc.start >= 0
  {
    var acc1 :=
      if |acc.current + s[i]| > size && acc.current != [] then
        var lo := Max(0, i - ov);
        Acc(Join(" ", Window(s, lo, i)), lo,
            acc.chunks + [Chunk(Strip(acc.current), page, acc.start, i - 1, ChunkMeta(source, page))])
      else acc;
    acc1.(current := acc1.current + s[i] + " ")
  }

  function Loop(s: seq<string>, i: nat, acc: Acc, size: int, ov: int, page: int, source: string): (r: Acc)
    requires i <= |s| && acc.start >= 0
    ensures r.start >= 0
    decreases |s| - i
  {
    if i == |s| then acc
    else
      var next := Step(s, i, acc, size, ov, page, source);
      Loop(s, i + 1, next, size, ov, page, source)
  }

  /** The chunks of one page given its sentences. */
  function ChunkSentences(s: seq<string>, size: int, chunkOverlap: int, page: int, source: string): seq<Chunk> {
    var a := Loop(s, 0, Acc([], 0, []), size, OverlapSentences(chunkOverlap), page, source);
    if Strip(a.current) != [] then
      a.chunks + [Chunk(Strip(a.current), page, a.start, |s| - 1, ChunkMeta(source, page))]
    else a.chunks
  }

  /** The chunks of one page. */
  function ChunkPage(p: PageText, size: int, chunkOverlap: int): seq<Chunk> {
    ChunkSentences(Sentences.SplitIntoSentences(p.text), size, chunkOverlap, p.page, p.filename.GetOr([]))
  }

  /** `PDFProcessor.chunk_text(text_content)`: the pages' chunks, page after
      page. */
  function ChunkText(pages: seq<PageText>, size: int, chunkOverlap: int): seq<Chunk> {
    ConcatMap(pages, p => ChunkPage(p, size, chunkOverlap))
  }

  /** `f` applied to each element, the results concatenated in order. */
  function ConcatMap<T, U>(xs: seq<T>, f: T -> seq<U>): seq<U> {
    if xs == [] then [] else f(xs[0]) + ConcatMap(xs[1..], f)
  }

  // ---------------------------------------------------------------------
  // What a page's chunks are, stated without the loop

  /** What `_split_into_sentences` guarantees of its output. */
  predicate SentencesOk(s: seq<string>) {
    forall k :: 0 <= k < |s| ==> s[k] != [] && Trimmed(s[k])
  }

  /** Each sentence followed by one space, concatenated. */
  function Terminated(xs: seq<string>): string {
    if xs == [] then [] else Terminated(xs[..|xs| - 1]) + xs[|xs| - 1] + " "
  }

  /** The unstripped text of a chunk that starts at sentence `st`, was
      (re)started at sentence `r`, and has taken the sentences before `j`:
      the overlap sentences joined by spaces, then each sentence from `r`
      followed by a space. */
  function Raw(s: seq<string>, st: int, r: nat, j: nat): string
    requires 0 <= st && r <= j <= |s|
  {
    Join(" ", Window(s, st, r)) + Terminated(s[r..j])
  }

  /** The sentence at which the `k`-th chunk of a page was (re)started: the
      one after the previous chunk's last sentence, or 0 for the first. */
  function Restart(cs: seq<Chunk>, k: nat): int
    requires k <= |cs|
  {
    if k == 0 then 0 else cs[k - 1].endSentence + 1
  }

  /** Sentence `j` fitted into the chunk started at `st` and restarted at
      `r`: adding it kept the text within `size` characters. */
  ghost predicate Fits(s: seq<string>, size: int, st: int, r: int, j: int) {
    0 <= st && 0 <= r <= j < |s| && |Raw(s, st, r, j) + s[j]| <= size
  }

  /** Chunk `c`, restarted at `r`, is the one the greedy rule builds: its
      start is the overlap window's start, its text is its stripped raw text,
      and every sentence after `r` was admitted because it fitted. */
  ghost predicate ChunkBuilt(s: seq<string>, size: int, ov: int, page: int, source: string,
                             c: Chunk, r: int, first: bool)
  {
    && 0 <= r <= c.endSentence < |s|
    && c.startSentence == (if first then 0 else Max(0, r - ov))
    && c.text == Strip(Raw(s, c.startSentence, r, c.endSentence + 1))
    && c.page == page && c.metadata == ChunkMeta(source, page)
    && forall j :: r < j <= c.endSentence ==> Fits(s, size, c.startSentence, r, j)
  }

  /** Chunk `c` (restarted at `r`) was closed because the next sentence did
      not fit. */
  ghost predicate ClosedBy(s: seq<string>, size: int, c: Chunk, r: int) {
    && 0 <= r <= c.endSentence && 0 <= c.startSentence
    && c.endSentence + 1 < |s|
    && |Raw(s, c.startSentence, r, c.endSentence + 1) + s[c.endSentence + 1]| > size
  }

  ghost predicate Built(s: seq<string>, size: int, ov: int, page: int, source: string, cs: seq<Chunk>, k: nat) {
    k < |cs| && ChunkBuilt(s, size, ov, page, source, cs[k], Restart(cs, k), k == 0)
  }

  ghost predicate Closed(s: seq<string>, size: int, cs: seq<Chunk>, k: nat) {
    k < |cs| && ClosedBy(s, size, cs[k], Restart(cs, k))
  }

  /** The complete description of a page's chunks. */
  ghost predicate PageChunks(s: seq<string>, size: int, ov: int, page: int, source: string, cs: seq<Chunk>) {
    && (|s| == 0 <==> cs == [])
    && (forall k: nat :: k < |cs| ==> Built(s, size, ov, page, source, cs, k))
    && (forall k: nat :: k < |cs| - 1 ==> Closed(s, size, cs, k))
    && (cs != [] ==> cs[|cs| - 1].endSentence == |s| - 1)
  }

  /** What holds of the chunk under construction after `i` sentences. */
  ghost predicate OpenChunk(s: seq<string>, size: int, ov: int, i: nat, acc: Acc) {
    var r := Restart(acc.chunks, |acc.chunks|);
    && 0 <= r < i <= |s|
    && acc.start == (if acc.chunks == [] then 0 else Max(0, r - ov))
    && acc.current == Raw(s, acc.start, r, i)
    && forall j :: r < j < i ==> Fits(s, size, acc.start, r, j)
  }

  ghost predicate LoopInv(s: seq<string>, size: int, ov: int, page: int, source: string, i: nat, acc: Acc) {
    && i <= |s|
    && (i == 0 ==> acc == Acc([], 0, []))
    && (i > 0 ==> OpenChunk(s, size, ov, i, acc))
    && (forall k: nat :: k < |acc.chunks| ==> Built(s, size, ov, page, source, acc.chunks, k))
    && (forall k: nat :: k < |acc.chunks| ==> Closed(s, size, acc.chunks, k))
  }

  lemma TerminatedSnoc(s: seq<string>, r: nat, j: nat)
    requires r <= j < |s|
    ensures Terminated(s[r..j + 1]) == Terminated(s[r..j]) + s[j] + " "
  {
    assert s[r..j + 1][..j - r] == s[r..j];
  }

  lemma RawSnoc(s: seq<string>, st: int, r: nat, j: nat)
    requires 0 <= st && r <= j < |s|
    ensures Raw(s, st, r, j + 1) == Raw(s, st, r, j) + s[j] + " "
  {
    TerminatedSnoc(s, r, j);
    var w := Join(" ", Window(s, st, r));
    var t := Terminated(s[r..j]);
    assert w + (t + s[j] + " ") == w + t + s[j] + " ";
  }

  /** A chunk that has taken at least one sentence is not blank. */
  lemma RawNotBlank(s: seq<string>, st: int, r: nat, j: nat)
    requires SentencesOk(s)
    requires 0 <= st && r < j <= |s|
    ensures !AllSpace(Raw(s, st, r, j))
  {
    RawSnoc(s, st, r, j - 1);
    var x := Raw(s, st, r, j - 1);
    assert Raw(s, st, r, j)[|x|] == s[j - 1][0];
  }

  /** The step from `i` to `i + 1` keeps the loop invariant. */
  lemma StepKeepsInv(s: seq<string>, size: int, ov: int, page: int, source: string, i: nat, acc: Acc)
    requires SentencesOk(s)
    requires i < |s|
    requires LoopInv(s, size, ov, page, source, i, acc)
    ensures acc.start >= 0
    ensures LoopInv(s, size, ov, page, source, i + 1, Step(s, i, acc, size, ov, page, source))
  {
    var next := Step(s, i, acc, size, ov, page, source);
    if i == 0 {
      assert Raw(s, 0, 0, 1) == [] + Terminated(s[0..1]);
      TerminatedSnoc(s, 0, 0);
      assert s[0..0] == [];
    } else {
      var r := Restart(acc.chunks, |acc.chunks|);
      RawNotBlank(s, acc.start, r, i);
      if |acc.current + s[i]| > size {
        CloseKeepsInv(s, size, ov, page, source, i, acc);
      } else {
        RawSnoc(s, acc.start, r, i);
        assert next.chunks == acc.chunks;
        assert next.current == Raw(s, acc.start, r, i + 1);
      }
    }
  }

  lemma CloseKeepsInv(s: seq<string>, size: int, ov: int, page: int, source: string, i: nat, acc: Acc)
    requires 0 < i < |s|
    requires LoopInv(s, size, ov, page, source, i, acc)
    requires |acc.current + s[i]| > size && acc.current != []
    ensures LoopInv(s, size, ov, page, source, i + 1, Step(s, i, acc, size, ov, page, source))
  {
    var lo := Max(0, i - ov);
    var c := Chunk(Strip(acc.current), page, acc.start, i - 1, ChunkMeta(source, page));
    var next := Acc(Join(" ", Window(s, lo, i)) + s[i] + " ", lo, acc.chunks + [c]);
    StepCloses(s, size, ov, page, source, i, acc);
    ClosedInv(s, size, ov, page, source, i, acc);
    assert Step(s, i, acc, size, ov, page, source) == next;
  }

  /** The closing branch of `Step`, spelled out. */
  lemma StepCloses(s: seq<string>, size: int, ov: int, page: int, source: string, i: nat, acc: Acc)
    requires i < |s| && acc.start >= 0
    requires |acc.current + s[i]| > size && acc.current != []
    ensures Step(s, i, acc, size, ov, page, source)
         == Acc(Join(" ", Window(s, Max(0, i - ov), i)) + s[i] + " ", Max(0, i - ov),
                acc.chunks + [Chunk(Strip(acc.current), page, acc.start, i - 1, ChunkMeta(source, page))])
  {
  }

  lemma ClosedInv(s: seq<string>, size: int, ov: int, page: int, source: string, i: nat, acc: Acc)
    requires 0 < i < |s|
    requires LoopInv(s, size, ov, page, source, i, acc)
    requires |acc.current + s[i]| > size && acc.current != []
    ensures LoopInv(s, size, ov, page, source, i + 1,
                    Acc(Join(" ", Window(s, Max(0, i - ov), i)) + s[i] + " ", Max(0, i - ov),
                        acc.chunks + [Chunk(Strip(acc.current), page, acc.start, i - 1, ChunkMeta(source, page))]))
  {
    var c := Chunk(Strip(acc.current), page, acc.start, i - 1, ChunkMeta(source, page));
    var cs := acc.chunks + [c];
    ClosedChunk(s, size, ov, page, source, i, acc);
    ExtendChunks(s, size, ov, page, source, acc.chunks, c, true);
    RestartOpen(s, size, ov, i, Max(0, i - ov), cs);
  }

  /** The open chunk, once closed after sentence `i - 1`, is built by the
      greedy rule. */
  lemma OpenChunkBuilt(s: seq<string>, size: int, ov: int, page: int, source: string, i: nat, acc: Acc)
    requires 0 < i <= |s|
    requires OpenChunk(s, size, ov, i, acc)
    ensures ChunkBuilt(s, size, ov, page, source,
                       Chunk(Strip(acc.current), page, acc.start, i - 1, ChunkMeta(source, page)),
                       Restart(acc.chunks, |acc.chunks|), |acc.chunks| == 0)
  {
  }

  /** The chunk closed before sentence `i` is built by the greedy rule and
      closed because sentence `i` did not fit. */
  lemma ClosedChunk(s: seq<string>, size: int, ov: int, page: int, source: string, i: nat, acc: Acc)
    requires 0 < i < |s|
    requires OpenChunk(s, size, ov, i, acc)
    requires |acc.current + s[i]| > size
    ensures ChunkBuilt(s, size, ov, page, source,
                       Chunk(Strip(acc.current), page, acc.start, i - 1, ChunkMeta(source, page)),
                       Restart(acc.chunks, |acc.chunks|), |acc.chunks| == 0)
    ensures ClosedBy(s, size, Chunk(Strip(acc.current), page, acc.start, i - 1, ChunkMeta(source, page)),
                     Restart(acc.chunks, |acc.chunks|))
  {
    OpenChunkBuilt(s, size, ov, page, source, i, acc);
  }

  /** Appending a chunk keeps the description of the earlier ones. */
  lemma ExtendChunks(s: seq<string>, size: int, ov: int, page: int, source: string,
                     cs: seq<Chunk>, c: Chunk, closed: bool)
    requires forall k: nat :: k < |cs| ==> Built(s, size, ov, page, source, cs, k)
    requires forall k: nat :: k < |cs| ==> Closed(s, size, cs, k)
    requires ChunkBuilt(s, size, ov, page, source, c, Restart(cs, |cs|), |cs| == 0)
    requires closed ==> ClosedBy(s, size, c, Restart(cs, |cs|))
    ensures forall k: nat :: k <= |cs| ==> Built(s, size, ov, page, source, cs + [c], k)
    ensures forall k: nat :: k < |cs| ==> Closed(s, size, cs + [c], k)
    ensures closed ==> Closed(s, size, cs + [c], |cs|)
  {
    forall k: nat | k <= |cs|
      ensures Built(s, size, ov, page, source, cs + [c], k)
      ensures k < |cs| || closed ==> Closed(s, size, cs + [c], k)
    {
      if k < |cs| {
        SnocKeeps(s, size, ov, page, source, cs, c, k);
      } else {
        SnocLast(s, size, ov, page, source, cs, c, closed);
      }
    }
  }

  lemma SnocKeeps(s: seq<string>, size: int, ov: int, page: int, source: string,
                  cs: seq<Chunk>, c: Chunk, k: nat)
    requires Built(s, size, ov, page, source, cs, k) && Closed(s, size, cs, k)
    ensures Built(s, size, ov, page, source, cs + [c], k) && Closed(s, size, cs + [c], k)
  {
    assert Restart(cs + [c], k) == Restart(cs, k);
    assert (cs + [c])[k] == cs[k];
  }

  lemma SnocLast(s: seq<string>, size: int, ov: int, page: int, source: string,
                 cs: seq<Chunk>, c: Chunk, closed: bool)
    requires ChunkBuilt(s, size, ov, page, source, c, Restart(cs, |cs|), |cs| == 0)
    requires closed ==> ClosedBy(s, size, c, Restart(cs, |cs|))
    ensures Built(s, size, ov, page, source, cs + [c], |cs|)
    ensures closed ==> Closed(s, size, cs + [c], |cs|)
  {
    assert Restart(cs + [c], |cs|) == Restart(cs, |cs|);
    assert (cs + [c])[|cs|] == c;
  }

  /** After a close, the open chunk holds the overlap window and sentence `i`. */
  lemma RestartOpen(s: seq<string>, size: int, ov: int, i: nat, lo: int, cs: seq<Chunk>)
    requires i < |s| && cs != [] && Restart(cs, |cs|) == i && lo == Max(0, i - ov)
    ensures OpenChunk(s, size, ov, i + 1, Acc(Join(" ", Window(s, lo, i)) + s[i] + " ", lo, cs))
  {
    TerminatedSnoc(s, i, i);
    assert s[i..i] == [];
  }

  lemma LoopUnfold(s: seq<string>, i: nat, acc: Acc, size: int, ov: int, page: int, source: string)
    requires i < |s| && acc.start >= 0
    ensures Loop(s, i, acc, size, ov, page, source)
         == Loop(s, i + 1, Step(s, i, acc, size, ov, page, source), size, ov, page, source)
  {
  }

  /** One turn of the loop keeps the invariant. */
  lemma LoopStep(s: seq<string>, size: int, ov: int, page: int, source: string, i: nat, acc: Acc)
    requires SentencesOk(s) && i < |s| && acc.start >= 0
    requires LoopInv(s, size, ov, page, source, i, acc)
    ensures Step(s, i, acc, size, ov, page, source).start >= 0
    ensures LoopInv(s, size, ov, page, source, i + 1, Step(s, i, acc, size, ov, page, source))
    ensures Loop(s, i, acc, size, ov, page, source)
         == Loop(s, i + 1, Step(s, i, acc, size, ov, page, source), size, ov, page, source)
  {
    StepKeepsInv(s, size, ov, page, source, i, acc);
    InvStart(s, size, ov, page, source, i + 1, Step(s, i, acc, size, ov, page, source));
    LoopUnfold(s, i, acc, size, ov, page, source);
  }

  lemma InvStart(s: seq<string>, size: int, ov: int, page: int, source: string, i: nat, acc: Acc)
    requires LoopInv(s, size, ov, page, source, i, acc)
    ensures acc.start >= 0
  {
  }

  /** The invariant holds when the loop over a page's sentences ends. */
  lemma {:induction false} LoopKeepsInv(s: seq<string>, size: int, ov: int, page: int, source: string, i: nat, acc: Acc, fin: Acc)
    requires SentencesOk(s) && i <= |s| && acc.start >= 0
    requires LoopInv(s, size, ov, page, source, i, acc)
    requires fin == Loop(s, i, acc, size, ov, page, source)
    ensures LoopInv(s, size, ov, page, source, |s|, fin)
    decreases |s| - i
  {
    if i < |s| {
      LoopStep(s, size, ov, page, source, i, acc);
      LoopKeepsInv(s, size, ov, page, source, i + 1, Step(s, i, acc, size, ov, page, source), fin);
    }
  }



  /** `chunk_text` on one page's sentences builds exactly the chunks the
      greedy rule describes. */
  lemma ChunkSentencesSpec(s: seq<string>, size: int, chunkOverlap: int, page: int, source: string)
    requires SentencesOk(s)
    ensures PageChunks(s, size, OverlapSentences(chunkOverlap), page, source,
                       ChunkSentences(s, size, chunkOverlap, page, source))
  {
    var ov := OverlapSentences(chunkOverlap);
    LoopKeepsInv(s, size, ov, page, source, 0, Acc([], 0, []), Loop(s, 0, Acc([], 0, []), size, ov, page, source));
    var a := Loop(s, 0, Acc([], 0, []), size, ov, page, source);
    if |s| == 0 {
      assert a == Acc([], 0, []);
    } else {
      FinalFlush(s, size, ov, page, source, a);
    }
  }

  /** After the last sentence the open chunk is not blank, and flushing it
      completes the page's chunks. */
  lemma FinalFlush(s: seq<string>, size: int, ov: int, page: int, source: string, a: Acc)
    requires SentencesOk(s) && |s| > 0
    requires LoopInv(s, size, ov, page, source, |s|, a)
    ensures Strip(a.current) != []
    ensures PageChunks(s, size, ov, page, source,
                       a.chunks + [Chunk(Strip(a.current), page, a.start, |s| - 1, ChunkMeta(source, page))])
  {
    var c := Chunk(Strip(a.current), page, a.start, |s| - 1, ChunkMeta(source, page));
    RawNotBlank(s, a.start, Restart(a.chunks, |a.chunks|), |s|);
    StripSpec(a.current);
    OpenChunkBuilt(s, size, ov, page, source, |s|, a);
    ExtendChunks(s, size, ov, page, source, a.chunks, c, false);
  }

  // ---------------------------------------------------------------------
  // Consequences for a page's chunks

  /** The first chunk starts at sentence 0, the last ends at the page's last
      sentence, chunks come in increasing sentence order, and with a
      non-negative overlap every chunk has `0 <= start <= end`. */
  lemma ChunkBounds(s: seq<string>, size: int, ov: int, page: int, source: string, cs: seq<Chunk>)
    requires PageChunks(s, size, ov, page, source, cs)
    ensures cs != [] ==> cs[0].startSentence == 0 && cs[|cs| - 1].endSentence == |s| - 1
    ensures forall k :: 0 < k < |cs| ==> cs[k - 1].endSentence < cs[k].endSentence
    ensures ov >= 0 ==> forall k :: 0 <= k < |cs| ==> 0 <= cs[k].startSentence <= cs[k].endSentence
  {
    if cs != [] {
      assert Built(s, size, ov, page, source, cs, 0);
    }
    forall k | 0 <= k < |cs|
      ensures 0 < k ==> cs[k - 1].endSentence < cs[k].endSentence
      ensures ov >= 0 ==> 0 <= cs[k].startSentence <= cs[k].endSentence
    {
      assert Built(s, size, ov, page, source, cs, k);
    }
  }

  /** Where a chunk after the first starts: `ov` sentences before the one
      following its predecessor, but not before sentence 0. */
  lemma OverlapRule(s: seq<string>, size: int, ov: int, page: int, source: string, cs: seq<Chunk>)
    requires PageChunks(s, size, ov, page, source, cs)
    ensures forall k :: 0 < k < |cs| ==> cs[k].startSentence == Max(0, cs[k - 1].endSentence + 1 - ov)
  {
    forall k | 0 < k < |cs|
      ensures cs[k].startSentence == Max(0, cs[k - 1].endSentence + 1 - ov)
    {
      assert Built(s, size, ov, page, source, cs, k);
    }
  }

  /** An overlap setting below 50 characters gives no shared sentences: each
      chunk starts right after the previous one ends. */
  lemma SmallOverlapNoSharing(s: seq<string>, size: int, chunkOverlap: int, page: int, source: string,
                              cs: seq<Chunk>)
    requires 0 <= chunkOverlap < 50
    requires PageChunks(s, size, OverlapSentences(chunkOverlap), page, source, cs)
    ensures forall k :: 0 < k < |cs| ==> cs[k].startSentence == cs[k - 1].endSentence + 1
  {
    OverlapRule(s, size, OverlapSentences(chunkOverlap), page, source, cs);
    ChunkBounds(s, size, OverlapSentences(chunkOverlap), page, source, cs);
  }

  /** Every sentence of the page is taken by some chunk: either as the
      sentence the chunk restarted at, or as one that fitted after it. */
  lemma SentencesCovered(s: seq<string>, size: int, ov: int, page: int, source: string, cs: seq<Chunk>,
                         j: nat)
    returns (k: nat)
    requires PageChunks(s, size, ov, page, source, cs)
    requires j < |s|
    ensures k < |cs| && Restart(cs, k) <= j <= cs[k].endSentence
  {
    k := 0;
    while cs[k].endSentence < j
      invariant k < |cs| && Restart(cs, k) <= j
      decreases |cs| - k
    {
      assert Built(s, size, ov, page, source, cs, k);
      k := k + 1;
    }
  }

  /** Every chunk's text is non-empty and has no surrounding whitespace. */
  lemma ChunkTextShape(s: seq<string>, size: int, ov: int, page: int, source: string, cs: seq<Chunk>, k: nat)
    requires SentencesOk(s)
    requires PageChunks(s, size, ov, page, source, cs)
    requires k < |cs|
    ensures cs[k].text != [] && Trimmed(cs[k].text)
  {
    assert Built(s, size, ov, page, source, cs, k);
    var c := cs[k];
    var x := Raw(s, c.startSentence, Restart(cs, k), c.endSentence + 1);
    RawNotBlank(s, c.startSentence, Restart(cs, k), c.endSentence + 1);
    StripSpec(x);
  }

  /** The size rule: a chunk that took a sentence after its restart
      sentence fits in `size` characters; a chunk that took only its restart
      sentence, with no overlap before it, is exactly that sentence. */
  lemma ChunkSize(s: seq<string>, size: int, ov: int, page: int, source: string, cs: seq<Chunk>, k: nat)
    requires SentencesOk(s)
    requires PageChunks(s, size, ov, page, source, cs)
    requires k < |cs|
    ensures cs[k].endSentence > Restart(cs, k) ==> |cs[k].text| <= size
    ensures cs[k].endSentence == Restart(cs, k) && (ov <= 0 || k == 0) ==>
              0 <= cs[k].endSentence < |s| && cs[k].text == s[cs[k].endSentence]
  {
    assert Built(s, size, ov, page, source, cs, k);
    var c := cs[k];
    var r := Restart(cs, k);
    var e := c.endSentence;
    var st := c.startSentence;
    RawSnoc(s, st, r, e);
    var x := Raw(s, st, r, e);
    CommonSpaces();
    assert x + s[e] + " " == (x + s[e]) + [' '];
    StripAppendSpace(x + s[e], ' ');
    if e > r {
      assert Fits(s, size, st, r, e);
      StripSpec(x + s[e]);
    } else if ov <= 0 || k == 0 {
      assert x == [] by {
        assert Window(s, st, r) == [];
        assert s[r..r] == [];
      }
      assert [] + s[e] == s[e];
      StripTrimmed(s[e]);
    }
  }

  /** With an overlap setting below 50 characters every chunk fits in
      `size` characters or is a single sentence. */
  lemma SmallOverlapSize(s: seq<string>, size: int, chunkOverlap: int, page: int, source: string,
                         cs: seq<Chunk>, k: nat)
    requires SentencesOk(s)
    requires chunkOverlap < 50
    requires PageChunks(s, size, OverlapSentences(chunkOverlap), page, source, cs)
    requires k < |cs|
    ensures |cs[k].text| <= size || (0 <= cs[k].endSentence < |s| && cs[k].text == s[cs[k].endSentence])
  {
    var ov := OverlapSentences(chunkOverlap);
    assert Built(s, size, ov, page, source, cs, k);
    ChunkSize(s, size, ov, page, source, cs, k);
  }

  // ---------------------------------------------------------------------
  // Several pages

  /** A page's chunks are the greedy chunks of its sentences, tagged with
      its page number and file name. */
  lemma ChunkPageSpec(p: PageText, size: int, chunkOverlap: int)
    ensures PageChunks(Sentences.SplitIntoSentences(p.text), size, OverlapSentences(chunkOverlap),
                       p.page, p.filename.GetOr([]), ChunkPage(p, size, chunkOverlap))
    ensures forall c :: c in ChunkPage(p, size, chunkOverlap) ==>
              c.page == p.page && c.metadata == ChunkMeta(p.filename.GetOr([]), p.page)
              && c.text != [] && Trimmed(c.text)
  {
    var s := Sentences.SplitIntoSentences(p.text);
    var ov := OverlapSentences(chunkOverlap);
    var source := p.filename.GetOr([]);
    ChunkSentencesSpec(s, size, chunkOverlap, p.page, source);
    var cs := ChunkPage(p, size, chunkOverlap);
    forall c | c in cs
      ensures c.page == p.page && c.metadata == ChunkMeta(source, p.page) && c.text != [] && Trimmed(c.text)
    {
      var k :| 0 <= k < |cs| && cs[k] == c;
      assert Built(s, size, ov, p.page, source, cs, k);
      ChunkTextShape(s, size, ov, p.page, source, cs, k);
    }
  }

  lemma {:induction false} ConcatMapAppend<T, U>(xs: seq<T>, ys: seq<T>, f: T -> seq<U>)
    ensures ConcatMap(xs + ys, f) == ConcatMap(xs, f) + ConcatMap(ys, f)
  {
    if xs != [] {
      assert (xs + ys)[0] == xs[0];
      assert (xs + ys)[1..] == xs[1..] + ys;
      ConcatMapAppend(xs[1..], ys, f);
    } else {
      assert xs + ys == ys;
    }
  }

  /** Chunking several pages is chunking each page, in page order. */
  lemma ChunkTextAppend(ps: seq<PageText>, qs: seq<PageText>, size: int, chunkOverlap: int)
    ensures ChunkText(ps + qs, size, chunkOverlap) == ChunkText(ps, size, chunkOverlap) + ChunkText(qs, size, chunkOverlap)
  {
    ConcatMapAppend(ps, qs, p => ChunkPage(p, size, chunkOverlap));
  }

  /** Every chunk carries the page number and file name of a page it came
      from, and its text is non-empty and trimmed. */
  lemma ChunkTextCons(pages: seq<PageText>, size: int, chunkOverlap: int)
    requires pages != []
    ensures ChunkText(pages, size, chunkOverlap)
         == ChunkPage(pages[0], size, chunkOverlap) + ChunkText(pages[1..], size, chunkOverlap)
  {
  }

  lemma {:induction false} ChunkTextTags(pages: seq<PageText>, size: int, chunkOverlap: int)
    ensures forall c :: c in ChunkText(pages, size, chunkOverlap) ==>
              (exists i :: 0 <= i < |pages| && c.page == pages[i].page
                 && c.metadata == ChunkMeta(pages[i].filename.GetOr([]), pages[i].page))
              && c.text != [] && Trimmed(c.text)
  {
    if pages != [] {
      var head := ChunkPage(pages[0], size, chunkOverlap);
      var tail := ChunkText(pages[1..], size, chunkOverlap);
      ChunkTextCons(pages, size, chunkOverlap);
      ChunkPageSpec(pages[0], size, chunkOverlap);
      ChunkTextTags(pages[1..], size, chunkOverlap);
      forall c: Chunk | c in head + tail
        ensures exists i :: 0 <= i < |pages| && c.page == pages[i].page
                 && c.metadata == ChunkMeta(pages[i].filename.GetOr([]), pages[i].page)
      {
        if c !in head {
          assert c in tail;
          var i :| 0 <= i < |pages[1..]| && c.page == pages[1..][i].page
                 && c.metadata == ChunkMeta(pages[1..][i].filename.GetOr([]), pages[1..][i].page);
          assert pages[1..][i] == pages[i + 1];
        }
      }
    }
  }
}

=== FILE: metadata.dfy ===
/** Metadata dictionaries as the core uses them: string keys mapping to
    strings or integers (`source`, `title` and `filename` are strings, `page`
    is an integer), read with `dict.get` defaults and printed with `str()`. */
module Metadata {
  import opened Text

  datatype Value = VStr(s: string) | VInt(i: int)

  type Dict = map<string, Value>

  /** Python truthiness: the empty string and zero are false. */
  predicate Truthy(v: Value) {
    match v
    case VStr(s) => s != []
    case VInt(i) => i != 0
  }

  /** Python's `str(v)`, which is also what an f-string inserts. */
  function Render(v: Value): string {
    match v
    case VStr(s) => s
    case VInt(i) => IntToString(i)
  }

  /** Python's `d.get(key, default)`. */
  function Get(d: Dict, key: string, default: Value): Value {
    if key in d then d[key] else default
  }
}

=== FILE: prompt_manager.dfy ===
/** The prompt manager: the two messages sent to the language model, the
    conversation history, and the reference list appended to an answer. */
module Prompts {
  import opened Wrappers
  import opened Text
  import opened Metadata
  import opened Seqs

  /** A history entry; the timestamp is optional and never read back. */
  datatype ChatMessage = ChatMessage(role: string, content: string, timestamp: Option<string>)

  /** A `{"role": ..., "content": ...}` message as the language model sees it. */
  datatype Message = Message(role: string, content: string)

  /** The manager's state: its system prompt and the history, oldest first. */
  datatype PromptManager = PromptManager(systemPrompt: string, history: seq<ChatMessage>)

  /** `PromptManager()`; the prompt text itself is a parameter. */
  function NewPromptManager(systemPrompt: string): (r: PromptManager)
    ensures r.history == [] && r.systemPrompt == systemPrompt
  {
    PromptManager(systemPrompt, [])
  }

  const ContextLead := "Relevant course material context:\n"
  const QuestionLead := "\n\nUser question: "

  /** `get_messages_with_context(user_message, context)`: the system prompt,
      then the user's message, prefixed by the context when there is one.
      A missing context (`None`) is modelled as the empty string, which
      Python treats alike. */
  function GetMessagesWithContext(pm: PromptManager, userMessage: string, context: string): (r: seq<Message>)
    ensures |r| == 2
    ensures r[0] == Message("system", pm.systemPrompt) && r[1].role == "user"
    ensures context == [] ==> r[1].content == userMessage
    ensures context != [] ==>
      var c := r[1].content;
      |c| == |ContextLead| + |context| + |QuestionLead| + |userMessage|
      && c[..|ContextLead|] == ContextLead
      && c[|ContextLead|..|ContextLead| + |context|] == context
      && c[|ContextLead| + |context|..|c| - |userMessage|] == QuestionLead
      && c[|c| - |userMessage|..] == userMessage
  {
    var user := if context != [] then ContextLead + context + QuestionLead + userMessage else userMessage;
    [Message("system", pm.systemPrompt), Message("user", user)]
  }

  /** The user message always mentions the question, and the context when
      one is given. */
  lemma MessagesMention(pm: PromptManager, userMessage: string, context: string)
    ensures var c := GetMessagesWithContext(pm, userMessage, context)[1].content;
      Contains(c, userMessage) && Contains(c, context)
  {
    var c := GetMessagesWithContext(pm, userMessage, context)[1].content;
    if context == [] {
      ContainsSlice(c, 0, 0);
      assert c[0..0] == context;
      assert c[0..|c|] == c;
      ContainsSlice(c, 0, |c|);
    } else {
      ContainsSlice(c, |ContextLead|, |ContextLead| + |context|);
      ContainsSlice(c, |c| - |userMessage|, |c|);
    }
  }

  /** `add_to_history(role, content, timestamp)`. */
  function AddToHistory(pm: PromptManager, role: string, content: string, timestamp: Option<string>): (r: PromptManager)
    ensures r.systemPrompt == pm.systemPrompt
    ensures |r.history| == |pm.history| + 1 && r.history[..|pm.history|] == pm.history
    ensures r.history[|pm.history|] == ChatMessage(role, content, timestamp)
  {
    pm.(history := pm.history + [ChatMessage(role, content, timestamp)])
  }

  function View(m: ChatMessage): Message {
    Message(m.role, m.content)
  }

  /** `get_recent_history(max_messages)`: Python's `history[-max_messages:]`,
      so `0` gives the whole history, a window wider than the history gives
      all of it, and a negative count drops that many of the oldest. */
  function GetRecentHistory(pm: PromptManager, maxMessages: int): (r: seq<Message>)
    ensures maxMessages == 0 ==> |r| == |pm.history|
    ensures maxMessages > 0 ==> |r| == if maxMessages <= |pm.history| then maxMessages else |pm.history|
    ensures maxMessages < 0 ==> |r| == if -maxMessages <= |pm.history| then |pm.history| + maxMessages else 0
    ensures forall k :: 0 <= k < |r| ==> r[k] == View(pm.history[|pm.history| - |r| + k])
  {
    var h := pm.history;
    var start := if h != [] then SliceStart(|h|, -maxMessages) else 0;
    seq(|h| - start, k requires 0 <= k < |h| - start => View(h[start + k]))
  }

  /** The window slides: after one more message, a window of `n >= 2` is the
      previous window of `n - 1` plus the new message. (For `n == 1` the
      previous window of `0` would be the whole history.) */
  lemma RecentAfterAdd(pm: PromptManager, role: string, content: string, timestamp: Option<string>, n: int)
    requires n >= 2
    ensures GetRecentHistory(AddToHistory(pm, role, content, timestamp), n)
         == GetRecentHistory(pm, n - 1) + [Message(role, content)]
  {
    var h := pm.history;
    var h' := AddToHistory(pm, role, content, timestamp).history;
    var a := GetRecentHistory(AddToHistory(pm, role, content, timestamp), n);
    var c := GetRecentHistory(pm, n - 1);
    var s := SliceStart(|h'|, -n);
    var s' := if h != [] then SliceStart(|h|, -(n - 1)) else 0;
    assert s == s';
    assert |a| == |c| + 1;
    forall k | 0 <= k < |a| ensures a[k] == (c + [Message(role, content)])[k] {
      assert a[k] == View(h'[s + k]);
      if k < |c| {
        assert h'[..|h|][s + k] == h'[s + k];
      }
    }
  }

  /** `clear_history()`. */
  function ClearHistory(pm: PromptManager): (r: PromptManager)
    ensures r.systemPrompt == pm.systemPrompt
    ensures forall n :: GetRecentHistory(r, n) == []
  {
    pm.(history := [])
  }

  // ---------------------------------------------------------------------
  // References appended to an answer

  const ReferencesHeader := "\n\n**Relevant Course References:**\n"

  function ModuleOf(ref: Dict): Value { Get(ref, "module", VStr("Unknown Module")) }
  function TimestampOf(ref: Dict): Value { Get(ref, "timestamp", VStr("N/A")) }
  function PageOf(ref: Dict): Value { Get(ref, "page", VStr([])) }

  /** The line for one reference: the module in bold, then the timestamp
      unless it is `'N/A'`, then the page when it is truthy. */
  function ReferenceLine(ref: Dict): (r: string)
    ensures var head := "- **" + Render(ModuleOf(ref)) + "**";
      |head| <= |r| && r[..|head|] == head
      && (r == head <==> TimestampOf(ref) == VStr("N/A") && !Truthy(PageOf(ref)))
    ensures Reads(r, ["- **", Render(ModuleOf(ref)), "**"]
      + (if TimestampOf(ref) != VStr("N/A") then [" (Timestamp: ", Render(TimestampOf(ref)), ")"] else [])
      + (if Truthy(PageOf(ref)) then [" (Page: ", Render(PageOf(ref)), ")"] else []))
  {
    var m, t, p := Render(ModuleOf(ref)), Render(TimestampOf(ref)), Render(PageOf(ref));
    var head := "- **" + m + "**";
    var withTime := if TimestampOf(ref) != VStr("N/A") then head + " (Timestamp: " + t + ")" else head;
    var line := if Truthy(PageOf(ref)) then withTime + " (Page: " + p + ")" else withTime;
    assert line[..|head|] == head by {
      assert withTime[..|head|] == head;
    }
    LineParts(m, t, p, TimestampOf(ref) != VStr("N/A"), Truthy(PageOf(ref)), head, withTime, line);
    line
  }

  /** How a reference line is put together, part by part. */
  lemma LineParts(m: string, t: string, p: string, hasTime: bool, hasPage: bool,
                  head: string, withTime: string, line: string)
    requires head == "- **" + m + "**"
    requires withTime == if hasTime then head + " (Timestamp: " + t + ")" else head
    requires line == if hasPage then withTime + " (Page: " + p + ")" else withTime
    ensures Reads(line, ["- **", m, "**"]
      + (if hasTime then [" (Timestamp: ", t, ")"] else [])
      + (if hasPage then [" (Page: ", p, ")"] else []))
  {
    var headParts := ["- **", m, "**"];
    ReadsSnoc3([], [], "- **", m, "**");
    assert [] + "- **" + m + "**" == head && [] + ["- **", m, "**"] == headParts;
    ReadsOptional(head, headParts, hasTime, " (Timestamp: ", t, ")");
    ReadsOptional(withTime, headParts + (if hasTime then [" (Timestamp: ", t, ")"] else []), hasPage, " (Page: ", p, ")");
  }

  /** A line part that is present only when `present` holds. */
  lemma ReadsOptional(s: string, parts: seq<string>, present: bool, a: string, b: string, c: string)
    requires Reads(s, parts)
    ensures Reads(if present then s + a + b + c else s, parts + if present then [a, b, c] else [])
  {
    if present {
      ReadsSnoc3(s, parts, a, b, c);
    } else {
      assert parts + [] == parts;
    }
  }

  /** The references, one line each, every line ended by a line break. */
  function ReferenceBlock(refs: seq<Dict>): string {
    if refs == [] then [] else ReferenceLine(refs[0]) + "\n" + ReferenceBlock(refs[1..])
  }

  function ReferenceLines(refs: seq<Dict>): (r: seq<string>)
    ensures |r| == |refs|
  {
    seq(|refs|, k requires 0 <= k < |refs| => ReferenceLine(refs[k]))
  }

  /** `format_response_with_references(response, references)`: the answer
      unchanged, followed, when there are references, by a header and the
      reference lines. */
  function FormatResponseWithReferences(response: string, refs: seq<Dict>): (r: string)
    ensures refs == [] ==> r == response
    ensures refs != [] ==>
      |response| + |ReferencesHeader| < |r|
      && r[..|response|] == response
      && r[|response|..|response| + |ReferencesHeader|] == ReferencesHeader
  {
    if refs == [] then response
    else
      var r := response + ReferencesHeader + ReferenceBlock(refs);
      assert |ReferenceBlock(refs)| > 0;
      assert r[..|response|] == response;
      r
  }

  /** The rendered module, timestamp and page hold no line break. */
  predicate SingleLine(ref: Dict) {
    NoChar('\n', Render(ModuleOf(ref))) && NoChar('\n', Render(TimestampOf(ref))) && NoChar('\n', Render(PageOf(ref)))
  }

  lemma ReferenceLineNoBreak(ref: Dict)
    requires SingleLine(ref)
    ensures NoChar('\n', ReferenceLine(ref))
  {
    var m, t, p := Render(ModuleOf(ref)), Render(TimestampOf(ref)), Render(PageOf(ref));
    assert NoChar('\n', "- **") && NoChar('\n', "**") && NoChar('\n', " (Timestamp: ")
        && NoChar('\n', ")") && NoChar('\n', " (Page: ");
    NoCharAppend('\n', "- **", m);
    NoCharAppend('\n', "- **" + m, "**");
    var head := "- **" + m + "**";
    NoCharAppend('\n', head, " (Timestamp: ");
    NoCharAppend('\n', head + " (Timestamp: ", t);
    NoCharAppend('\n', head + " (Timestamp: " + t, ")");
    var withTime := if TimestampOf(ref) != VStr("N/A") then head + " (Timestamp: " + t + ")" else head;
    NoCharAppend('\n', withTime, " (Page: ");
    NoCharAppend('\n', withTime + " (Page: ", p);
    NoCharAppend('\n', withTime + " (Page: " + p, ")");
  }

  /** Every reference gets exactly one line, in order: splitting what
      follows the header at line breaks gives the lines and the empty piece
      after the last break. */
  lemma {:induction false} ReferenceBlockLines(refs: seq<Dict>)
    requires forall k :: 0 <= k < |refs| ==> SingleLine(refs[k])
    ensures Split('\n', ReferenceBlock(refs)) == ReferenceLines(refs) + [[]]
  {
    if refs != [] {
      var rest := refs[1..];
      ReferenceBlockLines(rest);
      ReferenceLineNoBreak(refs[0]);
      var line := ReferenceLine(refs[0]);
      assert ReferenceBlock(refs) == line + ['\n'] + ReferenceBlock(rest);
      SplitAfter('\n', line, ReferenceBlock(rest));
      LinesCons(refs);
      assert [line] + (ReferenceLines(rest) + [[]]) == ([line] + ReferenceLines(rest)) + [[]];
    }
  }

  lemma LinesCons(refs: seq<Dict>)
    requires refs != []
    ensures ReferenceLines(refs) == [ReferenceLine(refs[0])] + ReferenceLines(refs[1..])
  {
    var r := ReferenceLines(refs);
    var s := [ReferenceLine(refs[0])] + ReferenceLines(refs[1..]);
    assert |r| == |s|;
    forall k | 0 <= k < |r| ensures r[k] == s[k] {
      if k > 0 { assert refs[1..][k - 1] == refs[k]; }
    }
  }

  lemma FormatOneLinePerReference(response: string, refs: seq<Dict>)
    requires refs != []
    requires forall k :: 0 <= k < |refs| ==> SingleLine(refs[k])
    ensures var r := FormatResponseWithReferences(response, refs);
      Split('\n', r[|response| + |ReferencesHeader|..]) == ReferenceLines(refs) + [[]]
  {
    var r := FormatResponseWithReferences(response, refs);
    assert r[|response| + |ReferencesHeader|..] == ReferenceBlock(refs);
    ReferenceBlockLines(refs);
  }
}

=== FILE: sentences.dfy ===
/** `PDFProcessor._split_into_sentences`: fenced R code blocks are cut out
    (by the pattern  ```r\s*\n(.*?)\n```  with DOTALL) and replaced by a
    placeholder, the remaining text is split with  (?<=[.!?])\s+ , the
    captured code bodies are put back into the pieces that carry the
    placeholder, and the pieces are stripped with blank ones dropped. */
module Sentences {
  import opened Wrappers
  import opened Text

  const Placeholder: string := "CODE_BLOCK_PLACEHOLDER"
  const Opener: string := "```r"
  const Closer: string := "\n```"

  // ---------------------------------------------------------------------
  // The code-block pattern

  /** Length of the run of whitespace that starts at `i`. */
  function SpaceRun(t: string, i: nat): (n: nat)
    requires i <= |t|
    ensures i + n <= |t|
    ensures forall k :: i <= k < i + n ==> IsSpace(t[k])
    ensures i + n < |t| ==> !IsSpace(t[i + n])
    decreases |t| - i
  {
    if i < |t| && IsSpace(t[i]) then 1 + SpaceRun(t, i + 1) else 0
  }

  predicate CloserAt(t: string, q: nat) {
    q + |Closer| <= |t| && t[q..q + |Closer|] == Closer
  }

  /** The lazy `(.*?)\n```` starting at `b`: the first position at or after
      `b` where the closing fence begins. */
  function FindCloser(t: string, b: nat): (r: Option<nat>)
    requires b <= |t|
    ensures r.Some? ==> b <= r.value && CloserAt(t, r.value)
    ensures r.Some? ==> forall q :: b <= q < r.value ==> !CloserAt(t, q)
    ensures r.None? ==> forall q :: b <= q ==> !CloserAt(t, q)
    decreases |t| - b
  {
    if b + |Closer| > |t| then None
    else if CloserAt(t, b) then Some(b)
    else FindCloser(t, b + 1)
  }

  /** Positions `lo <= hi` in the text: the body's start and the closing
      fence's position. */
  datatype Span = Span(lo: nat, hi: nat)

  /** The greedy `\s*\n` before the body, with backtracking: the whitespace
      prefix of length `s`, `s - 1`, ..., 0 is tried in turn until the
      character after it is a newline and a closing fence follows. The
      result is the body's start and the closing fence's position. */
  function TryNewline(t: string, w0: nat, s: nat): (r: Option<Span>)
    requires w0 + s < |t|
    ensures r.Some? ==> w0 < r.value.lo <= r.value.hi && CloserAt(t, r.value.hi)
    ensures r.Some? ==> t[r.value.lo - 1] == '\n'
    ensures r.Some? ==> r.value.lo <= w0 + s + 1
    decreases s
  {
    var b := w0 + s + 1;
    var q := FindCloser(t, b);
    if t[w0 + s] == '\n' && q.Some? then Some(Span(b, q.value))
    else if s == 0 then None
    else TryNewline(t, w0, s - 1)
  }

  /** `t[p..e]` is one match of the code-block pattern whose group is `body`. */
  predicate FenceAt(t: string, p: nat, body: string, e: nat) {
    && p + |Opener| + 1 + |body| + |Closer| <= e <= |t|
    && t[p..p + |Opener|] == Opener
    && AllSpace(t[p + |Opener|..e - |Closer| - |body| - 1])
    && t[e - |Closer| - |body| - 1..e] == "\n" + body + Closer
  }

  /** The outcome of trying the code-block pattern at one position: the
      captured body and the end of the match, if it matches. */
  datatype BlockMatch = NoBlock | Block(body: string, end: nat)

  /** The code-block pattern tried at position `p`. */
  function MatchBlock(t: string, p: nat): (r: BlockMatch)
    requires p <= |t|
    ensures r.Block? ==> FenceAt(t, p, r.body, r.end)
  {
    if p + |Opener| <= |t| && t[p..p + |Opener|] == Opener then BlockAfterOpener(t, p)
    else NoBlock
  }

  /** The rest of the pattern, once  ```r  stands at `p`. */
  function BlockAfterOpener(t: string, p: nat): (r: BlockMatch)
    requires p + |Opener| <= |t| && t[p..p + |Opener|] == Opener
    ensures r.Block? ==> FenceAt(t, p, r.body, r.end)
  {
    var w0 := p + |Opener|;
    var w := SpaceRun(t, w0);
    if w == 0 then NoBlock
    else
      var span := TryNewline(t, w0, w - 1);
      if span.None? then NoBlock
      else
        var b, q := span.value.lo, span.value.hi;
        FenceFound(t, p, w, b, q);
        Block(t[b..q], q + |Closer|)
  }

  /** The opener at `p`, a run of `w` whitespace characters holding a
      newline at `b - 1`, and a closing fence at `q` make one match whose
      group is `t[b..q]`. */
  lemma FenceFound(t: string, p: nat, w: nat, b: nat, q: nat)
    requires p + |Opener| < b <= q && CloserAt(t, q)
    requires t[p..p + |Opener|] == Opener && t[b - 1] == '\n'
    requires b <= p + |Opener| + w <= |t|
    requires forall k :: p + |Opener| <= k < p + |Opener| + w ==> IsSpace(t[k])
    ensures FenceAt(t, p, t[b..q], q + |Closer|)
  {
    var e := q + |Closer|;
    assert t[b - 1..e] == [t[b - 1]] + t[b..q] + t[q..e];
  }

  /** The text with every match replaced, and the captured bodies. */
  datatype Scanned = Scanned(marked: string, bodies: seq<string>)

  /** `re.findall` and `re.sub` of the code-block pattern, scanning from `p`
      as both do: leftmost match first, resuming after each match. `marked`
      is the text with every match replaced by `Placeholder`, `bodies` the
      captured groups in order. */
  function Scan(t: string, p: nat): Scanned
    requires p <= |t|
    decreases |t| - p
  {
    if p == |t| then Scanned([], [])
    else
      match MatchBlock(t, p)
      case Block(body, e) =>
        var rest := Scan(t, e);
        Scanned(Placeholder + rest.marked, [body] + rest.bodies)
      case NoBlock =>
        var rest := Scan(t, p + 1);
        Scanned([t[p]] + rest.marked, rest.bodies)
  }

  /** Over text with no backtick the scan copies characters one by one. */
  lemma {:induction false} ScanPlain(t: string, p: nat, q: nat)
    requires p <= q <= |t|
    requires forall j :: p <= j < q ==> t[j] != '`'
    ensures Scan(t, p) == Scanned(t[p..q] + Scan(t, q).marked, Scan(t, q).bodies)
    decreases q - p
  {
    if p < q {
      assert Opener[0] == '`';
      assert MatchBlock(t, p).NoBlock? by {
        if p + |Opener| <= |t| {
          assert t[p..p + |Opener|][0] == t[p];
        }
      }
      ScanSkip(t, p);
      ScanPlain(t, p + 1, q);
      ConsSlice(t, p, q, Scan(t, q).marked);
    } else {
      assert t[p..q] == [];
    }
  }

  /** Where no block starts, the scan copies one character. */
  lemma ScanSkip(t: string, p: nat)
    requires p < |t| && MatchBlock(t, p).NoBlock?
    ensures Scan(t, p) == Scanned([t[p]] + Scan(t, p + 1).marked, Scan(t, p + 1).bodies)
  {
  }

  lemma ConsSlice(t: string, p: nat, q: nat, m: string)
    requires p < q <= |t|
    ensures t[p..q] + m == [t[p]] + (t[p + 1..q] + m)
  {
    assert t[p..q] == [t[p]] + t[p + 1..q];
  }

  /** The lazy body stops at the first closing fence: with no newline in
      `t[b..q]` and a fence at `q`, the search from `b` finds `q`. */
  lemma {:induction false} FindCloserAt(t: string, b: nat, q: nat)
    requires b <= q && CloserAt(t, q)
    requires forall j :: b <= j < q ==> t[j] != '\n'
    ensures FindCloser(t, b) == Some(q)
    decreases q - b
  {
    assert Closer[0] == '\n';
    if b < q {
      assert t[b..b + |Closer|][0] == t[b];
      FindCloserAt(t, b + 1, q);
    }
  }

  /** A fenced block around `body` with a single newline after  ```r . */
  function Fence(body: string): string {
    Opener + "\n" + body + Closer
  }

  /** A fence with one newline after  ```r , a one-line body that starts
      with a non-space character, and the closing fence matches, capturing
      the body. */
  lemma MatchFence(t: string, p: nat, body: string)
    requires p + |Fence(body)| <= |t| && t[p..p + |Fence(body)|] == Fence(body)
    requires body != [] && !IsSpace(body[0])
    requires forall j :: 0 <= j < |body| ==> body[j] != '\n'
    ensures MatchBlock(t, p) == Block(body, p + |Fence(body)|)
  {
    var w0 := p + |Opener|;
    var b := w0 + 1;
    var q := b + |body|;
    FenceLayout(t, p, body);
    CommonSpaces();
    assert SpaceRun(t, b) == 0;
    assert SpaceRun(t, w0) == 1;
    FindCloserAt(t, b, q);
    assert TryNewline(t, w0, 0) == Some(Span(b, q));
  }

  /** Where each part of a fence stands in the text. */
  lemma FenceLayout(t: string, p: nat, body: string)
    requires p + |Fence(body)| <= |t| && t[p..p + |Fence(body)|] == Fence(body)
    requires body != []
    requires forall j :: 0 <= j < |body| ==> body[j] != '\n'
    ensures var b := p + |Opener| + 1;
      && b + |body| + |Closer| == p + |Fence(body)|
      && t[p..p + |Opener|] == Opener && t[b - 1] == '\n'
      && t[b..b + |body|] == body && t[b] == body[0] && CloserAt(t, b + |body|)
      && forall j :: b <= j < b + |body| ==> t[j] != '\n'
  {
    var m := Fence(body);
    var w0 := p + |Opener|;
    var b := w0 + 1;
    var q := b + |body|;
    FenceParts(body);
    SliceOfSlice(t, p, m, 0, |Opener|);
    SliceOfSlice(t, p, m, |Opener| + 1, |Opener| + 1 + |body|);
    SliceOfSlice(t, p, m, |m| - |Closer|, |m|);
    assert t[w0] == m[|Opener|] by { assert t[p..p + |m|][|Opener|] == t[w0]; }
    assert t[b] == body[0] by { assert t[b..q][0] == t[b]; }
    forall j | b <= j < q
      ensures t[j] != '\n'
    {
      assert t[b..q][j - b] == t[j];
    }
  }

  /** The pieces of a fence, by position. */
  lemma FenceParts(body: string)
    ensures var m := Fence(body);
      |m| == |Opener| + 1 + |body| + |Closer|
      && m[..|Opener|] == Opener && m[|Opener|] == '\n'
      && m[|Opener| + 1..|Opener| + 1 + |body|] == body
      && m[|m| - |Closer|..] == Closer
  {
    var m := Fence(body);
    assert m == Opener + ("\n" + body) + Closer;
    assert m[..|Opener|] == Opener;
    assert m[|Opener| + 1..|Opener| + 1 + |body|] == body;
    assert m[|m| - |Closer|..] == Closer;
  }

  lemma SliceOfSlice(t: string, p: nat, m: string, i: nat, j: nat)
    requires p + |m| <= |t| && t[p..p + |m|] == m && i <= j <= |m|
    ensures t[p + i..p + j] == m[i..j]
  {
    forall k | 0 <= k < j - i ensures t[p + i..p + j][k] == m[i..j][k] {
      assert t[p..p + |m|][i + k] == t[p + i + k];
    }
  }

  /** Where the pattern never matches, the text passes through unchanged. */
  lemma {:induction false} ScanNoMatch(t: string, p: nat)
    requires p <= |t|
    requires Scan(t, p).bodies == []
    ensures Scan(t, p).marked == t[p..]
    decreases |t| - p
  {
    if p < |t| {
      assert MatchBlock(t, p).NoBlock?;
      ScanNoMatch(t, p + 1);
      assert [t[p]] + t[p + 1..] == t[p..];
    }
  }

  /** Every captured body stood in the input between a newline and the
      closing fence. */
  lemma {:induction false} ScanBodiesFromText(t: string, p: nat, k: nat)
    requires p <= |t|
    requires k < |Scan(t, p).bodies|
    ensures Contains(t[p..], "\n" + Scan(t, p).bodies[k] + Closer)
    decreases |t| - p, 1
  {
    if p == |t| {
      ScanEnd(t);
      assert false;
    }
    var m := MatchBlock(t, p);
    if m.Block? {
      ScanTake(t, p, m.body, m.end);
      BodiesFromBlock(t, p, k, m.body, m.end);
    } else {
      BodiesAfterSkip(t, p, k);
    }
  }

  /** The case of `ScanBodiesFromText` where a block matches at `p`. */
  lemma {:induction false} BodiesFromBlock(t: string, p: nat, k: nat, body: string, e: nat)
    requires p < e <= |t| && FenceAt(t, p, body, e)
    requires k <= |Scan(t, e).bodies|
    ensures Contains(t[p..], "\n" + ([body] + Scan(t, e).bodies)[k] + Closer)
    decreases |t| - p, 0
  {
    if k == 0 {
      FirstBody(t, p, e, body, Scan(t, e).bodies);
    } else {
      ScanBodiesFromText(t, e, k - 1);
      LaterBody(t, p, e, body, Scan(t, e).bodies, k);
    }
  }

  lemma FirstBody(t: string, p: nat, e: nat, body: string, rest: seq<string>)
    requires p <= |t| && FenceAt(t, p, body, e)
    ensures Contains(t[p..], "\n" + ([body] + rest)[0] + Closer)
  {
    FenceContained(t, p, body, e);
  }

  lemma LaterBody(t: string, p: nat, e: nat, body: string, rest: seq<string>, k: nat)
    requires p <= e <= |t| && 0 < k <= |rest|
    requires Contains(t[e..], "\n" + rest[k - 1] + Closer)
    ensures Contains(t[p..], "\n" + ([body] + rest)[k] + Closer)
  {
    assert ([body] + rest)[k] == rest[k - 1];
    ContainsLater(t, p, e, "\n" + rest[k - 1] + Closer);
  }


  /** The case of `ScanBodiesFromText` where no block matches at `p`. */
  lemma {:induction false} BodiesAfterSkip(t: string, p: nat, k: nat)
    requires p < |t| && MatchBlock(t, p).NoBlock?
    requires k < |Scan(t, p).bodies|
    ensures Contains(t[p..], "\n" + Scan(t, p).bodies[k] + Closer)
    decreases |t| - p, 0
  {
    ScanSkip(t, p);
    ScanBodiesFromText(t, p + 1, k);
    ContainsLater(t, p, p + 1, "\n" + Scan(t, p + 1).bodies[k] + Closer);
  }


  lemma FenceContained(t: string, p: nat, body: string, e: nat)
    requires p <= |t| && FenceAt(t, p, body, e)
    ensures Contains(t[p..], "\n" + body + Closer)
  {
    var a := e - p - |Closer| - |body| - 1;
    ContainsSlice(t[p..], a, e - p);
    assert t[p..][a..e - p] == t[e - |Closer| - |body| - 1..e];
  }

  lemma {:induction false} ContainsLater(t: string, p: nat, e: nat, x: string)
    requires p <= e <= |t|
    requires Contains(t[e..], x)
    ensures Contains(t[p..], x)
    decreases e - p
  {
    if p < e {
      assert t[p..][1..] == t[p + 1..];
      ContainsLater(t, p + 1, e, x);
    }
  }

  // ---------------------------------------------------------------------
  // re.split(r'(?<=[.!?])\s+', text)

  predicate IsSentenceEnd(c: char) {
    c == '.' || c == '!' || c == '?'
  }

  /** Position `j` of `x` is where the split pattern can start: whitespace
      right after a sentence-ending mark. */
  predicate SplitPoint(x: string, j: int) {
    0 < j < |x| && IsSentenceEnd(x[j - 1]) && IsSpace(x[j])
  }

  ghost predicate NoSplitPoint(x: string) {
    forall j :: !SplitPoint(x, j)
  }

  /** `re.split` of `t[start..]`, having scanned up to `i` without a match;
      each match swallows the whole whitespace run. */
  function SplitFrom(t: string, start: nat, i: nat): (r: seq<string>)
    requires start <= i <= |t|
    requires start == 0 || IsSpace(t[start - 1])
    requires forall j :: start < j < i ==> !SplitPoint(t, j)
    ensures |r| >= 1
    ensures r[0] == [] || (start < |t| && r[0][0] == t[start])
    ensures forall k :: 0 <= k < |r| ==> NoSplitPoint(r[k])
    ensures forall k :: 0 <= k < |r| - 1 ==> r[k] != [] && IsSentenceEnd(r[k][|r[k]| - 1])
    ensures forall k :: 1 <= k < |r| ==> r[k] == [] || !IsSpace(r[k][0])
    decreases |t| - i
  {
    if i == |t| then
      PieceHasNoSplitPoint(t, start, i);
      assert t[start..] == t[start..i];
      [t[start..]]
    else if SplitPoint(t, i) then
      var e := i + SpaceRun(t, i);
      var rest := SplitFrom(t, e, e);
      SplitBranch(t, start, i, rest);
      [t[start..i]] + rest
    else
      SplitFrom(t, start, i + 1)
  }

  /** The pieces after a split point at `i`: the text before it, then the
      pieces of what follows the whitespace run. */
  lemma SplitBranch(t: string, start: nat, i: nat, rest: seq<string>)
    requires start <= i < |t| && SplitPoint(t, i)
    requires start == 0 || IsSpace(t[start - 1])
    requires forall j :: start < j < i ==> !SplitPoint(t, j)
    requires |rest| >= 1
    requires rest[0] == [] || (i + SpaceRun(t, i) < |t| && rest[0][0] == t[i + SpaceRun(t, i)])
    requires forall k :: 0 <= k < |rest| ==> NoSplitPoint(rest[k])
    requires forall k :: 0 <= k < |rest| - 1 ==> rest[k] != [] && IsSentenceEnd(rest[k][|rest[k]| - 1])
    requires forall k :: 1 <= k < |rest| ==> rest[k] == [] || !IsSpace(rest[k][0])
    ensures var r := [t[start..i]] + rest;
      && r[0] != [] && r[0][0] == t[start]
      && (forall k :: 0 <= k < |r| ==> NoSplitPoint(r[k]))
      && (forall k :: 0 <= k < |r| - 1 ==> r[k] != [] && IsSentenceEnd(r[k][|r[k]| - 1]))
      && (forall k :: 1 <= k < |r| ==> r[k] == [] || !IsSpace(r[k][0]))
  {
    var x := t[start..i];
    PrintableNotSpace(t[i - 1]);
    PieceHasNoSplitPoint(t, start, i);
    assert start < i && x[|x| - 1] == t[i - 1];
    assert rest[0] == [] || !IsSpace(rest[0][0]);
    PiecesCons(x, rest);
  }

  /** A piece that ends a sentence, put before pieces that start after a
      whitespace run, keeps their shape. */
  lemma PiecesCons(x: string, rest: seq<string>)
    requires x != [] && IsSentenceEnd(x[|x| - 1]) && NoSplitPoint(x)
    requires |rest| >= 1 && (rest[0] == [] || !IsSpace(rest[0][0]))
    requires forall k :: 0 <= k < |rest| ==> NoSplitPoint(rest[k])
    requires forall k :: 0 <= k < |rest| - 1 ==> rest[k] != [] && IsSentenceEnd(rest[k][|rest[k]| - 1])
    requires forall k :: 1 <= k < |rest| ==> rest[k] == [] || !IsSpace(rest[k][0])
    ensures var r := [x] + rest;
      && (forall k :: 0 <= k < |r| ==> NoSplitPoint(r[k]))
      && (forall k :: 0 <= k < |r| - 1 ==> r[k] != [] && IsSentenceEnd(r[k][|r[k]| - 1]))
      && (forall k :: 1 <= k < |r| ==> r[k] == [] || !IsSpace(r[k][0]))
  {
    var r := [x] + rest;
    assert forall k :: 1 <= k < |r| ==> r[k] == rest[k - 1];
  }

  lemma PieceHasNoSplitPoint(t: string, start: nat, i: nat)
    requires start <= i <= |t|
    requires forall j :: start < j < i ==> !SplitPoint(t, j)
    ensures NoSplitPoint(t[start..i])
  {
    var x := t[start..i];
    forall j | SplitPoint(x, j)
      ensures false
    {
      assert x[j - 1] == t[start + j - 1] && x[j] == t[start + j];
      assert SplitPoint(t, start + j);
    }
  }

  /** Scanning past positions that are not split points changes nothing. */
  lemma {:induction false} SplitWalk(t: string, start: nat, k: nat, i: nat)
    requires start <= k <= i <= |t|
    requires start == 0 || IsSpace(t[start - 1])
    requires forall j :: start <= j < i ==> !SplitPoint(t, j)
    ensures SplitFrom(t, start, k) == SplitFrom(t, start, i)
    decreases i - k
  {
    if k < i {
      SplitWalk(t, start, k + 1, i);
    }
  }

  /** With no split point after `start`, the rest of the text is one piece. */
  lemma SplitLast(t: string, start: nat)
    requires start <= |t|
    requires start == 0 || IsSpace(t[start - 1])
    requires forall j :: start <= j < |t| ==> !SplitPoint(t, j)
    ensures SplitFrom(t, start, start) == [t[start..]]
  {
    SplitWalk(t, start, start, |t|);
  }

  /** The first split point after `start` ends the first piece; the next
      piece starts after the whitespace run. */
  lemma SplitFirst(t: string, start: nat, i: nat)
    requires start <= i < |t|
    requires start == 0 || IsSpace(t[start - 1])
    requires forall j :: start <= j < i ==> !SplitPoint(t, j)
    requires SplitPoint(t, i)
    ensures SplitFrom(t, start, start) == [t[start..i]] + SplitFrom(t, i + SpaceRun(t, i), i + SpaceRun(t, i))
  {
    SplitWalk(t, start, start, i);
  }

  /** Python's `re.split(r'(?<=[.!?])\s+', t)`. */
  function SplitOnSentenceEnds(t: string): seq<string> {
    SplitFrom(t, 0, 0)
  }

  // ---------------------------------------------------------------------
  // Restoring the captured bodies

  /** The loop over the pieces with its running `code_index`: a piece that
      contains the placeholder, while bodies remain, has EVERY placeholder in
      it replaced by the next body (`str.replace`), and the index advances. */
  function Restore(pieces: seq<string>, blocks: seq<string>, ci: nat): (r: seq<string>)
    ensures |r| == |pieces|
  {
    if pieces == [] then []
    else if Contains(pieces[0], Placeholder) && ci < |blocks| then
      [ReplaceAll(pieces[0], Placeholder, blocks[ci])] + Restore(pieces[1..], blocks, ci + 1)
    else
      [pieces[0]] + Restore(pieces[1..], blocks, ci)
  }

  /** How many of `pieces` contain the placeholder. */
  function CountMarked(pieces: seq<string>): nat {
    if pieces == [] then 0
    else (if Contains(pieces[0], Placeholder) then 1 else 0) + CountMarked(pieces[1..])
  }

  /** Closed form of `Restore`: the `i`-th piece receives body number
      `ci + (marked pieces before it)` when it is marked and that body exists,
      and is left as it is otherwise. */
  lemma {:induction false} RestoreAt(pieces: seq<string>, blocks: seq<string>, ci: nat, i: nat)
    requires i < |pieces|
    ensures var n := ci + CountMarked(pieces[..i]);
            Restore(pieces, blocks, ci)[i] ==
              if Contains(pieces[i], Placeholder) && n < |blocks|
              then ReplaceAll(pieces[i], Placeholder, blocks[n])
              else pieces[i]
    decreases i
  {
    if i > 0 {
      var marked := Contains(pieces[0], Placeholder);
      var ci' := if marked && ci < |blocks| then ci + 1 else ci;
      RestoreAt(pieces[1..], blocks, ci', i - 1);
      CountStep(pieces, i);
      RestoreStep(pieces, blocks, ci, i);
    } else {
      assert pieces[..0] == [];
    }
  }

  lemma CountStep(pieces: seq<string>, i: nat)
    requires 0 < i <= |pieces|
    ensures CountMarked(pieces[..i])
         == (if Contains(pieces[0], Placeholder) then 1 else 0) + CountMarked(pieces[1..][..i - 1])
  {
    assert pieces[..i][1..] == pieces[1..][..i - 1];
  }

  lemma RestoreStep(pieces: seq<string>, blocks: seq<string>, ci: nat, i: nat)
    requires 0 < i < |pieces|
    ensures pieces[1..][i - 1] == pieces[i]
    ensures Restore(pieces, blocks, ci)[i]
         == Restore(pieces[1..], blocks, if Contains(pieces[0], Placeholder) && ci < |blocks| then ci + 1 else ci)[i - 1]
  {
  }

  /** A captured body is put back whole into a single piece: the piece that
      carries its placeholder. */
  lemma RestoredBodyWhole(pieces: seq<string>, blocks: seq<string>, i: nat)
    requires i < |pieces|
    requires Contains(pieces[i], Placeholder)
    requires CountMarked(pieces[..i]) < |blocks|
    ensures Contains(Restore(pieces, blocks, 0)[i], blocks[CountMarked(pieces[..i])])
  {
    RestoreAt(pieces, blocks, 0, i);
    ReplaceInserts(pieces[i], Placeholder, blocks[CountMarked(pieces[..i])]);
  }

  /** `[s.strip() for s in xs if s.strip()]`. */
  function StripNonBlank(xs: seq<string>): (r: seq<string>)
    ensures |r| <= |xs|
    ensures forall k :: 0 <= k < |r| ==> r[k] != [] && Trimmed(r[k])
    ensures forall k :: 0 <= k < |xs| && Strip(xs[k]) != [] ==> Strip(xs[k]) in r
  {
    if xs == [] then []
    else
      var rest := StripNonBlank(xs[1..]);
      assert forall k :: 1 <= k < |xs| ==> xs[k] == xs[1..][k - 1];
      StripSpec(xs[0]);
      if Strip(xs[0]) == [] then rest else [Strip(xs[0])] + rest
  }

  /** Pieces that are already non-blank and trimmed pass through unchanged. */
  lemma {:induction false} StripNonBlankKeeps(xs: seq<string>)
    requires forall k :: 0 <= k < |xs| ==> xs[k] != [] && Trimmed(xs[k])
    ensures StripNonBlank(xs) == xs
  {
    if xs != [] {
      StripNonBlankKeeps(xs[1..]);
      StripTrimmed(xs[0]);
      assert [xs[0]] + xs[1..] == xs;
    }
  }

  /** `PDFProcessor._split_into_sentences(text)`. */
  function SplitIntoSentences(text: string): (r: seq<string>)
    ensures forall k :: 0 <= k < |r| ==> r[k] != [] && Trimmed(r[k])
  {
    var scanned := Scan(text, 0);
    StripNonBlank(Restore(SplitOnSentenceEnds(scanned.marked), scanned.bodies, 0))
  }

  /** A captured body is never split across sentences: when the `i`-th
      piece after the split carries the placeholder and its body exists,
      some sentence contains that body, stripped (the strip of the
      sentence can only remove whitespace around it). */
  lemma BodiesStayWhole(text: string)
    ensures var scanned := Scan(text, 0);
      var pieces := SplitOnSentenceEnds(scanned.marked);
      forall i ::
        (0 <= i < |pieces| && Contains(pieces[i], Placeholder)
         && CountMarked(pieces[..i]) < |scanned.bodies|
         && Strip(scanned.bodies[CountMarked(pieces[..i])]) != []) ==>
        exists s :: s in SplitIntoSentences(text) && Contains(s, Strip(scanned.bodies[CountMarked(pieces[..i])]))
  {
    var scanned := Scan(text, 0);
    var pieces := SplitOnSentenceEnds(scanned.marked);
    forall i | 0 <= i < |pieces| && Contains(pieces[i], Placeholder)
        && CountMarked(pieces[..i]) < |scanned.bodies|
        && Strip(scanned.bodies[CountMarked(pieces[..i])]) != []
      ensures exists s :: s in SplitIntoSentences(text) && Contains(s, Strip(scanned.bodies[CountMarked(pieces[..i])]))
    {
      BodyInSentence(text, scanned, pieces, i, scanned.bodies[CountMarked(pieces[..i])]);
    }
  }

  lemma BodyInSentence(text: string, scanned: Scanned, pieces: seq<string>, i: nat, body: string)
    requires scanned == Scan(text, 0) && pieces == SplitOnSentenceEnds(scanned.marked)
    requires i < |pieces| && Contains(pieces[i], Placeholder)
    requires CountMarked(pieces[..i]) < |scanned.bodies| && body == scanned.bodies[CountMarked(pieces[..i])]
    requires Strip(body) != []
    ensures exists s :: s in SplitIntoSentences(text) && Contains(s, Strip(body))
  {
    var restored := Restore(pieces, scanned.bodies, 0);
    RestoredBodyWhole(pieces, scanned.bodies, i);
    StripKeepsInfix(restored[i], body);
    ContainsLength(Strip(restored[i]), Strip(body));
    assert SplitIntoSentences(text) == StripNonBlank(restored);
    assert Strip(restored[i]) in SplitIntoSentences(text);
  }

  // ---------------------------------------------------------------------
  // One fenced block between two sentences

  /** Scanning `a`, one fence around `body`, then `b`, where neither `a`
      nor `b` has a backtick: the fence becomes the placeholder and `body` is
      the one captured group. */
  lemma ScanOneFence(a: string, body: string, b: string)
    requires forall j :: 0 <= j < |a| ==> a[j] != '`'
    requires forall j :: 0 <= j < |b| ==> b[j] != '`'
    requires body != [] && !IsSpace(body[0])
    requires forall j :: 0 <= j < |body| ==> body[j] != '\n'
    ensures Scan(a + Fence(body) + b, 0) == Scanned(a + Placeholder + b, [body])
  {
    var m := Fence(body);
    Parts(a, m, b);
    ScanFenceAt(a + m + b, |a|, |a| + |m|, a, body, b);
  }

  lemma ScanFenceAt(t: string, p: nat, e: nat, a: string, body: string, b: string)
    requires e == p + |Fence(body)| && e <= |t|
    requires t[0..p] == a && t[p..e] == Fence(body) && t[e..|t|] == b
    requires forall j :: 0 <= j < p ==> t[j] != '`'
    requires forall j :: e <= j < |t| ==> t[j] != '`'
    requires body != [] && !IsSpace(body[0])
    requires forall j :: 0 <= j < |body| ==> body[j] != '\n'
    ensures Scan(t, 0) == Scanned(a + Placeholder + b, [body])
  {
    ScanTail(t, e, b);
    ScanMid(t, p, body, b, e);
    ScanPlain(t, 0, p);
    assert a + (Placeholder + b) == a + Placeholder + b;
  }

  /** After the fence, text without a backtick passes through. */
  lemma ScanTail(t: string, e: nat, b: string)
    requires e <= |t| && t[e..|t|] == b
    requires forall j :: e <= j < |t| ==> t[j] != '`'
    ensures Scan(t, e) == Scanned(b, [])
  {
    ScanPlain(t, e, |t|);
    ScanEnd(t);
    assert b + [] == b;
  }

  /** The fence at `p` becomes the placeholder, followed by the tail. */
  lemma ScanMid(t: string, p: nat, body: string, b: string, e: nat)
    requires e == p + |Fence(body)| && e <= |t| && t[p..e] == Fence(body)
    requires body != [] && !IsSpace(body[0])
    requires forall j :: 0 <= j < |body| ==> body[j] != '\n'
    requires Scan(t, e) == Scanned(b, [])
    ensures Scan(t, p) == Scanned(Placeholder + b, [body])
  {
    MatchFence(t, p, body);
    ScanTake(t, p, body, e);
    assert [body] + [] == [body];
  }

  lemma ScanEnd(t: string)
    ensures Scan(t, |t|) == Scanned([], [])
  {
  }

  /** Where a block matches, the scan emits the placeholder and the body. */
  lemma ScanTake(t: string, p: nat, body: string, e: nat)
    requires p < |t| && MatchBlock(t, p) == Block(body, e)
    ensures p < e <= |t| && FenceAt(t, p, body, e)
    ensures Scan(t, p) == Scanned(Placeholder + Scan(t, e).marked, [body] + Scan(t, e).bodies)
  {
  }

  lemma Parts(a: string, m: string, b: string)
    ensures (a + m + b)[0..|a|] == a
    ensures (a + m + b)[|a|..|a| + |m|] == m
    ensures (a + m + b)[|a| + |m|..|a + m + b|] == b
    ensures forall j :: 0 <= j < |a| ==> (a + m + b)[j] == a[j]
    ensures forall j :: |a| + |m| <= j < |a + m + b| ==> (a + m + b)[j] == b[j - |a| - |m|]
  {
  }

  /** Splitting `x`, one blank and `y`, where the only sentence-ending mark
      before the end is the last character of `x` and `y` starts with a
      non-space character: exactly the two pieces `x` and `y`. */
  lemma SplitTwo(x: string, y: string)
    requires x != [] && IsSentenceEnd(x[|x| - 1])
    requires forall j :: 0 <= j < |x| - 1 ==> !IsSentenceEnd(x[j])
    requires y != [] && !IsSpace(y[0])
    requires forall j :: 0 <= j < |y| - 1 ==> !IsSentenceEnd(y[j])
    ensures SplitOnSentenceEnds(x + " " + y) == [x, y]
  {
    var t := x + " " + y;
    JoinLayout(t, x, y);
    SplitTwoFirst(t, x, y);
    SplitTwoLast(t, |x| + 1, y);
    assert [x] + [y] == [x, y];
  }

  lemma SplitTwoFirst(t: string, x: string, y: string)
    requires |t| == |x| + 1 + |y| && t[|x|] == ' ' && t[0..|x|] == x
    requires forall j :: 0 <= j < |x| ==> t[j] == x[j]
    requires x != [] && IsSentenceEnd(x[|x| - 1])
    requires forall j :: 0 <= j < |x| - 1 ==> !IsSentenceEnd(x[j])
    requires y != [] && !IsSpace(y[0]) && t[|x| + 1] == y[0]
    ensures SplitFrom(t, 0, 0) == [x] + SplitFrom(t, |x| + 1, |x| + 1)
  {
    FirstPieceFacts(t, x, y[0]);
    SplitFirst(t, 0, |x|);
  }

  /** Where the parts of  x + " " + y  stand. */
  lemma JoinLayout(t: string, x: string, y: string)
    requires t == x + " " + y
    ensures |t| == |x| + 1 + |y| && t[|x|] == ' ' && t[0..|x|] == x && t[|x| + 1..] == y
    ensures forall j :: 0 <= j < |x| ==> t[j] == x[j]
    ensures forall j :: 0 <= j < |y| ==> t[|x| + 1 + j] == y[j]
  {
  }

  /** The first sentence end followed by a single space is the first split
      point, and its whitespace run has length one. */
  lemma FirstPieceFacts(t: string, x: string, c: char)
    requires |x| + 1 < |t| && IsSpace(t[|x|]) && t[|x| + 1] == c && !IsSpace(c)
    requires forall j :: 0 <= j < |x| ==> t[j] == x[j]
    requires x != [] && IsSentenceEnd(x[|x| - 1])
    requires forall j :: 0 <= j < |x| - 1 ==> !IsSentenceEnd(x[j])
    ensures SplitPoint(t, |x|) && SpaceRun(t, |x|) == 1
    ensures forall j :: 0 <= j < |x| ==> !SplitPoint(t, j)
  {
    var i := |x|;
    assert t[i - 1] == x[i - 1];
    forall j | 0 <= j < i ensures !SplitPoint(t, j) {
      if 0 < j { assert t[j - 1] == x[j - 1]; }
    }
    assert SpaceRun(t, i + 1) == 0;
  }

  lemma SplitTwoLast(t: string, s: nat, y: string)
    requires 0 < s && |t| == s + |y| && t[s - 1] == ' '
    requires forall j :: 0 <= j < |y| ==> t[s + j] == y[j]
    requires forall j :: 0 <= j < |y| - 1 ==> !IsSentenceEnd(y[j])
    ensures SplitFrom(t, s, s) == [t[s..]]
  {
    TailNoSplit(t, s, y);
    SplitLast(t, s);
  }

  /** Text that ends with a piece holding no sentence end before its last
      character, after a blank, has no split point in that piece. */
  lemma TailNoSplit(t: string, s: nat, y: string)
    requires 0 < s && |t| == s + |y| && t[s - 1] == ' '
    requires forall j :: 0 <= j < |y| ==> t[s + j] == y[j]
    requires forall j :: 0 <= j < |y| - 1 ==> !IsSentenceEnd(y[j])
    ensures forall j :: s <= j < |t| ==> !SplitPoint(t, j)
  {
    forall j | s <= j < |t| ensures !SplitPoint(t, j) {
      if j > s { assert t[j - 1] == y[j - 1 - s]; }
    }
  }

  /** Restoring one body into the second of two pieces, the first of which
      has no placeholder and the second exactly one, at its start. */
  lemma RestoreSecond(x: string, body: string, b: string)
    requires !Contains(x, Placeholder) && !Contains(b, Placeholder)
    ensures Restore([x, Placeholder + b], [body], 0) == [x, body + b]
  {
    var y := Placeholder + b;
    assert StartsWith(y, Placeholder);
    ContainsLength([] + Placeholder[..|Placeholder| - 1], Placeholder);
    assert [] + Placeholder == Placeholder;
    ReplaceFirstOccurrence([], Placeholder, b, body);
    ReplaceAbsent(b, Placeholder, body);
    assert [x, y][1..] == [y];
    assert [y][1..] == [];
  }

  /** A sentence `x`, a blank, a fenced block around `body`, then the
      continuation `b`: the splitter yields `x` and, as the second sentence,
      the body joined to `b` with the fences gone. */
  lemma SplitAroundFence(x: string, body: string, b: string)
    requires x != [] && !IsSpace(x[0]) && IsSentenceEnd(x[|x| - 1])
    requires forall j :: 0 <= j < |x| - 1 ==> !IsSentenceEnd(x[j])
    requires forall j :: 0 <= j < |x| ==> x[j] != '`'
    requires body != [] && !IsSpace(body[0])
    requires forall j :: 0 <= j < |body| ==> body[j] != '\n'
    requires b != [] && !IsSpace(b[|b| - 1])
    requires forall j :: 0 <= j < |b| - 1 ==> !IsSentenceEnd(b[j])
    requires forall j :: 0 <= j < |b| ==> b[j] != '`'
    requires !Contains(x, Placeholder) && !Contains(b, Placeholder)
    ensures SplitIntoSentences(x + " " + Fence(body) + b) == [x, body + b]
  {
    SentenceFenceScan(x, body, b);
    SentencePlaceholderSplit(x, b);
    RestoreSecond(x, body, b);
    TwoTrimmed(x, body, b);
  }

  lemma TwoTrimmed(x: string, body: string, b: string)
    requires x != [] && !IsSpace(x[0]) && IsSentenceEnd(x[|x| - 1])
    requires body != [] && !IsSpace(body[0])
    requires b != [] && !IsSpace(b[|b| - 1])
    ensures StripNonBlank([x, body + b]) == [x, body + b]
  {
    var z := body + b;
    PrintableNotSpace(x[|x| - 1]);
    assert Trimmed(x);
    assert z[0] == body[0] && z[|z| - 1] == b[|b| - 1];
    assert Trimmed(z);
    StripNonBlankKeeps([x, z]);
  }

  lemma SentenceFenceScan(x: string, body: string, b: string)
    requires forall j :: 0 <= j < |x| ==> x[j] != '`'
    requires body != [] && !IsSpace(body[0])
    requires forall j :: 0 <= j < |body| ==> body[j] != '\n'
    requires forall j :: 0 <= j < |b| ==> b[j] != '`'
    ensures Scan(x + " " + Fence(body) + b, 0) == Scanned(x + " " + (Placeholder + b), [body])
  {
    var a := x + " ";
    forall j | 0 <= j < |a| ensures a[j] != '`' {
      if j < |x| { assert a[j] == x[j]; }
    }
    ScanOneFence(a, body, b);
    assert a + Placeholder + b == x + " " + (Placeholder + b);
  }

  lemma SentencePlaceholderSplit(x: string, b: string)
    requires x != [] && IsSentenceEnd(x[|x| - 1])
    requires forall j :: 0 <= j < |x| - 1 ==> !IsSentenceEnd(x[j])
    requires forall j :: 0 <= j < |b| - 1 ==> !IsSentenceEnd(b[j])
    ensures SplitOnSentenceEnds(x + " " + (Placeholder + b)) == [x, Placeholder + b]
  {
    var y := Placeholder + b;
    PlaceholderPlain();
    assert y[0] == Placeholder[0];
    forall j | 0 <= j < |y| - 1 ensures !IsSentenceEnd(y[j]) {
      if j < |Placeholder| { assert y[j] == Placeholder[j]; }
      else { assert y[j] == b[j - |Placeholder|]; }
    }
    SplitTwo(x, y);
  }

  /** The placeholder has no sentence-ending mark and starts with a
      non-space character. */
  lemma PlaceholderPlain()
    ensures !IsSpace(Placeholder[0])
    ensures forall j :: 0 <= j < |Placeholder| ==> !IsSentenceEnd(Placeholder[j])
  {
    PrintableNotSpace('C');
  }
}

=== FILE: seqs.dfy ===
/** Python list operations the core relies on: a list comprehension with a
    condition, and indexing with negative indices. */
module Seqs {
  import opened Wrappers

  /** `[x for x in xs if p(x)]`. */
  function Filter<T>(xs: seq<T>, p: T -> bool): (r: seq<T>)
    ensures |r| <= |xs|
    ensures forall k :: 0 <= k < |r| ==> p(r[k])
  {
    if xs == [] then []
    else if p(xs[0]) then [xs[0]] + Filter(xs[1..], p)
    else Filter(xs[1..], p)
  }

  /** The indices, counted from `base`, of the elements satisfying `p`. */
  function Positions<T>(xs: seq<T>, p: T -> bool, base: nat): seq<nat> {
    if xs == [] then []
    else (if p(xs[0]) then [base] else []) + Positions(xs[1..], p, base + 1)
  }

  /** The kept elements are exactly those satisfying `p`, in their original
      order: `Positions` lists where each came from. */
  lemma FilterPositions<T>(xs: seq<T>, p: T -> bool)
    ensures |Positions(xs, p, 0)| == |Filter(xs, p)|
    ensures forall k :: 0 <= k < |Positions(xs, p, 0)| ==>
      Positions(xs, p, 0)[k] < |xs| && Filter(xs, p)[k] == xs[Positions(xs, p, 0)[k]]
    ensures forall k, l :: 0 <= k < l < |Positions(xs, p, 0)| ==> Positions(xs, p, 0)[k] < Positions(xs, p, 0)[l]
    ensures forall j :: 0 <= j < |xs| && p(xs[j]) ==> j in Positions(xs, p, 0)
  {
    PositionsPick(xs, p, 0);
    PositionsIncreasing(xs, p, 0);
    PositionsComplete(xs, p, 0);
  }

  lemma {:induction false} PositionsPick<T>(xs: seq<T>, p: T -> bool, base: nat)
    ensures |Positions(xs, p, base)| == |Filter(xs, p)|
    ensures forall k :: 0 <= k < |Positions(xs, p, base)| ==>
      base <= Positions(xs, p, base)[k] < base + |xs| && Filter(xs, p)[k] == xs[Positions(xs, p, base)[k] - base]
    decreases |xs|
  {
    if xs != [] {
      var tail := xs[1..];
      PositionsPick(tail, p, base + 1);
      var rest := Positions(tail, p, base + 1);
      var pos := Positions(xs, p, base);
      forall k | 0 <= k < |rest| ensures Filter(tail, p)[k] == xs[rest[k] - base] {
        assert tail[rest[k] - (base + 1)] == xs[rest[k] - base];
      }
      if p(xs[0]) {
        assert pos == [base] + rest;
        assert Filter(xs, p) == [xs[0]] + Filter(tail, p);
        forall k | 0 <= k < |pos| ensures base <= pos[k] < base + |xs| && Filter(xs, p)[k] == xs[pos[k] - base] {
          if k > 0 { assert pos[k] == rest[k - 1]; }
        }
      } else {
        assert pos == rest;
        assert Filter(xs, p) == Filter(tail, p);
      }
    }
  }

  lemma {:induction false} PositionsIncreasing<T>(xs: seq<T>, p: T -> bool, base: nat)
    ensures forall k :: 0 <= k < |Positions(xs, p, base)| ==> base <= Positions(xs, p, base)[k]
    ensures forall k, l :: 0 <= k < l < |Positions(xs, p, base)| ==> Positions(xs, p, base)[k] < Positions(xs, p, base)[l]
    decreases |xs|
  {
    if xs != [] {
      PositionsIncreasing(xs[1..], p, base + 1);
      var rest := Positions(xs[1..], p, base + 1);
      var pos := Positions(xs, p, base);
      if p(xs[0]) {
        assert pos == [base] + rest;
        ConsIncreasing(base, rest);
      } else {
        assert pos == rest;
      }
    }
  }

  lemma ConsIncreasing(b: nat, rest: seq<nat>)
    requires forall k :: 0 <= k < |rest| ==> b + 1 <= rest[k]
    requires forall k, l :: 0 <= k < l < |rest| ==> rest[k] < rest[l]
    ensures forall k :: 0 <= k < |[b] + rest| ==> b <= ([b] + rest)[k]
    ensures forall k, l :: 0 <= k < l < |[b] + rest| ==> ([b] + rest)[k] < ([b] + rest)[l]
  {
    var pos := [b] + rest;
    forall k | 0 <= k < |pos| ensures b <= pos[k] {
      if k > 0 { assert pos[k] == rest[k - 1]; }
    }
    forall k, l | 0 <= k < l < |pos| ensures pos[k] < pos[l] {
      assert pos[l] == rest[l - 1];
      if k > 0 { assert pos[k] == rest[k - 1]; }
    }
  }

  lemma {:induction false} PositionsComplete<T>(xs: seq<T>, p: T -> bool, base: nat)
    ensures forall j :: 0 <= j < |xs| && p(xs[j]) ==> base + j in Positions(xs, p, base)
    decreases |xs|
  {
    if xs != [] {
      var tail := xs[1..];
      PositionsComplete(tail, p, base + 1);
      var rest := Positions(tail, p, base + 1);
      var pos := Positions(xs, p, base);
      assert pos == (if p(xs[0]) then [base] else []) + rest;
      forall j | 0 <= j < |xs| && p(xs[j]) ensures base + j in pos {
        if j > 0 {
          assert tail[j - 1] == xs[j];
          assert base + 1 + (j - 1) in rest;
        }
      }
    }
  }

  /** Filtering with a condition nothing satisfies keeps nothing. */
  lemma {:induction false} FilterNone<T>(xs: seq<T>, p: T -> bool)
    requires forall j :: 0 <= j < |xs| ==> !p(xs[j])
    ensures Filter(xs, p) == []
  {
    if xs != [] {
      assert forall j :: 0 <= j < |xs[1..]| ==> xs[1..][j] == xs[j + 1];
      FilterNone(xs[1..], p);
    }
  }

  /** Filtering distributes over concatenation. */
  lemma {:induction false} FilterAppend<T>(xs: seq<T>, ys: seq<T>, p: T -> bool)
    ensures Filter(xs + ys, p) == Filter(xs, p) + Filter(ys, p)
  {
    if xs != [] {
      assert (xs + ys)[1..] == xs[1..] + ys;
      FilterAppend(xs[1..], ys, p);
    } else {
      assert xs + ys == ys;
    }
  }

  /** Python's `xs[i]`: negative indices count from the end, and an index
      outside `-|xs| <= i < |xs|` raises `IndexError`. */
  function PyIndex<T>(xs: seq<T>, i: int): (r: Result<T, string>)
    ensures r.Success? <==> -|xs| <= i < |xs|
    ensures 0 <= i < |xs| ==> r == Success(xs[i])
    ensures -|xs| <= i < 0 ==> r == Success(xs[|xs| + i])
  {
    if 0 <= i < |xs| then Success(xs[i])
    else if -|xs| <= i < 0 then Success(xs[|xs| + i])
    else Failure("list index out of range")
  }

  /** Where Python's `xs[a:]` starts, for a list of length `len`: a
      negative `a` counts from the end, and both are clamped to the list. */
  function SliceStart(len: nat, a: int): (s: nat)
    ensures s <= len
  {
    if a >= 0 then (if a <= len then a else len)
    else (if -a <= len then len + a else 0)
  }
}

=== FILE: text.dfy ===
/** The handful of Python `str` operations the core relies on: whitespace as
    `str.isspace` and the `re` class `\s` see it, `strip`, `" ".join`,
    the `in` operator, `replace` and `str(int)`. */
module Text {

  /** Python's whitespace: `str.isspace`, `str.strip()` and `\s` in a `str`
      regular expression all agree on these 29 code points: tab to carriage
      return, the four separators U+001C to U+001F, the blank, U+0085,
      U+00A0, U+1680, U+2000 to U+200A, U+2028, U+2029, U+202F, U+205F and
      U+3000. */
  predicate IsSpace(c: char) {
    || ('\t' <= c <= '\r')
    || ('\U{001C}' <= c <= '\U{001F}')
    || c == ' ' || c == '\U{0085}' || c == '\U{00A0}' || c == '\U{1680}'
    || ('\U{2000}' <= c <= '\U{200A}')
    || c == '\U{2028}' || c == '\U{2029}' || c == '\U{202F}' || c == '\U{205F}' || c == '\U{3000}'
  }

  /** Blank, newline and tab are whitespace. */
  lemma CommonSpaces()
    ensures IsSpace(' ') && IsSpace('\n') && IsSpace('\t')
  {
  }

  /** No printable ASCII character is whitespace. */
  lemma PrintableNotSpace(c: char)
    requires '!' <= c <= '~'
    ensures !IsSpace(c)
  {
  }

  predicate AllSpace(s: string) {
    forall k :: 0 <= k < |s| ==> IsSpace(s[k])
  }

  /** No whitespace at either end (what `strip` produces). */
  predicate Trimmed(s: string) {
    s == [] || (!IsSpace(s[0]) && !IsSpace(s[|s| - 1]))
  }

  /** Python's `s.strip()`: whitespace is removed from both ends until a
      non-whitespace character is at each end, or nothing is left. */
  function Strip(s: string): string
    decreases |s|
  {
    if s != [] && IsSpace(s[0]) then Strip(s[1..])
    else if s != [] && IsSpace(s[|s| - 1]) then Strip(s[..|s| - 1])
    else s
  }

  /** What `strip` produces: a trimmed string, no longer than its input, and
      empty exactly when the input is all whitespace. */
  lemma {:induction false} StripSpec(s: string)
    ensures |Strip(s)| <= |s|
    ensures Trimmed(Strip(s))
    ensures Strip(s) == [] <==> AllSpace(s)
    decreases |s|
  {
    if s != [] && IsSpace(s[0]) {
      StripSpec(s[1..]);
      assert AllSpace(s) <==> AllSpace(s[1..]) by {
        if AllSpace(s[1..]) {
          forall k | 0 < k < |s| ensures IsSpace(s[k]) { assert s[k] == s[1..][k - 1]; }
        }
      }
    } else if s != [] && IsSpace(s[|s| - 1]) {
      StripSpec(s[..|s| - 1]);
      assert s[..|s| - 1][0] == s[0];
    }
  }

  /** What `strip` removes is whitespace, from the two ends only: the result
      sits at offset `a` of `s` with only whitespace around it. */
  lemma {:induction false} StripIsInfix(s: string) returns (a: nat)
    ensures a + |Strip(s)| <= |s|
    ensures s[a..a + |Strip(s)|] == Strip(s)
    ensures AllSpace(s[..a]) && AllSpace(s[a + |Strip(s)|..])
    decreases |s|
  {
    var r := Strip(s);
    if s != [] && IsSpace(s[0]) {
      var b := StripIsInfix(s[1..]);
      assert r == Strip(s[1..]);
      InfixDropFirst(s, b, |r|);
      a := b + 1;
    } else if s != [] && IsSpace(s[|s| - 1]) {
      a := StripIsInfix(s[..|s| - 1]);
      assert r == Strip(s[..|s| - 1]);
      InfixDropLast(s, a, |r|);
    } else {
      a := 0;
      assert s[..0] == [] && s[0..|s|] == s && s[|s|..] == [];
    }
  }

  /** An infix of `s[1..]` framed by whitespace, with `s[0]` whitespace, is
      an infix of `s` framed by whitespace. */
  lemma InfixDropFirst(s: string, b: nat, n: nat)
    requires s != [] && IsSpace(s[0]) && b + n <= |s| - 1
    requires AllSpace(s[1..][..b]) && AllSpace(s[1..][b + n..])
    ensures s[b + 1..b + 1 + n] == s[1..][b..b + n]
    ensures AllSpace(s[..b + 1]) && AllSpace(s[b + 1 + n..])
  {
    var t := s[1..];
    assert s[b + 1 + n..] == t[b + n..];
    SpaceCons(s[0], t[..b]);
    assert s[..b + 1] == [s[0]] + t[..b];
  }

  /** The same at the other end. */
  lemma InfixDropLast(s: string, a: nat, n: nat)
    requires s != [] && IsSpace(s[|s| - 1]) && a + n <= |s| - 1
    requires AllSpace(s[..|s| - 1][..a]) && AllSpace(s[..|s| - 1][a + n..])
    ensures s[a..a + n] == s[..|s| - 1][a..a + n]
    ensures AllSpace(s[..a]) && AllSpace(s[a + n..])
  {
    var t := s[..|s| - 1];
    assert s[..a] == t[..a];
    SpaceSnoc(t[a + n..], s[|s| - 1]);
    assert s[a + n..] == t[a + n..] + [s[|s| - 1]];
  }

  lemma SpaceCons(c: char, x: string)
    requires IsSpace(c) && AllSpace(x)
    ensures AllSpace([c] + x)
  {
    forall k | 0 <= k < |[c] + x| ensures IsSpace(([c] + x)[k]) {
      if k > 0 { assert ([c] + x)[k] == x[k - 1]; }
    }
  }

  lemma SpaceSnoc(x: string, c: char)
    requires IsSpace(c) && AllSpace(x)
    ensures AllSpace(x + [c])
  {
    forall k | 0 <= k < |x + [c]| ensures IsSpace((x + [c])[k]) {
      if k < |x| { assert (x + [c])[k] == x[k]; }
    }
  }

  /** Python's `not s.strip()`. */
  predicate IsBlank(s: string) {
    Strip(s) == []
  }

  /** Stripping is insensitive to one more trailing whitespace character. */
  lemma {:induction false} StripAppendSpace(x: string, c: char)
    requires IsSpace(c)
    ensures Strip(x + [c]) == Strip(x)
    decreases |x|
  {
    var y := x + [c];
    if x == [] {
      assert y[1..] == [];
    } else if IsSpace(x[0]) {
      assert y[1..] == x[1..] + [c];
      StripAppendSpace(x[1..], c);
    } else {
      assert y[..|y| - 1] == x;
    }
  }

  /** A string with no surrounding whitespace strips to itself. */
  lemma StripTrimmed(x: string)
    requires Trimmed(x)
    ensures Strip(x) == x
  {
  }

  /** Python's `sep.join(xs)`. */
  function Join(sep: string, xs: seq<string>): string {
    if |xs| == 0 then []
    else if |xs| == 1 then xs[0]
    else xs[0] + sep + Join(sep, xs[1..])
  }

  /** Python's `s.split(c)` for a one-character separator: the pieces
      between separators, empty ones included (so `"".split(c) == [""]`). */
  function Split(c: char, s: string): (r: seq<string>)
    ensures |r| >= 1
  {
    if s == [] then [[]]
    else
      var rest := Split(c, s[1..]);
      if s[0] == c then [[]] + rest else [[s[0]] + rest[0]] + rest[1..]
  }

  predicate NoChar(c: char, s: string) {
    forall j :: 0 <= j < |s| ==> s[j] != c
  }

  lemma NoCharAppend(c: char, a: string, b: string)
    requires NoChar(c, a) && NoChar(c, b)
    ensures NoChar(c, a + b)
  {
    forall j | 0 <= j < |a + b| ensures (a + b)[j] != c {
      if j >= |a| { assert (a + b)[j] == b[j - |a|]; }
    }
  }

  /** Without a separator the string is one piece. */
  lemma {:induction false} SplitNone(c: char, x: string)
    requires NoChar(c, x)
    ensures Split(c, x) == [x]
  {
    if x != [] {
      SplitNone(c, x[1..]);
      assert [x[0]] + x[1..] == x;
    }
  }

  /** A separator after a separator-free `x` ends the first piece there. */
  lemma {:induction false} SplitAfter(c: char, x: string, y: string)
    requires NoChar(c, x)
    ensures Split(c, x + [c] + y) == [x] + Split(c, y)
  {
    if x == [] {
      assert x + [c] + y == [c] + y;
      assert ([c] + y)[1..] == y;
    } else {
      var s := x + [c] + y;
      assert s[1..] == x[1..] + [c] + y;
      SplitAfter(c, x[1..], y);
      assert [x[0]] + x[1..] == x;
    }
  }

  /** Splitting undoes joining, as long as no piece holds the separator. */
  lemma {:induction false} SplitJoin(c: char, xs: seq<string>)
    requires xs != []
    requires forall k :: 0 <= k < |xs| ==> NoChar(c, xs[k])
    ensures Split(c, Join([c], xs)) == xs
  {
    if |xs| == 1 {
      SplitNone(c, xs[0]);
    } else {
      SplitJoin(c, xs[1..]);
      SplitAfter(c, xs[0], Join([c], xs[1..]));
      assert [xs[0]] + xs[1..] == xs;
    }
  }

  predicate StartsWith(s: string, p: string) {
    |p| <= |s| && s[..|p|] == p
  }

  lemma StartsWithAppend(p: string, rest: string)
    ensures StartsWith(p + rest, p)
  {
    assert (p + rest)[..|p|] == p;
  }

  /** `s` reads as the strings of `parts`, one after another. */
  predicate Reads(s: string, parts: seq<string>)
    decreases |parts|
  {
    if parts == [] then s == []
    else StartsWith(s, parts[0]) && Reads(s[|parts[0]|..], parts[1..])
  }

  /** Appending a string to what reads as `parts` reads as one part more. */
  lemma {:induction false} ReadsSnoc(s: string, parts: seq<string>, x: string)
    requires Reads(s, parts)
    ensures Reads(s + x, parts + [x])
    decreases |parts|
  {
    if parts == [] {
      assert s + x == x && x[|x|..] == [];
      assert x[..|x|] == x;
    } else {
      var p := parts[0];
      ReadsSnoc(s[|p|..], parts[1..], x);
      assert (s + x)[..|p|] == p;
      assert (s + x)[|p|..] == s[|p|..] + x;
      assert (parts + [x])[1..] == parts[1..] + [x];
    }
  }

  /** Three appends at once. */
  lemma ReadsSnoc3(s: string, parts: seq<string>, a: string, b: string, c: string)
    requires Reads(s, parts)
    ensures Reads(s + a + b + c, parts + [a, b, c])
  {
    ReadsSnoc(s, parts, a);
    ReadsSnoc(s + a, parts + [a], b);
    ReadsSnoc(s + a + b, parts + [a] + [b], c);
    assert parts + [a] + [b] + [c] == parts + [a, b, c];
  }

  /** Where a contained string sits. */
  lemma {:induction false} ContainsPosition(s: string, p: string) returns (i: nat)
    requires Contains(s, p)
    ensures i + |p| <= |s| && s[i..i + |p|] == p
    decreases |s|
  {
    if StartsWith(s, p) {
      i := 0;
    } else {
      var j := ContainsPosition(s[1..], p);
      assert s[1..][j..j + |p|] == s[j + 1..j + 1 + |p|];
      i := j + 1;
    }
  }

  /** Stripping keeps the stripped form of anything the string contains:
      what `strip` removes is whitespace, and the stripped infix starts and
      ends with a character that is not. */
  lemma StripKeepsInfix(x: string, b: string)
    requires Contains(x, b) && Strip(b) != []
    ensures Contains(Strip(x), Strip(b))
  {
    StripSpec(b);
    var l := StripIsInfix(b);
    var a := StripIsInfix(x);
    var i := ContainsPosition(x, b);
    InfixSurvives(x, b, Strip(x), Strip(b), a, i, l);
  }

  /** The same, by position: `s` sits at `a` in `x` with only whitespace
      around it, `b` at `i` in `x`, and `c` at `l` in `b`. */
  lemma InfixSurvives(x: string, b: string, s: string, c: string, a: nat, i: nat, l: nat)
    requires i + |b| <= |x| && x[i..i + |b|] == b
    requires a + |s| <= |x| && x[a..a + |s|] == s && AllSpace(x[..a]) && AllSpace(x[a + |s|..])
    requires l + |c| <= |b| && b[l..l + |c|] == c
    requires c != [] && !IsSpace(c[0]) && !IsSpace(c[|c| - 1])
    ensures Contains(s, c)
  {
    var c1, c2 := i + l, i + l + |c|;
    forall k | 0 <= k < |c| ensures x[c1 + k] == c[k] {
      assert c[k] == b[l + k] == x[i + l + k];
    }
    CoreInside(x, a, |s|, c1, c2);
    forall k | 0 <= k < |c| ensures s[c1 - a + k] == c[k] {
      assert s[c1 - a + k] == x[c1 + k];
    }
    ContainsAt(s, c, c1 - a);
  }

  lemma ContainsAt(s: string, c: string, lo: nat)
    requires lo + |c| <= |s| && forall k :: 0 <= k < |c| ==> s[lo + k] == c[k]
    ensures Contains(s, c)
  {
    assert s[lo..lo + |c|] == c;
    ContainsSlice(s, lo, lo + |c|);
  }

  /** A stretch of `x` that starts and ends with non-whitespace lies within
      the part of `x` that only whitespace surrounds. */
  lemma CoreInside(x: string, a: nat, n: nat, c1: nat, c2: nat)
    requires a + n <= |x| && AllSpace(x[..a]) && AllSpace(x[a + n..])
    requires c1 < c2 <= |x| && !IsSpace(x[c1]) && !IsSpace(x[c2 - 1])
    ensures a <= c1 && c2 <= a + n
  {
    forall k | 0 <= k < a ensures IsSpace(x[k]) {
      assert x[..a][k] == x[k];
    }
    forall k | a + n <= k < |x| ensures IsSpace(x[k]) {
      assert x[a + n..][k - a - n] == x[k];
    }
  }

  /** Python's `p in s`. */
  predicate Contains(s: string, p: string)
    decreases |s|
  {
    StartsWith(s, p) || (|s| > 0 && Contains(s[1..], p))
  }

  /** Only a string at least as long as `p` can contain it. */
  lemma {:induction false} ContainsLength(s: string, p: string)
    ensures Contains(s, p) ==> |p| <= |s|
    decreases |s|
  {
    if |s| > 0 {
      ContainsLength(s[1..], p);
    }
  }

  /** Every slice of a string occurs in it. */
  lemma {:induction false} ContainsSlice(s: string, a: nat, b: nat)
    requires a <= b <= |s|
    ensures Contains(s, s[a..b])
    decreases a
  {
    if a > 0 {
      ContainsSlice(s[1..], a - 1, b - 1);
      assert s[1..][a - 1..b - 1] == s[a..b];
    }
  }

  /** A string in which the first character of `p` never occurs does not
      contain `p`. */
  lemma {:induction false} NotContainsFirst(s: string, p: string)
    requires p != []
    requires forall j :: 0 <= j < |s| ==> s[j] != p[0]
    ensures !Contains(s, p)
    decreases |s|
  {
    if s != [] {
      assert forall j :: 0 <= j < |s[1..]| ==> s[1..][j] == s[j + 1];
      NotContainsFirst(s[1..], p);
      assert !StartsWith(s, p) by {
        if |p| <= |s| {
          assert s[..|p|][0] == s[0];
        }
      }
    } else {
      assert !StartsWith(s, p);
    }
  }

  /** The three parts of `a + d + b`, recovered by position. */
  lemma Parts3(a: string, d: string, b: string)
    ensures var m := a + d + b;
      |m| == |a| + |d| + |b| && m[..|a|] == a && m[|m| - |b|..] == b && m[|a|..|m| - |b|] == d
      && forall k :: |a| <= k < |m| - |b| ==> m[k] == d[k - |a|]
  {
    var m := a + d + b;
    assert m[..|a|] == a;
    assert m[|m| - |b|..] == b;
    assert m[|a|..|m| - |b|] == d;
  }

  /** Python's `s.replace(p, rep)` for a non-empty `p`: every occurrence,
      scanning left to right without overlap, becomes `rep`. */
  function ReplaceAll(s: string, p: string, rep: string): string
    requires |p| > 0
    decreases |s|
  {
    if |s| < |p| then s
    else if StartsWith(s, p) then rep + ReplaceAll(s[|p|..], p, rep)
    else s[..1] + ReplaceAll(s[1..], p, rep)
  }

  /** Replacing in a string that has no occurrence changes nothing. */
  lemma {:induction false} ReplaceAbsent(s: string, p: string, rep: string)
    requires |p| > 0 && !Contains(s, p)
    ensures ReplaceAll(s, p, rep) == s
    decreases |s|
  {
    if |s| >= |p| {
      ReplaceAbsent(s[1..], p, rep);
      assert s[..1] + s[1..] == s;
    }
  }

  /** Replacing in a string that has an occurrence leaves `rep` in it. */
  lemma {:induction false} ReplaceInserts(s: string, p: string, rep: string)
    requires |p| > 0 && Contains(s, p)
    ensures Contains(ReplaceAll(s, p, rep), rep)
    decreases |s|
  {
    ContainsLength(s, p);
    var r := ReplaceAll(s, p, rep);
    if StartsWith(s, p) {
      assert r[..|rep|] == rep;
    } else {
      ReplaceInserts(s[1..], p, rep);
      assert r[1..] == ReplaceAll(s[1..], p, rep);
    }
  }

  /** `ReplaceAll` on a string whose first occurrence of `p` is right after
      `a`: that occurrence becomes `rep` and the scan resumes after it. */
  lemma {:induction false} ReplaceFirstOccurrence(a: string, p: string, b: string, rep: string)
    requires |p| > 0
    requires !Contains(a + p[..|p| - 1], p)
    ensures ReplaceAll(a + p + b, p, rep) == a + rep + ReplaceAll(b, p, rep)
    decreases |a|
  {
    var s := a + p + b;
    if a == [] {
      assert s[..|p|] == p;
      assert s[|p|..] == b;
    } else {
      NoEarlyOccurrence(a, p, b);
      ReplaceFirstOccurrence(a[1..], p, b, rep);
      ReplaceSkip(a, p, b, rep);
    }
  }

  lemma NoEarlyOccurrence(a: string, p: string, b: string)
    requires |p| > 0 && a != []
    requires !Contains(a + p[..|p| - 1], p)
    ensures !StartsWith(a + p + b, p)
    ensures !Contains(a[1..] + p[..|p| - 1], p)
  {
    var s := a + p + b;
    var t := a + p[..|p| - 1];
    assert t[1..] == a[1..] + p[..|p| - 1];
    assert t[..|p|] == s[..|p|];
  }

  lemma ReplaceSkip(a: string, p: string, b: string, rep: string)
    requires |p| > 0 && a != []
    requires !StartsWith(a + p + b, p)
    requires ReplaceAll(a[1..] + p + b, p, rep) == a[1..] + rep + ReplaceAll(b, p, rep)
    ensures ReplaceAll(a + p + b, p, rep) == a + rep + ReplaceAll(b, p, rep)
  {
    var tail := ReplaceAll(b, p, rep);
    SkipFirst(a, p, b, rep);
    ConsRegroup(a, rep, tail);
  }

  lemma ConsRegroup(a: string, r: string, t: string)
    requires a != []
    ensures a[..1] + (a[1..] + r + t) == a + r + t
  {
    assert a[..1] + a[1..] == a;
  }

  lemma SkipFirst(a: string, p: string, b: string, rep: string)
    requires |p| > 0 && a != [] && !StartsWith(a + p + b, p)
    ensures ReplaceAll(a + p + b, p, rep) == a[..1] + ReplaceAll(a[1..] + p + b, p, rep)
  {
    var s := a + p + b;
    ReplaceUnfoldSkip(s, p, rep);
    assert s[1..] == a[1..] + p + b;
    assert s[..1] == a[..1];
  }

  lemma ReplaceUnfoldSkip(s: string, p: string, rep: string)
    requires |p| > 0 && |s| >= |p| && !StartsWith(s, p)
    ensures ReplaceAll(s, p, rep) == s[..1] + ReplaceAll(s[1..], p, rep)
  {
  }

  predicate IsDigit(c: char) {
    '0' <= c <= '9'
  }

  function DigitChar(d: nat): (c: char)
    requires d < 10
    ensures IsDigit(c)
  {
    ((d + '0' as int) as char)
  }

  function DigitValue(c: char): (d: nat)
    requires IsDigit(c)
    ensures d < 10 && DigitChar(d) == c
  {
    (c as int - '0' as int)
  }

  /** Python's `str(n)` for a non-negative integer. */
  function NatToString(n: nat): (s: string)
    ensures |s| > 0
    ensures forall k :: 0 <= k < |s| ==> IsDigit(s[k])
  {
    if n < 10 then [DigitChar(n)] else NatToString(n / 10) + [DigitChar(n % 10)]
  }

  /** Python's `str(n)` (and `f"{n}"`) for any integer. */
  function IntToString(n: int): string {
    if n < 0 then "-" + NatToString(-n) else NatToString(n)
  }

  /** The value of a string of decimal digits. */
  function ParseDigits(s: string): nat
    requires forall k :: 0 <= k < |s| ==> IsDigit(s[k])
  {
    if s == [] then 0 else 10 * ParseDigits(s[..|s| - 1]) + DigitValue(s[|s| - 1])
  }

  /** Printing a count and reading it back gives the count. */
  lemma {:induction false} NatToStringRoundTrip(n: nat)
    ensures ParseDigits(NatToString(n)) == n
  {
    if n >= 10 {
      var s := NatToString(n);
      assert s[..|s| - 1] == NatToString(n / 10);
      NatToStringRoundTrip(n / 10);
    }
  }
}

=== FILE: timestamps.dfy ===
/** `PDFProcessor.extract_timestamps`: `re.findall` of three clock-time
    patterns, one after the other, with their results concatenated.

    Each pattern is a word boundary, one or two digits, a number of
    `:` + two-digit groups, optionally `.` + three digits, and a closing
    word boundary. `\d` and `\w` are taken in their ASCII sense. */
module Timestamps {
  import opened Wrappers
  import opened Text

  /** The shape of one pattern: how many `:dd` groups follow the leading
      digits, and whether a `.ddd` fraction closes it. */
  datatype Pattern = Pattern(groups: nat, millis: bool)

  /** `\b\d{1,2}:\d{2}\b` (minutes and seconds). */
  const MinSec: Pattern := Pattern(1, false)
  /** `\b\d{1,2}:\d{2}:\d{2}\b` (hours, minutes and seconds). */
  const HourMinSec: Pattern := Pattern(2, false)
  /** `\b\d{1,2}:\d{2}:\d{2}\.\d{3}\b` (with milliseconds). */
  const WithMillis: Pattern := Pattern(2, true)

  /** A match as positions in the text: `text[start..end]`. */
  datatype Occurrence = Occurrence(start: nat, end: nat)

  // ---------------------------------------------------------------------
  // The regular expression, read declaratively

  predicate IsWordChar(c: char) {
    'a' <= c <= 'z' || 'A' <= c <= 'Z' || IsDigit(c) || c == '_'
  }

  /** `\b` at position `p`: a word character on exactly one side. */
  predicate Boundary(t: string, p: nat)
    requires p <= |t|
  {
    (0 < p && IsWordChar(t[p - 1])) != (p < |t| && IsWordChar(t[p]))
  }

  /** Characters after the leading digits. */
  function TailLength(pat: Pattern): nat {
    3 * pat.groups + (if pat.millis then 4 else 0)
  }

  /** What the `j`-th character after the leading digits must be. */
  predicate TailChar(c: char, j: nat, pat: Pattern) {
    if j < 3 * pat.groups then (if j % 3 == 0 then c == ':' else IsDigit(c))
    else if j == 3 * pat.groups then c == '.'
    else IsDigit(c)
  }

  /** What the `i`-th character of a matched string must be, when `lead`
      digits open it. */
  predicate CharFits(s: string, i: nat, lead: int, pat: Pattern)
    requires i < |s|
  {
    if i < lead then IsDigit(s[i]) else TailChar(s[i], i - lead, pat)
  }

  /** `s` is a string the pattern matches (boundaries aside): one or two
      digits, then exactly the tail the pattern prescribes. */
  predicate Shape(s: string, pat: Pattern) {
    var lead := |s| - TailLength(pat);
    (lead == 1 || lead == 2) && forall i :: 0 <= i < |s| ==> CharFits(s, i, lead, pat)
  }

  // ---------------------------------------------------------------------
  // The matcher, as the regex engine runs it

  /** `(:\d{2}){n}` from position `q`: the end, if it matches. */
  function MatchGroups(t: string, q: nat, n: nat): (r: Option<nat>)
    requires q <= |t|
    ensures r.Some? ==> r.value <= |t|
    decreases n
  {
    if n == 0 then Some(q)
    else if q + 3 <= |t| && t[q] == ':' && IsDigit(t[q + 1]) && IsDigit(t[q + 2])
    then MatchGroups(t, q + 3, n - 1)
    else None
  }

  /** `\.\d{3}` from position `q` when the pattern has it. */
  function MatchMillis(t: string, q: nat, millis: bool): (r: Option<nat>)
    requires q <= |t|
    ensures r.Some? ==> r.value <= |t|
  {
    if !millis then Some(q)
    else if q + 4 <= |t| && t[q] == '.' && IsDigit(t[q + 1]) && IsDigit(t[q + 2]) && IsDigit(t[q + 3])
    then Some(q + 4)
    else None
  }

  /** Everything after the leading digits, closing `\b` included. */
  function MatchTail(t: string, q: nat, pat: Pattern): Option<nat>
    requires q <= |t|
  {
    match MatchGroups(t, q, pat.groups)
    case None => None
    case Some(g) =>
      match MatchMillis(t, g, pat.millis)
      case None => None
      case Some(e) => if Boundary(t, e) then Some(e) else None
  }

  /** The pattern tried at position `p`: `\b`, then `\d{1,2}` greedily —
      two digits first, falling back to one when the rest fails. */
  function MatchAt(t: string, p: nat, pat: Pattern): Option<nat>
    requires p <= |t|
  {
    if !Boundary(t, p) then None
    else
      var two := if p + 2 <= |t| && IsDigit(t[p]) && IsDigit(t[p + 1]) then MatchTail(t, p + 2, pat) else None;
      if two.Some? then two
      else if p + 1 <= |t| && IsDigit(t[p]) then MatchTail(t, p + 1, pat)
      else None
  }

  /** `re.finditer` from position `p`: the leftmost match, then the search
      resumes where it ended. */
  function Occurrences(t: string, p: nat, pat: Pattern): (r: seq<Occurrence>)
    requires p <= |t|
    ensures forall k :: 0 <= k < |r| ==> p <= r[k].start < r[k].end <= |t|
    ensures forall k :: 0 <= k < |r| ==> MatchAt(t, r[k].start, pat) == Some(r[k].end)
    ensures forall k :: 0 <= k < |r| - 1 ==> r[k].end <= r[k + 1].start
    decreases |t| - p
  {
    if p == |t| then []
    else
      match MatchAt(t, p, pat)
      case Some(e) =>
        MatchAtAdvances(t, p, pat);
        [Occurrence(p, e)] + Occurrences(t, e, pat)
      case None => Occurrences(t, p + 1, pat)
  }

  /** `re.findall(pattern, text)`: the matched strings in order. */
  function FindAll(t: string, pat: Pattern): (r: seq<string>)
    ensures |r| == |Occurrences(t, 0, pat)|
  {
    var occ := Occurrences(t, 0, pat);
    seq(|occ|, k requires 0 <= k < |occ| => t[occ[k].start..occ[k].end])
  }

  /** `PDFProcessor.extract_timestamps(text)`. */
  function ExtractTimestamps(text: string): (r: seq<string>)
    ensures |r| == |FindAll(text, MinSec)| + |FindAll(text, HourMinSec)| + |FindAll(text, WithMillis)|
  {
    FindAll(text, MinSec) + FindAll(text, HourMinSec) + FindAll(text, WithMillis)
  }

  // ---------------------------------------------------------------------
  // The matcher agrees with the declarative reading

  /** A successful match ends past its start. */
  lemma MatchAtAdvances(t: string, p: nat, pat: Pattern)
    requires p <= |t|
    ensures MatchAt(t, p, pat).Some? ==> p < MatchAt(t, p, pat).value <= |t|
  {
    if MatchAt(t, p, pat).Some? {
      if p + 1 <= |t| { MatchTailSpec(t, p + 1, pat); }
      if p + 2 <= |t| { MatchTailSpec(t, p + 2, pat); }
    }
  }

  /** The `j`-th character after `q` is what the pattern's tail needs there. */
  predicate FitsAt(t: string, q: nat, j: nat, pat: Pattern) {
    q + j < |t| && TailChar(t[q + j], j, pat)
  }

  /** The `3 * n` characters after `q` are `n` groups `:dd`. */
  predicate GroupsFit(t: string, q: nat, n: nat) {
    forall j :: 0 <= j < 3 * n ==> FitsAt(t, q, j, Pattern(n, false))
  }

  /** The characters after `q` fit the pattern's tail. */
  predicate TailFits(t: string, q: nat, pat: Pattern) {
    forall j :: 0 <= j < TailLength(pat) ==> FitsAt(t, q, j, pat)
  }

  /** `(:\d{2}){n}` succeeds exactly when the next `3 * n` characters fit,
      and then ends right after them. */
  lemma {:induction false} MatchGroupsSpec(t: string, q: nat, n: nat)
    requires q <= |t|
    ensures MatchGroups(t, q, n).Some? <==> q + 3 * n <= |t| && GroupsFit(t, q, n)
    ensures MatchGroups(t, q, n).Some? ==> MatchGroups(t, q, n).value == q + 3 * n
    decreases n
  {
    if n > 0 {
      var q3, pat, rest := q + 3, Pattern(n, false), Pattern(n - 1, false);
      if q3 <= |t| { MatchGroupsSpec(t, q3, n - 1); }
      if q + 3 * n <= |t| && GroupsFit(t, q, n) {
        assert FitsAt(t, q, 0, pat);
        assert FitsAt(t, q, 1, pat);
        assert FitsAt(t, q, 2, pat);
        forall j | 0 <= j < 3 * (n - 1) ensures FitsAt(t, q3, j, rest) {
          assert FitsAt(t, q, j + 3, pat);
          assert q3 + j == q + (j + 3) && (j + 3) % 3 == j % 3;
        }
        assert GroupsFit(t, q3, n - 1);
      }
      if MatchGroups(t, q, n).Some? {
        forall j | 0 <= j < 3 * n ensures FitsAt(t, q, j, pat) {
          if j >= 3 {
            assert FitsAt(t, q3, j - 3, rest);
            assert q3 + (j - 3) == q + j && (j - 3) % 3 == j % 3;
          }
        }
      }
    }
  }

  /** The tail matches exactly when the characters after `q` fit the
      pattern's tail and a word boundary follows them; it then ends right
      after them. */
  lemma MatchTailSpec(t: string, q: nat, pat: Pattern)
    requires q <= |t|
    ensures MatchTail(t, q, pat).Some? <==>
      q + TailLength(pat) <= |t| && TailFits(t, q, pat) && Boundary(t, q + TailLength(pat))
    ensures MatchTail(t, q, pat).Some? ==> MatchTail(t, q, pat).value == q + TailLength(pat)
  {
    var n := pat.groups;
    MatchGroupsSpec(t, q, n);
    if q + TailLength(pat) <= |t| && TailFits(t, q, pat) {
      forall j | 0 <= j < 3 * n ensures FitsAt(t, q, j, Pattern(n, false)) {
        assert FitsAt(t, q, j, pat);
      }
      if pat.millis {
        assert FitsAt(t, q, 3 * n, pat);
        assert FitsAt(t, q, 3 * n + 1, pat);
        assert FitsAt(t, q, 3 * n + 2, pat);
        assert FitsAt(t, q, 3 * n + 3, pat);
      }
    }
    if MatchTail(t, q, pat).Some? {
      forall j | 0 <= j < TailLength(pat) ensures FitsAt(t, q, j, pat) {
        if j < 3 * n {
          assert FitsAt(t, q, j, Pattern(n, false));
        }
      }
    }
  }

  /** `Shape` of a slice, read off the text in place: `lead` digits at `p`,
      then the tail. */
  lemma ShapeInPlace(t: string, p: nat, e: nat, pat: Pattern)
    requires p <= e <= |t|
    ensures Shape(t[p..e], pat) <==>
      var lead := e - p - TailLength(pat);
      (lead == 1 || lead == 2) && IsDigit(t[p]) && (lead == 2 ==> IsDigit(t[p + 1]))
      && TailFits(t, p + lead, pat)
  {
    var lead := e - p - TailLength(pat);
    if lead == 1 || lead == 2 {
      if Shape(t[p..e], pat) {
        ShapeGivesTail(t, p, e, lead, pat);
      }
      if IsDigit(t[p]) && (lead == 2 ==> IsDigit(t[p + 1])) && TailFits(t, p + lead, pat) {
        TailGivesShape(t, p, e, lead, pat);
      }
    }
  }

  lemma ShapeGivesTail(t: string, p: nat, e: nat, lead: int, pat: Pattern)
    requires p <= e <= |t| && lead == e - p - TailLength(pat) && (lead == 1 || lead == 2)
    requires Shape(t[p..e], pat)
    ensures IsDigit(t[p]) && (lead == 2 ==> IsDigit(t[p + 1])) && TailFits(t, p + lead, pat)
  {
    var s := t[p..e];
    assert |s| - TailLength(pat) == lead;
    assert CharFits(s, 0, lead, pat) && s[0] == t[p];
    if lead == 2 {
      assert CharFits(s, 1, lead, pat) && s[1] == t[p + 1];
    }
    var b := p + lead;
    forall j | 0 <= j < TailLength(pat) ensures FitsAt(t, b, j, pat) {
      var i := lead + j;
      assert CharFits(s, i, lead, pat);
      assert s[i] == t[b + j];
    }
  }

  lemma TailGivesShape(t: string, p: nat, e: nat, lead: int, pat: Pattern)
    requires p <= e <= |t| && lead == e - p - TailLength(pat) && (lead == 1 || lead == 2)
    requires IsDigit(t[p]) && (lead == 2 ==> IsDigit(t[p + 1])) && TailFits(t, p + lead, pat)
    ensures Shape(t[p..e], pat)
  {
    var s := t[p..e];
    assert |s| - TailLength(pat) == lead;
    forall i | 0 <= i < |s| ensures CharFits(s, i, lead, pat) {
      assert s[i] == t[p + i];
      if i >= lead {
        var j := i - lead;
        assert FitsAt(t, p + lead, j, pat);
      }
    }
  }

  /** The matcher and the declarative reading agree: the pattern matches
      from `p` to `e` exactly when a word boundary sits at both ends and the
      text between has the pattern's shape. */
  lemma MatchAtIff(t: string, p: nat, e: nat, pat: Pattern)
    requires p <= e <= |t|
    ensures MatchAt(t, p, pat) == Some(e) <==>
      Boundary(t, p) && Shape(t[p..e], pat) && Boundary(t, e)
  {
    ShapeInPlace(t, p, e, pat);
    if p + 1 <= |t| { MatchTailSpec(t, p + 1, pat); }
    if p + 2 <= |t| { MatchTailSpec(t, p + 2, pat); }
  }

  /** A character no match contains and that is no word character. */
  predicate Separator(c: char) {
    !IsWordChar(c) && c != ':' && c != '.'
  }

  /** Matched text consists of digits, `:` and `.` only, and starts and
      ends with a digit. */
  lemma MatchChars(t: string, p: nat, e: nat, pat: Pattern)
    requires p <= e <= |t| && MatchAt(t, p, pat) == Some(e)
    ensures forall i :: p <= i < e ==> !Separator(t[i])
    ensures p < e && IsDigit(t[p]) && IsDigit(t[e - 1])
  {
    MatchAtIff(t, p, e, pat);
    var s := t[p..e];
    ShapeNoSeparator(s, pat);
    ShapeDigitEnds(s, pat);
    forall i | p <= i < e ensures !Separator(t[i]) {
      assert s[i - p] == t[i];
    }
    assert s[|s| - 1] == t[e - 1];
  }

  /** A shaped string holds only digits, `:` and `.`. */
  lemma ShapeNoSeparator(s: string, pat: Pattern)
    requires Shape(s, pat)
    ensures forall i :: 0 <= i < |s| ==> !Separator(s[i])
  {
    var lead := |s| - TailLength(pat);
    forall i | 0 <= i < |s| ensures !Separator(s[i]) {
      assert CharFits(s, i, lead, pat);
    }
  }

  /** `re.finditer` misses nothing: every position where the pattern
      matches lies inside one of the reported occurrences (at its start,
      unless an earlier match already consumed it). */
  lemma {:induction false} OccurrencesComplete(t: string, p: nat, pat: Pattern, q: nat) returns (k: nat)
    requires p <= q < |t| && MatchAt(t, q, pat).Some?
    ensures k < |Occurrences(t, p, pat)|
    ensures Occurrences(t, p, pat)[k].start <= q < Occurrences(t, p, pat)[k].end
    decreases |t| - p
  {
    var m := MatchAt(t, p, pat);
    if m.Some? {
      MatchAtAdvances(t, p, pat);
      if q < m.value {
        k := 0;
      } else {
        var k' := OccurrencesComplete(t, m.value, pat, q);
        k := k' + 1;
      }
    } else {
      var k' := OccurrencesComplete(t, p + 1, pat, q);
      k := k';
    }
  }

  /** Each string `re.findall` returns is a slice of the text bounded by
      word boundaries and shaped as the pattern prescribes. */
  lemma FindAllSound(t: string, pat: Pattern)
    ensures forall k :: 0 <= k < |FindAll(t, pat)| ==>
      Contains(t, FindAll(t, pat)[k]) && Shape(FindAll(t, pat)[k], pat)
  {
    var occ := Occurrences(t, 0, pat);
    var r := FindAll(t, pat);
    forall k | 0 <= k < |r| ensures Contains(t, r[k]) && Shape(r[k], pat) {
      ContainsSlice(t, occ[k].start, occ[k].end);
      MatchAtIff(t, occ[k].start, occ[k].end, pat);
    }
  }

  /** A shaped string starts and ends with a digit. */
  lemma ShapeDigitEnds(s: string, pat: Pattern)
    requires Shape(s, pat)
    ensures s != [] && IsDigit(s[0]) && IsDigit(s[|s| - 1])
  {
    var lead := |s| - TailLength(pat);
    assert CharFits(s, 0, lead, pat);
    var last := |s| - 1;
    assert CharFits(s, last, lead, pat);
    if last >= lead {
      LastTailChar(s[last], pat);
    }
  }

  /** The last character of a pattern's tail is a digit. */
  lemma LastTailChar(c: char, pat: Pattern)
    requires TailLength(pat) > 0 && TailChar(c, TailLength(pat) - 1, pat)
    ensures IsDigit(c)
  {
    if !pat.millis {
      var g := pat.groups;
      var j := 3 * g - 1;
      assert j == 3 * (g - 1) + 2;
      assert j % 3 == 2;
    }
  }

  /** A stand-alone shaped string is matched where it stands. */
  lemma StandAloneMatches(t: string, q: nat, s: string, pat: Pattern)
    requires q + |s| <= |t| && t[q..q + |s|] == s && Shape(s, pat)
    requires q == 0 || Separator(t[q - 1])
    requires q + |s| == |t| || Separator(t[q + |s|])
    ensures MatchAt(t, q, pat) == Some(q + |s|)
  {
    var e := q + |s|;
    ShapeDigitEnds(s, pat);
    assert t[q] == s[0] && t[e - 1] == s[|s| - 1];
    assert Boundary(t, q);
    assert Boundary(t, e);
    MatchAtIff(t, q, e, pat);
  }

  /** A match that starts at the text's start or after a separator is
      reported whole by `re.findall`: no earlier match can swallow its
      start. */
  lemma MatchAfterSeparatorFound(t: string, q: nat, e: nat, pat: Pattern)
    requires q <= e <= |t| && MatchAt(t, q, pat) == Some(e)
    requires q == 0 || Separator(t[q - 1])
    ensures t[q..e] in FindAll(t, pat)
  {
    MatchAtAdvances(t, q, pat);
    var occ := Occurrences(t, 0, pat);
    var k := OccurrencesComplete(t, 0, pat, q);
    var o := occ[k];
    if o.start < q {
      // The earlier occurrence would contain the separator before `q`.
      assert o.start <= q - 1 < o.end;
      MatchChars(t, o.start, o.end, pat);
      assert false;
    }
    assert o.start == q && o.end == e;
    assert FindAll(t, pat)[k] == t[o.start..o.end];
  }

  /** A timestamp standing on its own — at the start of the text or after a
      separator, and at the end or before one — is among what `re.findall`
      returns. */
  lemma FindAllFinds(t: string, q: nat, s: string, pat: Pattern)
    requires q + |s| <= |t| && t[q..q + |s|] == s && Shape(s, pat)
    requires q == 0 || Separator(t[q - 1])
    requires q + |s| == |t| || Separator(t[q + |s|])
    ensures s in FindAll(t, pat)
  {
    StandAloneMatches(t, q, s, pat);
    MatchAfterSeparatorFound(t, q, q + |s|, pat);
  }

  /** What `extract_timestamps` returns: slices of the text, each shaped as
      one of the three patterns. */
  lemma ExtractSound(text: string)
    ensures forall k :: 0 <= k < |ExtractTimestamps(text)| ==>
      var x := ExtractTimestamps(text)[k];
      Contains(text, x) && (Shape(x, MinSec) || Shape(x, HourMinSec) || Shape(x, WithMillis))
  {
    FindAllSound(text, MinSec);
    FindAllSound(text, HourMinSec);
    FindAllSound(text, WithMillis);
  }

  /** A stand-alone timestamp of any of the three shapes is extracted. */
  lemma ExtractFinds(text: string, q: nat, s: string, pat: Pattern)
    requires pat == MinSec || pat == HourMinSec || pat == WithMillis
    requires q + |s| <= |text| && text[q..q + |s|] == s && Shape(s, pat)
    requires q == 0 || Separator(text[q - 1])
    requires q + |s| == |text| || Separator(text[q + |s|])
    ensures s in ExtractTimestamps(text)
  {
    FindAllFinds(text, q, s, pat);
  }

  /** The same for a timestamp `s` written between a prefix `x` and a
      suffix `y` of the text. */
  lemma ExtractFindsBetween(x: string, s: string, y: string, pat: Pattern)
    requires pat == MinSec || pat == HourMinSec || pat == WithMillis
    requires Shape(s, pat)
    requires x == [] || Separator(x[|x| - 1])
    requires y == [] || Separator(y[0])
    ensures s in ExtractTimestamps(x + s + y)
  {
    var t := x + s + y;
    assert t[|x|..|x| + |s|] == s;
    if x != [] { assert t[|x| - 1] == x[|x| - 1]; }
    if y != [] { assert t[|x| + |s|] == y[0]; }
    ExtractFinds(t, |x|, s, pat);
  }

  /** Of two stand-alone timestamps `a` and `b` in the text
      `x + a + m + b + z`, the first is extracted ... */
  lemma ExtractFindsFirst(x: string, a: string, m: string, b: string, z: string, pa: Pattern)
    requires pa == MinSec || pa == HourMinSec || pa == WithMillis
    requires Shape(a, pa)
    requires x == [] || Separator(x[|x| - 1])
    requires m != [] && Separator(m[0])
    ensures a in ExtractTimestamps(x + a + m + b + z)
  {
    var y := m + b + z;
    assert y[0] == m[0];
    ExtractFindsBetween(x, a, y, pa);
    Regroup(x + a, m, b, z);
  }

  lemma Regroup(w: string, m: string, b: string, z: string)
    ensures w + (m + b + z) == w + m + b + z
  {
  }

  /** ... and so is the second. */
  lemma ExtractFindsSecond(x: string, a: string, m: string, b: string, z: string, pb: Pattern)
    requires pb == MinSec || pb == HourMinSec || pb == WithMillis
    requires Shape(b, pb)
    requires m != [] && Separator(m[|m| - 1])
    requires z == [] || Separator(z[0])
    ensures b in ExtractTimestamps(x + a + m + b + z)
  {
    var w := x + a + m;
    assert w[|w| - 1] == m[|m| - 1];
    ExtractFindsBetween(w, b, z, pb);
  }

  /** The sample text "At 12:34 we discussed vectors. Later at 1:23:45 we
      covered data frames.", written as its five pieces: both clock times are
      extracted. */
  lemma ExtractExample()
    ensures "12:34" in ExtractTimestamps("At " + "12:34" + " we discussed vectors. Later at " + "1:23:45" + " we covered data frames.")
    ensures "1:23:45" in ExtractTimestamps("At " + "12:34" + " we discussed vectors. Later at " + "1:23:45" + " we covered data frames.")
  {
    assert Shape("12:34", MinSec) by {
      assert forall i :: 0 <= i < 5 ==> CharFits("12:34", i, 2, MinSec);
    }
    assert Shape("1:23:45", HourMinSec) by {
      assert forall i :: 0 <= i < 7 ==> CharFits("1:23:45", i, 1, HourMinSec);
    }
    ExtractFindsFirst("At ", "12:34", " we discussed vectors. Later at ", "1:23:45", " we covered data frames.", MinSec);
    ExtractFindsSecond("At ", "12:34", " we discussed vectors. Later at ", "1:23:45", " we covered data frames.", HourMinSec);
  }
}

=== FILE: vector_store.dfy ===
/** `VectorStore`: a metadata list kept in step with a FAISS inner-product
    index, and the post-processing of the index's search results.

    The sentence encoder and the FAISS index are oracles. The encoder is any
    function from text to an embedding; a search is any function from the
    stored vectors, the query vector and `k` to a list of `(score, idx)`
    hits. Everything the store decides on its own — which documents it keeps,
    which hits it admits, how it orders and describes them — is modelled. */
module VectorStore {
  import opened Wrappers
  import opened Text
  import opened Metadata
  import opened Seqs

  type Embedding = seq<real>

  /** The sentence encoder. */
  type Encoder = string -> Embedding

  /** One row of FAISS's answer: a score and the position of a stored
      vector, or `-1` where FAISS pads a short answer. */
  datatype Hit = Hit(score: real, idx: int)

  /** `index.search(vectors, query, k)` for one query. */
  type Searcher = (seq<Embedding>, Embedding, int) -> seq<Hit>

  /** What FAISS promises of a search: at most `k` hits, and none for a
      `k` below one. */
  ghost predicate SearchBounded(search: Searcher) {
    forall v, q, n :: |search(v, q, n)| <= if n < 0 then 0 else n
  }

  /** The store: one metadata entry per stored vector. */
  datatype Store = Store(metadata: seq<Dict>, vectors: seq<Embedding>, dimension: nat, modelName: string)

  /** The lock-step invariant: `len(metadata) == index.ntotal`. */
  predicate Valid(st: Store) {
    |st.metadata| == |st.vectors|
  }

  /** A store with nothing loaded from disk. */
  function Fresh(dimension: nat, modelName: string): (st: Store)
    ensures Valid(st) && st.metadata == [] && st.dimension == dimension && st.modelName == modelName
  {
    Store([], [], dimension, modelName)
  }

  // ---------------------------------------------------------------------
  // Adding, clearing, updating

  /** An input document: `text` and `metadata` keys, either of which may be
      missing. */
  datatype Document = Document(text: Option<string>, metadata: Option<Dict>)

  /** `doc.get('text', '')`. */
  function DocText(d: Document): string {
    d.text.GetOr([])
  }

  /** `doc.get('metadata', {})`. */
  function DocMetadata(d: Document): Dict {
    d.metadata.GetOr(map[])
  }

  /** `text.strip()` is truthy. */
  predicate Indexable(d: Document) {
    Strip(DocText(d)) != []
  }

  function Texts(docs: seq<Document>): (r: seq<string>)
    ensures |r| == |docs|
  {
    seq(|docs|, k requires 0 <= k < |docs| => DocText(docs[k]))
  }

  function Metadatas(docs: seq<Document>): (r: seq<Dict>)
    ensures |r| == |docs|
  {
    seq(|docs|, k requires 0 <= k < |docs| => DocMetadata(docs[k]))
  }

  function EncodeAll(encode: Encoder, texts: seq<string>): (r: seq<Embedding>)
    ensures |r| == |texts|
  {
    seq(|texts|, k requires 0 <= k < |texts| => encode(texts[k]))
  }

  /** `VectorStore.add_documents(documents)`: the documents with non-blank
      text are encoded and appended, their metadata after the existing
      entries; with none, the store is left alone. */
  function AddDocuments(st: Store, docs: seq<Document>, encode: Encoder): (r: Store)
    ensures Valid(st) ==> Valid(r)
    ensures |r.metadata| >= |st.metadata| && |r.vectors| >= |st.vectors|
    ensures r.metadata[..|st.metadata|] == st.metadata && r.vectors[..|st.vectors|] == st.vectors
    ensures r.dimension == st.dimension && r.modelName == st.modelName
    ensures (forall j :: 0 <= j < |docs| ==> !Indexable(docs[j])) ==> r == st
  {
    var kept := Filter(docs, Indexable);
    assert (forall j :: 0 <= j < |docs| ==> !Indexable(docs[j])) ==> kept == [] by {
      if forall j :: 0 <= j < |docs| ==> !Indexable(docs[j]) {
        FilterNone(docs, Indexable);
      }
    }
    if docs == [] then st
    else if kept == [] then st
    else
      Store(st.metadata + Metadatas(kept), st.vectors + EncodeAll(encode, Texts(kept)),
            st.dimension, st.modelName)
  }

  /** What `add_documents` appends: the metadata of exactly the documents
      whose text is not blank, in input order. */
  lemma AddDocumentsAppends(st: Store, docs: seq<Document>, encode: Encoder)
    ensures |AddDocuments(st, docs, encode).metadata| == |st.metadata| + |Positions(docs, Indexable, 0)|
    ensures |AddDocuments(st, docs, encode).vectors| == |st.vectors| + |Positions(docs, Indexable, 0)|
    ensures forall k :: 0 <= k < |Positions(docs, Indexable, 0)| ==>
      var j := Positions(docs, Indexable, 0)[k];
      j < |docs| && Indexable(docs[j])
      && AddDocuments(st, docs, encode).metadata[|st.metadata| + k] == DocMetadata(docs[j])
      && AddDocuments(st, docs, encode).vectors[|st.vectors| + k] == encode(DocText(docs[j]))
  {
    FilterPositions(docs, Indexable);
    var kept := Filter(docs, Indexable);
    if docs == [] || kept == [] {
      assert |Positions(docs, Indexable, 0)| == 0;
    }
  }

  /** `VectorStore.clear_index()`. */
  function ClearIndex(st: Store): (r: Store)
    ensures Valid(r) && r.metadata == [] && r.vectors == []
    ensures r.dimension == st.dimension && r.modelName == st.modelName
  {
    Store([], [], st.dimension, st.modelName)
  }

  /** `VectorStore.update_documents(documents)`: clear, then add. */
  function UpdateDocuments(st: Store, docs: seq<Document>, encode: Encoder): (r: Store)
    ensures Valid(r)
    ensures |r.metadata| == |Filter(docs, Indexable)|
  {
    AddDocuments(ClearIndex(st), docs, encode)
  }

  /** After an update the store holds exactly the new documents: what it
      held before makes no difference. */
  lemma UpdateForgets(st1: Store, st2: Store, docs: seq<Document>, encode: Encoder)
    requires st1.dimension == st2.dimension && st1.modelName == st2.modelName
    ensures UpdateDocuments(st1, docs, encode) == UpdateDocuments(st2, docs, encode)
    ensures UpdateDocuments(st1, docs, encode).metadata == Metadatas(Filter(docs, Indexable))
  {
  }

  /** The statistics `get_index_stats` reports. */
  datatype IndexStats = IndexStats(totalDocuments: nat, indexSize: nat, dimension: nat, modelName: string)

  /** `VectorStore.get_index_stats()`. */
  function GetIndexStats(st: Store): (r: IndexStats)
    ensures Valid(st) <==> r.totalDocuments == r.indexSize
    ensures r.totalDocuments == |st.metadata|
  {
    IndexStats(|st.metadata|, |st.vectors|, st.dimension, st.modelName)
  }

  /** The sample from the test suite: two documents with text, added to an
      empty store, give two metadata entries. */
  lemma AddTwoDocuments(dimension: nat, modelName: string, encode: Encoder)
    ensures var docs := [Document(Some("test document 1"), Some(map["source" := VStr("test1")])),
                         Document(Some("test document 2"), Some(map["source" := VStr("test2")]))];
            |AddDocuments(Fresh(dimension, modelName), docs, encode).metadata| == 2
  {
    var docs := [Document(Some("test document 1"), Some(map["source" := VStr("test1")])),
                 Document(Some("test document 2"), Some(map["source" := VStr("test2")]))];
    PrintableNotSpace('t');
    PrintableNotSpace('1');
    PrintableNotSpace('2');
    StripTrimmed(DocText(docs[0]));
    StripTrimmed(DocText(docs[1]));
    assert Indexable(docs[0]) && Indexable(docs[1]);
    AddDocumentsAppends(Fresh(dimension, modelName), docs, encode);
    PositionsComplete(docs, Indexable, 0);
    PositionsIncreasing(docs, Indexable, 0);
    PositionsPick(docs, Indexable, 0);
    assert 0 in Positions(docs, Indexable, 0) && 1 in Positions(docs, Indexable, 0);
  }

  // ---------------------------------------------------------------------
  // Ordering results: `list.sort(key=score, reverse=True)`

  /** One search result: `{'score', 'metadata', 'index'}`. */
  datatype Retrieved = Retrieved(score: real, metadata: Dict, index: int)

  predicate SortedByScore(xs: seq<Retrieved>) {
    forall i, j :: 0 <= i < j < |xs| ==> xs[i].score >= xs[j].score
  }

  /** Places `x` before the first element scoring no more than it. */
  function Insert(x: Retrieved, ys: seq<Retrieved>): (r: seq<Retrieved>)
    ensures multiset(r) == multiset(ys) + multiset{x}
  {
    if ys == [] || x.score >= ys[0].score then [x] + ys
    else
      assert ys == [ys[0]] + ys[1..];
      [ys[0]] + Insert(x, ys[1..])
  }

  /** Inserting into a sorted list keeps it sorted. */
  lemma {:induction false} InsertSorted(x: Retrieved, ys: seq<Retrieved>)
    requires SortedByScore(ys)
    ensures SortedByScore(Insert(x, ys))
  {
    if ys != [] && x.score < ys[0].score {
      var tail := ys[1..];
      InsertSorted(x, tail);
      var rest := Insert(x, tail);
      assert Insert(x, ys) == [ys[0]] + rest;
      assert forall k :: 0 <= k < |tail| ==> ys[0].score >= tail[k].score;
      BoundKept(ys[0].score, x, tail, rest);
      ConsSorted(ys[0], rest);
    }
  }

  /** A bound on every score of `tail` and on `x` bounds every score of a
      permutation of `tail` plus `x`. */
  lemma BoundKept(v: real, x: Retrieved, tail: seq<Retrieved>, rest: seq<Retrieved>)
    requires multiset(rest) == multiset(tail) + multiset{x}
    requires x.score <= v && forall k :: 0 <= k < |tail| ==> tail[k].score <= v
    ensures forall k :: 0 <= k < |rest| ==> rest[k].score <= v
  {
    forall k | 0 <= k < |rest| ensures rest[k].score <= v {
      assert rest[k] in multiset(rest);
      if rest[k] != x {
        assert rest[k] in tail;
      }
    }
  }

  lemma ConsSorted(y: Retrieved, rest: seq<Retrieved>)
    requires SortedByScore(rest) && forall k :: 0 <= k < |rest| ==> rest[k].score <= y.score
    ensures SortedByScore([y] + rest)
  {
    var r := [y] + rest;
    forall i, j | 0 <= i < j < |r| ensures r[i].score >= r[j].score {
      assert r[j] == rest[j - 1];
      if i > 0 { assert r[i] == rest[i - 1]; }
    }
  }

  /** Python's `sort(key=lambda x: x['score'], reverse=True)` (a stable
      sort). */
  function SortByScore(xs: seq<Retrieved>): (r: seq<Retrieved>)
    ensures multiset(r) == multiset(xs)
    ensures SortedByScore(r)
  {
    if xs == [] then []
    else
      assert xs == [xs[0]] + xs[1..];
      InsertSorted(xs[0], SortByScore(xs[1..]));
      Insert(xs[0], SortByScore(xs[1..]))
  }

  /** The results scoring exactly `v`, in order. */
  function WithScore(xs: seq<Retrieved>, v: real): seq<Retrieved> {
    if xs == [] then []
    else (if xs[0].score == v then [xs[0]] else []) + WithScore(xs[1..], v)
  }

  lemma {:induction false} InsertWithScore(x: Retrieved, ys: seq<Retrieved>, v: real)
    ensures WithScore(Insert(x, ys), v) == (if x.score == v then [x] else []) + WithScore(ys, v)
  {
    if ys == [] || x.score >= ys[0].score {
      assert Insert(x, ys) == [x] + ys;
      WithScoreCons(x, ys, v);
    } else {
      InsertWithScore(x, ys[1..], v);
      assert ys == [ys[0]] + ys[1..];
      InsertLater(x, ys[0], ys[1..], v);
    }
  }

  /** Inserting behind a higher-scoring `y` keeps the scores' order. */
  lemma InsertLater(x: Retrieved, y: Retrieved, tail: seq<Retrieved>, v: real)
    requires x.score < y.score
    requires WithScore(Insert(x, tail), v) == (if x.score == v then [x] else []) + WithScore(tail, v)
    ensures WithScore(Insert(x, [y] + tail), v) == (if x.score == v then [x] else []) + WithScore([y] + tail, v)
  {
    InsertBehind(x, y, tail);
    WithScoreCons(y, Insert(x, tail), v);
    WithScoreCons(y, tail, v);
    SwapEmpty(if x.score == v then [x] else [], if y.score == v then [y] else [], WithScore(tail, v));
  }

  lemma InsertBehind(x: Retrieved, y: Retrieved, tail: seq<Retrieved>)
    requires x.score < y.score
    ensures Insert(x, [y] + tail) == [y] + Insert(x, tail)
  {
    assert ([y] + tail)[1..] == tail;
  }

  /** Of two pieces at least one of which is empty, the order does not
      matter. */
  lemma SwapEmpty<T>(a: seq<T>, b: seq<T>, w: seq<T>)
    requires a == [] || b == []
    ensures b + (a + w) == a + (b + w)
  {
    if a == [] {
      assert b + (a + w) == b + w;
      assert a + (b + w) == b + w;
    } else {
      assert b + (a + w) == a + w;
      assert a + (b + w) == a + w;
    }
  }

  lemma WithScoreCons(y: Retrieved, rest: seq<Retrieved>, v: real)
    ensures WithScore([y] + rest, v) == (if y.score == v then [y] else []) + WithScore(rest, v)
  {
    assert ([y] + rest)[1..] == rest;
  }

  /** The sort is stable: among results of equal score the input order is
      kept. */
  lemma {:induction false} SortStable(xs: seq<Retrieved>, v: real)
    ensures WithScore(SortByScore(xs), v) == WithScore(xs, v)
  {
    if xs != [] {
      SortStable(xs[1..], v);
      InsertWithScore(xs[0], SortByScore(xs[1..]), v);
    }
  }

  // ---------------------------------------------------------------------
  // Searching

  /** The loop's guard: `idx < len(metadata)`, and the threshold when one
      applies. A negative `idx` passes the guard. */
  predicate Admit(h: Hit, n: nat, threshold: Option<real>) {
    h.idx < n && (threshold.None? || h.score >= threshold.value)
  }

  function Admits(n: nat, threshold: Option<real>): Hit -> bool {
    h => Admit(h, n, threshold)
  }

  /** The loop over FAISS's hits: each admitted hit becomes a result with
      `metadata[idx]` — Python indexing, so `-1` is the last entry and an
      empty metadata list raises `IndexError`. */
  function Collect(hits: seq<Hit>, md: seq<Dict>, threshold: Option<real>): (r: Result<seq<Retrieved>, string>)
    ensures r.Success? <==> forall j :: 0 <= j < |hits| && Admit(hits[j], |md|, threshold) ==> -|md| <= hits[j].idx
    ensures r.Success? ==> |r.value| == |Filter(hits, Admits(|md|, threshold))|
    ensures r.Success? ==> forall k :: 0 <= k < |r.value| ==>
      var x := r.value[k];
      Hit(x.score, x.index) in hits && Admit(Hit(x.score, x.index), |md|, threshold)
      && PyIndex(md, x.index) == Success(x.metadata)
  {
    var kept := Filter(hits, Admits(|md|, threshold));
    FilterPositions(hits, Admits(|md|, threshold));
    if forall k :: 0 <= k < |kept| ==> -|md| <= kept[k].idx then
      var r := seq(|kept|, k requires 0 <= k < |kept| => Retrieved(kept[k].score, PyIndex(md, kept[k].idx).value, kept[k].idx));
      assert forall k :: 0 <= k < |kept| ==> kept[k] in hits;
      Success(r)
    else
      Failure("list index out of range")
  }

  /** The score threshold `similarity_search` and `search_with_context`
      use when the caller gives none. */
  const DefaultThreshold := 0.5

  /** `VectorStore.similarity_search(query, k, threshold)`. A blank query
      returns no results without consulting the encoder or the index. */
  function SimilaritySearch(st: Store, query: string, k: int, threshold: real,
                            encode: Encoder, search: Searcher): (r: Result<seq<Retrieved>, string>)
    ensures Strip(query) == [] ==> r == Success([])
    ensures r.Success? ==> SortedByScore(r.value)
    ensures r.Success? ==> forall i :: 0 <= i < |r.value| ==>
      r.value[i].score >= threshold && r.value[i].index < |st.metadata|
      && PyIndex(st.metadata, r.value[i].index) == Success(r.value[i].metadata)
    ensures r.Success? && Strip(query) != [] ==>
      |r.value| <= |search(st.vectors, encode(query), k)|
      && forall i :: 0 <= i < |r.value| ==> Hit(r.value[i].score, r.value[i].index) in search(st.vectors, encode(query), k)
  {
    if Strip(query) == [] then Success([])
    else
      var hits := search(st.vectors, encode(query), k);
      var found :- Collect(hits, st.metadata, Some(threshold));
      SortKeepsFound(found, hits, st.metadata, Some(threshold));
      assert |SortByScore(found)| == |found| by {
        assert |multiset(SortByScore(found))| == |multiset(found)|;
      }
      Success(SortByScore(found))
  }

  /** `x` comes from an admitted hit and carries that hit's metadata. */
  predicate Found(x: Retrieved, hits: seq<Hit>, md: seq<Dict>, threshold: Option<real>) {
    Hit(x.score, x.index) in hits && Admit(Hit(x.score, x.index), |md|, threshold)
    && PyIndex(md, x.index) == Success(x.metadata)
  }

  lemma SortKeepsFound(found: seq<Retrieved>, hits: seq<Hit>, md: seq<Dict>, threshold: Option<real>)
    requires forall k :: 0 <= k < |found| ==> Found(found[k], hits, md, threshold)
    ensures forall k :: 0 <= k < |SortByScore(found)| ==> Found(SortByScore(found)[k], hits, md, threshold)
  {
    var sorted := SortByScore(found);
    forall k | 0 <= k < |sorted| ensures Found(sorted[k], hits, md, threshold) {
      assert sorted[k] in multiset(found);
      var j :| 0 <= j < |found| && found[j] == sorted[k];
    }
  }

  /** Collected results follow FAISS's order, and every admitted hit is
      among them. */
  lemma CollectInOrder(hits: seq<Hit>, md: seq<Dict>, threshold: Option<real>)
    requires Collect(hits, md, threshold).Success?
    ensures var r := Collect(hits, md, threshold).value;
      var pos := Positions(hits, Admits(|md|, threshold), 0);
      |pos| == |r|
      && (forall k :: 0 <= k < |r| ==> pos[k] < |hits| && r[k].score == hits[pos[k]].score && r[k].index == hits[pos[k]].idx)
      && (forall k, l :: 0 <= k < l < |r| ==> pos[k] < pos[l])
      && (forall j :: 0 <= j < |hits| && Admit(hits[j], |md|, threshold) ==> j in pos)
  {
    FilterPositions(hits, Admits(|md|, threshold));
  }

  /** With a search that keeps FAISS's promise, `similarity_search` returns
      at most `k` results. */
  lemma SimilaritySearchAtMostK(st: Store, query: string, k: int, threshold: real,
                                encode: Encoder, search: Searcher)
    requires SearchBounded(search)
    requires SimilaritySearch(st, query, k, threshold, encode, search).Success?
    ensures |SimilaritySearch(st, query, k, threshold, encode, search).value| <= if k < 0 then 0 else k
  {
    if Strip(query) != [] {
      assert |search(st.vectors, encode(query), k)| <= if k < 0 then 0 else k;
    }
  }

  /** Among results of equal score, `similarity_search` keeps FAISS's order. */
  lemma SimilaritySearchStable(st: Store, query: string, k: int, threshold: real,
                               encode: Encoder, search: Searcher, v: real)
    requires Strip(query) != []
    requires SimilaritySearch(st, query, k, threshold, encode, search).Success?
    ensures Collect(search(st.vectors, encode(query), k), st.metadata, Some(threshold)).Success?
    ensures WithScore(SimilaritySearch(st, query, k, threshold, encode, search).value, v)
         == WithScore(Collect(search(st.vectors, encode(query), k), st.metadata, Some(threshold)).value, v)
  {
    SortStable(Collect(search(st.vectors, encode(query), k), st.metadata, Some(threshold)).value, v);
  }

  /** FAISS pads a short answer with index `-1`, which passes the guard: if
      its score clears the threshold, the result carries the last metadata
      entry ... */
  lemma PaddingHitReadsLastEntry(st: Store, query: string, k: int, threshold: real,
                                 encode: Encoder, search: Searcher, score: real)
    requires Strip(query) != [] && st.metadata != []
    requires search(st.vectors, encode(query), k) == [Hit(score, -1)] && score >= threshold
    ensures SimilaritySearch(st, query, k, threshold, encode, search)
         == Success([Retrieved(score, st.metadata[|st.metadata| - 1], -1)])
  {
    var md := st.metadata;
    var hits := [Hit(score, -1)];
    var x := Retrieved(score, md[|md| - 1], -1);
    assert Admits(|md|, Some(threshold))(hits[0]);
    assert Filter(hits, Admits(|md|, Some(threshold))) == hits by {
      assert hits[1..] == [];
    }
    var c := Collect(hits, md, Some(threshold));
    assert c.Success? && |c.value| == 1;
    assert Hit(c.value[0].score, c.value[0].index) in hits;
    assert c.value == [x];
    assert SortByScore([x]) == [x] by {
      assert [x][1..] == [];
    }
  }

  /** ... and on an empty store the same hit raises `IndexError`. */
  lemma PaddingHitOnEmptyStore(st: Store, query: string, k: int, threshold: real,
                               encode: Encoder, search: Searcher, score: real)
    requires Strip(query) != [] && st.metadata == []
    requires search(st.vectors, encode(query), k) == [Hit(score, -1)] && score >= threshold
    ensures SimilaritySearch(st, query, k, threshold, encode, search).Failure?
  {
    assert Admit(Hit(score, -1), 0, Some(threshold));
  }

  // ---------------------------------------------------------------------
  // Context and references

  /** `'{:.3f}'.format(score)`. */
  type Fmt3 = real -> string

  /** One reference: `{'module', 'page', 'score', 'source'}`; `moduleName` is the `'module'` entry. */
  datatype Reference = Reference(moduleName: Value, page: string, score: real, source: Value)

  /** `metadata.get('source', 'Unknown Source')`. */
  function Source(md: Dict): Value {
    Get(md, "source", VStr("Unknown Source"))
  }

  /** `metadata.get('title', '')`. */
  function Title(md: Dict): Value {
    Get(md, "title", VStr([]))
  }

  /** `metadata.get('page', '')`. */
  function Page(md: Dict): Value {
    Get(md, "page", VStr([]))
  }

  function MakeReference(x: Retrieved): Reference {
    var title := Title(x.metadata);
    Reference(if Truthy(title) then title else Source(x.metadata),
              if Truthy(Page(x.metadata)) then Render(Page(x.metadata)) else [],
              x.score, Source(x.metadata))
  }

  /** The context line for the `i`-th result (numbered from 1); the title is
      printed even when empty. */
  function ContextLine(i: nat, x: Retrieved, fmt3: Fmt3): string {
    "[Reference " + NatToString(i + 1) + "] " + Render(Title(x.metadata)) + " - Page "
    + Render(Page(x.metadata)) + " (Relevance: " + fmt3(x.score) + ")"
  }

  function ContextLines(results: seq<Retrieved>, fmt3: Fmt3): (r: seq<string>)
    ensures |r| == |results|
  {
    seq(|results|, i requires 0 <= i < |results| => ContextLine(i, results[i], fmt3))
  }

  /** The context text and the references `search_with_context` returns. */
  datatype Context = Context(text: string, references: seq<Reference>)

  /** `VectorStore.search_with_context(query, k, threshold)`. */
  function SearchWithContext(st: Store, query: string, k: int, threshold: real,
                             encode: Encoder, search: Searcher, fmt3: Fmt3): (r: Result<Context, string>)
    ensures r.Success? <==> SimilaritySearch(st, query, k, threshold, encode, search).Success?
    ensures r.Success? ==>
      var results := SimilaritySearch(st, query, k, threshold, encode, search).value;
      |r.value.references| == |results|
      && (r.value.text == [] <==> results == [])
      && forall i :: 0 <= i < |results| ==>
           var md := results[i].metadata;
           r.value.references[i].score == results[i].score
           && r.value.references[i].source == Source(md)
           && r.value.references[i].moduleName == (if Truthy(Title(md)) then Title(md) else Source(md))
           && r.value.references[i].page == (if Truthy(Page(md)) then Render(Page(md)) else [])
  {
    var results :- SimilaritySearch(st, query, k, threshold, encode, search);
    if results == [] then Success(Context([], []))
    else
      var lines := ContextLines(results, fmt3);
      assert |Join("\n", lines)| >= |lines[0]|;
      Success(Context(Join("\n", lines), seq(|results|, i requires 0 <= i < |results| => MakeReference(results[i]))))
  }

  /** The context has one line per result, in order: splitting it at line
      breaks gives back the lines, when no title, page or formatted score
      holds a line break. */
  lemma ContextOneLinePerResult(st: Store, query: string, k: int, threshold: real,
                                encode: Encoder, search: Searcher, fmt3: Fmt3)
    requires SearchWithContext(st, query, k, threshold, encode, search, fmt3).Success?
    requires var results := SimilaritySearch(st, query, k, threshold, encode, search).value;
      forall i :: 0 <= i < |results| ==>
        NoChar('\n', Render(Title(results[i].metadata))) && NoChar('\n', Render(Page(results[i].metadata)))
        && NoChar('\n', fmt3(results[i].score))
    ensures var results := SimilaritySearch(st, query, k, threshold, encode, search).value;
      results != [] ==>
      Split('\n', SearchWithContext(st, query, k, threshold, encode, search, fmt3).value.text)
        == ContextLines(results, fmt3)
  {
    var results := SimilaritySearch(st, query, k, threshold, encode, search).value;
    if results != [] {
      ContextLinesSplit(results, fmt3);
    }
  }

  /** Joining the context lines and splitting the result at line breaks
      gives the lines back, one per result, when no title, page or
      formatted score holds a line break. */
  lemma ContextLinesSplit(results: seq<Retrieved>, fmt3: Fmt3)
    requires results != []
    requires forall i :: 0 <= i < |results| ==>
      NoChar('\n', Render(Title(results[i].metadata))) && NoChar('\n', Render(Page(results[i].metadata)))
      && NoChar('\n', fmt3(results[i].score))
    ensures Split('\n', Join("\n", ContextLines(results, fmt3))) == ContextLines(results, fmt3)
  {
    var lines := ContextLines(results, fmt3);
    forall i | 0 <= i < |lines| ensures NoChar('\n', lines[i]) {
      ContextLineNoBreak(i, results[i], fmt3);
    }
    SplitJoin('\n', lines);
  }

  lemma ContextLineNoBreak(i: nat, x: Retrieved, fmt3: Fmt3)
    requires NoChar('\n', Render(Title(x.metadata))) && NoChar('\n', Render(Page(x.metadata)))
    requires NoChar('\n', fmt3(x.score))
    ensures NoChar('\n', ContextLine(i, x, fmt3))
  {
    var n := NatToString(i + 1);
    assert NoChar('\n', n);
    var parts := ["[Reference ", n, "] ", Render(Title(x.metadata)), " - Page ", Render(Page(x.metadata)),
                  " (Relevance: ", fmt3(x.score), ")"];
    assert NoChar('\n', "[Reference ") && NoChar('\n', "] ") && NoChar('\n', " - Page ")
        && NoChar('\n', " (Relevance: ") && NoChar('\n', ")");
    NoCharAppend('\n', "[Reference ", n);
    NoCharAppend('\n', "[Reference " + n, "] ");
    NoCharAppend('\n', "[Reference " + n + "] ", Render(Title(x.metadata)));
    NoCharAppend('\n', "[Reference " + n + "] " + Render(Title(x.metadata)), " - Page ");
    NoCharAppend('\n', "[Reference " + n + "] " + Render(Title(x.metadata)) + " - Page ", Render(Page(x.metadata)));
    NoCharAppend('\n', "[Reference " + n + "] " + Render(Title(x.metadata)) + " - Page " + Render(Page(x.metadata)), " (Relevance: ");
    NoCharAppend('\n', "[Reference " + n + "] " + Render(Title(x.metadata)) + " - Page " + Render(Page(x.metadata)) + " (Relevance: ", fmt3(x.score));
    NoCharAppend('\n', "[Reference " + n + "] " + Render(Title(x.metadata)) + " - Page " + Render(Page(x.metadata)) + " (Relevance: " + fmt3(x.score), ")");
  }

  // ---------------------------------------------------------------------
  // Batch search

  /** What a batch row is: the hits of one query that pass the index
      guard, whatever their score, each with its metadata (the collected
      results, which follow FAISS's order, see `CollectInOrder`), reordered
      best first, with results of equal score kept in FAISS's order. */
  ghost predicate RowOf(md: seq<Dict>, hits: seq<Hit>, row: seq<Retrieved>) {
    Collect(hits, md, None).Success?
    && SortedByScore(row)
    && multiset(row) == multiset(Collect(hits, md, None).value)
    && (forall v :: WithScore(row, v) == WithScore(Collect(hits, md, None).value, v))
    && |row| == |Filter(hits, Admits(|md|, None))|
    && forall j :: 0 <= j < |row| ==>
         Hit(row[j].score, row[j].index) in hits && row[j].index < |md|
         && PyIndex(md, row[j].index) == Success(row[j].metadata)
  }

  /** One row of `batch_similarity_search`. */
  function BatchRow(md: seq<Dict>, hits: seq<Hit>): (r: Result<seq<Retrieved>, string>)
    ensures r.Success? <==> Collect(hits, md, None).Success?
    ensures r.Success? ==> RowOf(md, hits, r.value)
  {
    var found :- Collect(hits, md, None);
    var sorted := SortByScore(found);
    assert |sorted| == |found| by { assert |multiset(sorted)| == |multiset(found)|; }
    SortKeepsFound(found, hits, md, None);
    forall v ensures WithScore(sorted, v) == WithScore(found, v) {
      SortStable(found, v);
    }
    Success(sorted)
  }

  /** `RowOf` leaves no choice: the row is the one `BatchRow` computes. */
  lemma RowDetermined(md: seq<Dict>, hits: seq<Hit>, row: seq<Retrieved>)
    requires RowOf(md, hits, row)
    ensures BatchRow(md, hits) == Success(row)
  {
    var other := BatchRow(md, hits).value;
    SortedUnique(row, other);
  }

  /** Two sorted lists with the same results at every score, in the same
      order, are equal. */
  lemma {:induction false} SortedUnique(a: seq<Retrieved>, b: seq<Retrieved>)
    requires SortedByScore(a) && SortedByScore(b)
    requires forall v :: WithScore(a, v) == WithScore(b, v)
    ensures a == b
    decreases |a| + |b|
  {
    EmptyTogether(a, b);
    if a != [] {
      HeadScoresEqual(a, b);
      TailsAgree(a, b);
      SortedTail(a);
      SortedTail(b);
      SortedUnique(a[1..], b[1..]);
      assert a == [a[0]] + a[1..] && b == [b[0]] + b[1..];
    }
  }

  /** The head of a list is among the results at its score. */
  lemma HeadCounted(a: seq<Retrieved>)
    requires a != []
    ensures WithScore(a, a[0].score) == [a[0]] + WithScore(a[1..], a[0].score)
  {
  }

  /** Lists with the same results at every score are empty together. */
  lemma EmptyTogether(a: seq<Retrieved>, b: seq<Retrieved>)
    requires forall v :: WithScore(a, v) == WithScore(b, v)
    ensures a == [] <==> b == []
  {
    if a != [] { HeadCounted(a); }
    if b != [] { HeadCounted(b); }
  }

  /** Sorted lists with the same results at every score start at the same
      score. */
  lemma HeadScoresEqual(a: seq<Retrieved>, b: seq<Retrieved>)
    requires a != [] && b != [] && SortedByScore(a) && SortedByScore(b)
    requires forall v :: WithScore(a, v) == WithScore(b, v)
    ensures a[0].score == b[0].score
  {
    HeadCounted(a);
    HeadCounted(b);
    BelowAbsent(a, b[0].score);
    BelowAbsent(b, a[0].score);
  }

  /** A sorted list has nothing at a score above its head's. */
  lemma {:induction false} BelowAbsent(a: seq<Retrieved>, v: real)
    requires a != [] && SortedByScore(a)
    ensures v > a[0].score ==> WithScore(a, v) == []
    decreases |a|
  {
    if |a| > 1 {
      SortedTail(a);
      assert a[1..][0] == a[1];
      BelowAbsent(a[1..], v);
    }
  }

  /** With equal heads' scores, the heads are equal and the tails agree at
      every score. */
  lemma TailsAgree(a: seq<Retrieved>, b: seq<Retrieved>)
    requires a != [] && b != [] && a[0].score == b[0].score
    requires forall v :: WithScore(a, v) == WithScore(b, v)
    ensures a[0] == b[0]
    ensures forall v :: WithScore(a[1..], v) == WithScore(b[1..], v)
  {
    HeadsEqual(a, b);
    forall v ensures WithScore(a[1..], v) == WithScore(b[1..], v) {
      TailAgreesAt(a, b, v);
    }
  }

  lemma HeadsEqual(a: seq<Retrieved>, b: seq<Retrieved>)
    requires a != [] && b != [] && a[0].score == b[0].score
    requires WithScore(a, a[0].score) == WithScore(b, a[0].score)
    ensures a[0] == b[0]
  {
    HeadCounted(a);
    HeadCounted(b);
    assert WithScore(a, a[0].score)[0] == a[0];
  }

  lemma TailAgreesAt(a: seq<Retrieved>, b: seq<Retrieved>, v: real)
    requires a != [] && b != [] && a[0] == b[0]
    requires WithScore(a, v) == WithScore(b, v)
    ensures WithScore(a[1..], v) == WithScore(b[1..], v)
  {
    var pre := if a[0].score == v then [a[0]] else [];
    assert WithScore(a, v) == pre + WithScore(a[1..], v);
    assert WithScore(b, v) == pre + WithScore(b[1..], v);
    assert (pre + WithScore(a[1..], v))[|pre|..] == WithScore(a[1..], v);
    assert (pre + WithScore(b[1..], v))[|pre|..] == WithScore(b[1..], v);
  }

  lemma SortedTail(a: seq<Retrieved>)
    requires a != [] && SortedByScore(a)
    ensures SortedByScore(a[1..])
  {
    forall i, j | 0 <= i < j < |a[1..]| ensures a[1..][i].score >= a[1..][j].score {
      assert a[1..][i] == a[i + 1] && a[1..][j] == a[j + 1];
    }
  }

  /** The hits FAISS gives for one query. */
  function HitsFor(st: Store, query: string, k: int, encode: Encoder, search: Searcher): seq<Hit> {
    search(st.vectors, encode(query), k)
  }

  /** `VectorStore.batch_similarity_search(queries, k)`: one row per query,
      in order; an empty batch gives no rows. Unlike `similarity_search`
      there is no threshold and no blank-query shortcut. */
  function BatchSimilaritySearch(st: Store, queries: seq<string>, k: int, encode: Encoder, search: Searcher)
    : (r: Result<seq<seq<Retrieved>>, string>)
    ensures r.Success? <==> forall i :: 0 <= i < |queries| ==> QueryOk(st, queries[i], k, encode, search)
    ensures r.Success? ==> |r.value| == |queries|
    ensures r.Success? ==> forall i :: 0 <= i < |queries| ==>
      RowOf(st.metadata, HitsFor(st, queries[i], k, encode, search), r.value[i])
  {
    if queries == [] then Success([])
    else
      OkCons(st, queries, k, encode, search);
      var row :- BatchRow(st.metadata, HitsFor(st, queries[0], k, encode, search));
      var rest :- BatchSimilaritySearch(st, queries[1..], k, encode, search);
      RowsCons(st, queries, k, encode, search, row, rest);
      Success([row] + rest)
  }

  /** The row lookup for `query` raises no error. */
  predicate QueryOk(st: Store, query: string, k: int, encode: Encoder, search: Searcher) {
    Collect(HitsFor(st, query, k, encode, search), st.metadata, None).Success?
  }

  lemma OkCons(st: Store, queries: seq<string>, k: int, encode: Encoder, search: Searcher)
    requires queries != []
    ensures (forall i :: 0 <= i < |queries| ==> QueryOk(st, queries[i], k, encode, search))
        <==> QueryOk(st, queries[0], k, encode, search)
             && forall i :: 0 <= i < |queries[1..]| ==> QueryOk(st, queries[1..][i], k, encode, search)
  {
    assert forall i :: 1 <= i < |queries| ==> queries[i] == queries[1..][i - 1];
  }

  lemma RowsCons(st: Store, queries: seq<string>, k: int, encode: Encoder, search: Searcher,
                 row: seq<Retrieved>, rest: seq<seq<Retrieved>>)
    requires queries != [] && |rest| == |queries| - 1
    requires RowOf(st.metadata, HitsFor(st, queries[0], k, encode, search), row)
    requires forall i :: 0 <= i < |queries[1..]| ==>
      RowOf(st.metadata, HitsFor(st, queries[1..][i], k, encode, search), rest[i])
    ensures forall i :: 0 <= i < |queries| ==>
      RowOf(st.metadata, HitsFor(st, queries[i], k, encode, search), ([row] + rest)[i])
  {
    forall i | 1 <= i < |queries|
      ensures RowOf(st.metadata, HitsFor(st, queries[i], k, encode, search), ([row] + rest)[i])
    {
      assert queries[i] == queries[1..][i - 1] && ([row] + rest)[i] == rest[i - 1];
    }
  }

  /** FAISS pads a short answer with index `-1` (and the lowest score). With
      no threshold, a batch row turns such a hit into a result carrying the
      last metadata entry, and on an empty store into `IndexError`. */
  lemma BatchPaddingHit(md: seq<Dict>, score: real)
    ensures md != [] ==> BatchRow(md, [Hit(score, -1)]) == Success([Retrieved(score, md[|md| - 1], -1)])
    ensures md == [] ==> BatchRow(md, [Hit(score, -1)]).Failure?
  {
    var hits := [Hit(score, -1)];
    assert Admit(hits[0], |md|, None);
    if md != [] {
      var x := Retrieved(score, md[|md| - 1], -1);
      assert Admits(|md|, None)(hits[0]);
      assert Filter(hits, Admits(|md|, None)) == hits by {
        assert hits[1..] == [];
      }
      var c := Collect(hits, md, None);
      assert c.Success? && |c.value| == 1;
      assert Hit(c.value[0].score, c.value[0].index) in hits;
      assert c.value == [x];
      assert SortByScore([x]) == [x] by {
        assert [x][1..] == [];
      }
    }
  }
}

=== FILE: wrappers.dfy ===
/** Failure-compatible result types used across the model: Python code that
    raises becomes a `Failure`, code that returns becomes a `Success`. */
module Wrappers {

  datatype Option<+T> = None | Some(value: T) {

    /** The wrapped value, or `default` when there is none (Python's `dict.get`). */
    function GetOr(default: T): T {
      match this
      case Some(v) => v
      case None => default
    }
  }

  datatype Result<+R, +E> = Success(value: R) | Failure(error: E) {

    predicate IsFailure() {
      Failure?
    }

    function PropagateFailure<U>(): Result<U, E>
      requires Failure?
    {
      Failure(error)
    }

    function Extract(): R
      requires Success?
    {
      value
    }
  }
}
